=== FILE: README.md ===
# SecOpsTM core in Dafny

This project models the pure logic at the centre of SecOpsTM, a threat-modelling
tool. The surrounding Flask server, file system and report generators are left out.
There are four parts:

- **Vulnerability correlation index** (`CveService`). This is `CVEService`, with two tables.
  - The equipment-to-CVE table comes from a definitions mapping whose keys are stripped.
  - The CVE-to-CAPEC table is merged from a sequence of JSONL shards, one line at a time.
  - Lines that do not decode are skipped. Any other failure abandons the rest of its shard.
  - A record with an empty or missing `CAPEC` field never erases an earlier entry.
  - The loaders take the already-decoded file contents as values, including every way decoding can fail.
- **Model versioning and position metadata** (`Versioning`, `Positions`, `Exports`). These cover the helpers of `ThreatModelService`:
  - stamping the version header, and parsing it back in the compatibility check;
  - the metadata path and the saved metadata;
  - extracting name-keyed placeholder positions, and overlaying the editor's positions on them;
  - the `version_id` of the bundle export, and the file dispatch of the single-format export.
  - Clock readings are parameters.
- **GUI projection** (`GuiProjection`). This is `markdown_to_json_for_gui`.
  - Python's `id()` becomes an explicit arena that gives each object a fresh number the first time it is asked.
  - `element_to_id` is the registry of boundaries, actors, servers and data assets.
  - A dataflow is emitted exactly when both of its endpoints are registered.
- **Markdown serialiser and target names** (`MarkdownDsl`, `TargetNames`).
  - `convert_json_to_markdown` and `_format_properties` write the editor's graph JSON as the Markdown DSL.
  - `get_model_name` reads the title back.
  - `extract_name_from_object` and `get_target_name` are modelled over a tagged variant of the shapes their attribute probing can tell apart.

`ThreatModels` holds the assembled threat model as the service receives it.
`Text` holds the Python string operations the code relies on:
- `strip` with Python's whitespace set;
- `split` and `join`;
- `replace` of every occurrence;
- `startswith`.

`Dicts` holds the dictionary built by a comprehension, where the last write wins.
`Wrappers` holds `Option` and `Result`.

Where the code and its documentation disagree, the model follows the code:
- The default dataflow name is `"<from node name> to <to node name>"`, built from the nodes' names rather than their ids (threat_analysis/server/server.py:232).
- A boundary whose `inBoundary` is itself gets its own id as `parentId`, because its id is registered before the parent lookup (threat_analysis/server/threat_model_service.py:232-236).
- Dataflows receive ids but are not registered, so a dataflow never resolves as an endpoint of another dataflow.

## Model

| member | source | states |
|---|---|---|
| CveService.LoadDefinitions | threat_analysis/core/cve_service.py:33-44 | A missing or unparsable definitions file gives the empty table. Otherwise the keys are exactly the stripped keys of the document, every key is already stripped, and each key maps to the CVE list of the last entry with that stripped key. |
| CveService.TrimmedKeys | threat_analysis/core/cve_service.py:41 | The keys of the definitions comprehension are the stripped document keys, and stripping them again changes nothing. |
| CveService.ApplyItems | threat_analysis/core/cve_service.py:62-64 | The loop over one decoded line only adds or replaces keys, and every value it writes is a non-empty list of "CAPEC-"-prefixed identifiers. |
| CveService.ApplyLines | threat_analysis/core/cve_service.py:59-66 | The same for the loop over one shard's lines. |
| CveService.ApplyShards | threat_analysis/core/cve_service.py:56-68 | The same for the loop over the shards. |
| CveService.LoadCapecMap | threat_analysis/core/cve_service.py:46-71 | A missing shard directory gives the empty table. Every stored value is a non-empty list of "CAPEC-"-prefixed identifiers. |
| CveService.ApplyItemsIsOverlay | threat_analysis/core/cve_service.py:62-64 | The item loop equals overlaying, on the table so far, the dictionary built from the line's writes up to the first item that raises. It also reports whether an item raised. |
| CveService.ApplyLinesIsOverlay | threat_analysis/core/cve_service.py:59-66 | The line loop equals overlaying the dictionary built from the shard's writes, up to the point where the shard is abandoned. |
| CveService.ApplyShardIsOverlay | threat_analysis/core/cve_service.py:57-68 | One shard, readable or not, equals overlaying its write log. |
| CveService.ApplyShardsIsOverlay | threat_analysis/core/cve_service.py:56-68 | The shard loop equals overlaying the concatenated write log of all shards. |
| CveService.LoadIsLastWrite | threat_analysis/core/cve_service.py:46-71 | The loaded table is the dictionary of the independent write log. For each CVE, the last write in sequence order wins. |
| CveService.ShardWritesAppend | threat_analysis/core/cve_service.py:56 | The write log of one more shard is the previous log followed by that shard's writes. |
| CveService.LoadAppend | threat_analysis/core/cve_service.py:56-68 | Shards are processed in sequence order. Loading one more shard applies it to the table loaded from the earlier ones. |
| CveService.LaterRecordWins | threat_analysis/core/cve_service.py:62-64 | A later record with a non-empty CAPEC list replaces any earlier entry for that CVE, with each identifier prefixed by "CAPEC-", in the same order. |
| CveService.EmptyRecordKeepsEntry | threat_analysis/core/cve_service.py:63 | A later record whose CAPEC field is absent or empty leaves the whole table as it was. |
| CveService.UndecodableLineSkipped | threat_analysis/core/cve_service.py:60-66 | An undecodable line is skipped, and the rest of its shard loads as if the line were not there. |
| CveService.BrokenLineAbandonsShard | threat_analysis/core/cve_service.py:57-68 | Any other failing line abandons the rest of its shard and keeps what the earlier lines loaded. |
| CveService.BadDetailsKeepsEarlierEntries | threat_analysis/core/cve_service.py:61-68 | Details that cannot be inspected raise in the middle of a line. The entries written before them in the same line are kept, and the shard is abandoned. |
| CveService.CvesFor | threat_analysis/core/cve_service.py:77-79 | The equipment query is stripped before the lookup, and an unknown name gives []. |
| CveService.CapecsFor | threat_analysis/core/cve_service.py:73-75 | A CVE is looked up exactly, with no stripping, and an unknown CVE gives []. |
| CveService.CvesForIgnoresPadding | threat_analysis/core/cve_service.py:77-79 | A query and its stripped form give the same CVEs. |
| CveService.PaddedLookup | threat_analysis/core/cve_service.py:79 | A name padded with whitespace on either side finds exactly what the bare name finds. |
| CveService.CvesForLoaded | threat_analysis/core/cve_service.py:33-79 | End to end, an equipment query returns the CVEs of the last definition whose stripped key equals the stripped query, or [] when no key matches. |
| CveService.CapecsForLoaded | threat_analysis/core/cve_service.py:46-75 | End to end, a CVE query returns the list of the last reached record with a non-empty CAPEC field for exactly that CVE, or [] when there is none. |
| CveService.UnmentionedCve | threat_analysis/core/cve_service.py:73-75 | A CVE that no reached record writes has no CAPECs. |
| CveService.FixtureDefinitionsTable | tests/test_cve_service.py:35-41 | The fixture's definitions load as exactly two entries. The key written with a trailing space loads stripped. |
| CveService.FixtureEquipmentLookups | tests/test_cve_service.py:112-118 | On the fixture: "WebServer" gives its two CVEs, "  DatabaseServer  " gives ["CVE-2022-5678"], and an unknown name gives []. |
| CveService.FixtureWrites | tests/test_cve_service.py:44-55 | The fixture's three shards write one prefixed record each, in shard order. |
| CveService.FixtureCapecLookups | tests/test_cve_service.py:98-110 | On the fixture's shards: "CVE-2021-44228" gives ["CAPEC-153", "CAPEC-242"], "CVE-2022-5678" gives ["CAPEC-7"], and an unknown CVE gives []. |
| CveService.FixtureUnknownCve | tests/test_cve_service.py:105-110 | On the fixture's shards, "NON_EXISTENT_CVE" has no CAPECs. |
| ThreatModels.ElementName | threat_analysis/server/threat_model_service.py:95-102 | The name comes from the name attribute, else from the 'name' key of a dict, else from the string itself. Otherwise it is "Unknown". |
| Positions.ExtractPositions | threat_analysis/server/threat_model_service.py:58-93 | The extracted positions hold one entry per name of each kind, so duplicate names collapse. An actor or server without a name is keyed "Unknown". |
| Positions.ExtractedPlaceholders | threat_analysis/server/threat_model_service.py:58-93 | Every coordinate is 0 and every dataflow's points are []. An actor or server keeps the boundary name of the last entity with its name. A dataflow's source and target are the element names of the endpoints of the last dataflow with its name. |
| Positions.OverlayKind | threat_analysis/server/threat_model_service.py:173-199 | One kind's loop updates only the names the base already holds. Names only the editor reports are ignored, and every other name keeps its value. A missing table changes nothing. |
| Positions.MergeUiPositions | threat_analysis/server/threat_model_service.py:172-200 | The merge overlays each kind separately. A boundary takes the editor's x, y, width and height, each 0 when missing. Actors and servers take x and y. Dataflows take their points, [] when missing. |
| Positions.MergeKeepsStructure | threat_analysis/server/threat_model_service.py:172-200 | The merge keeps the set of names of every kind, the boundary of every actor and server, and the source and target of every dataflow. |
| Positions.MergeWithoutReport | threat_analysis/server/threat_model_service.py:172-200 | With no editor report, the merge returns the extracted positions unchanged. |
| Versioning.Stamp | threat_analysis/server/threat_model_service.py:136-141 | The header is prepended exactly when the content does not already start with "# Version:". The result always starts with it. |
| Versioning.StampIdempotent | threat_analysis/server/threat_model_service.py:139-141 | Stamping a stamped text again changes nothing, whatever the second clock readings are. |
| Versioning.Compact | threat_analysis/server/threat_model_service.py:138 | The compact timestamp of a valid clock reading is all digits. |
| Versioning.IdLineIsNotVersionLine | threat_analysis/server/threat_model_service.py:111-113 | A "# Version ID:" line is never taken for a "# Version:" line. |
| Versioning.ScanWithoutId | threat_analysis/server/threat_model_service.py:108-115 | Without a version-id line, the version is the value of the last version line, or "1.0" when there is none, and the id is "unknown". |
| Versioning.ScanStopsAtId | threat_analysis/server/threat_model_service.py:108-115 | The scan stops at the first version-id line. The version is that of the last version line before it, the id is that line's stripped value, and nothing after it is read. |
| Versioning.CheckCompatibility | threat_analysis/server/threat_model_service.py:104-130 | A model file that cannot be read, or metadata that is unreadable or not an object, fails the check. Otherwise the check passes exactly when the metadata's version, defaulting to "1.0", equals the header's version and the metadata's version id, defaulting to "unknown", equals the header's version id. |
| Versioning.UnversionedMatchesDefaults | threat_analysis/server/threat_model_service.py:108-119 | A file without header lines and metadata without either field agree through their shared defaults. |
| Versioning.MetadataPathWithoutMd | threat_analysis/server/threat_model_service.py:167 | As written, a path containing no ".md" is its own metadata path. |
| Versioning.MetadataOverwritesModel | threat_analysis/server/threat_model_service.py:167 | As written, the metadata path of the example path "threat_model" is "threat_model" itself. |
| Versioning.MetadataPathFixed | threat_analysis/server/threat_model_service.py:167 | The corrected metadata path never equals the model path. For a path ending in ".md" it swaps that suffix for "_metadata.json". |
| Versioning.MetadataPathAgrees | threat_analysis/server/threat_model_service.py:167 | When ".md" occurs only as the suffix, the corrected path equals the path the code computes. |
| Versioning.Basename | threat_analysis/server/threat_model_service.py:164 | `os.path.basename` is the longest suffix of the path without '/': it holds no '/', and it is either the whole path or preceded by a '/'. |
| Versioning.SaveModel | threat_analysis/server/threat_model_service.py:135-170 | Content that already starts with "# Version:" is saved unchanged. Other content gets the header prepended: version "1.0", the version id of the second clock reading, the display time of the first, and a blank line. The metadata records the same version, version id and time, and the model file's base name. Its positions are the editor's when given, else those extracted from the assembled model, else none (the `{}` written when assembly fails). The metadata path is the output path with every ".md" replaced, so it is the output path itself when that holds no ".md". |
| Versioning.SaveModelFixed | threat_analysis/server/threat_model_service.py:135-170 | The corrected save writes the same model text and metadata, and its metadata path never equals the model path. |
| Versioning.WriteSaved | threat_analysis/server/threat_model_service.py:142-169 | The model file is written first and the metadata file second. The metadata path ends up holding the metadata; the model path holds the model text unless the metadata path is the model path; no other file changes. |
| Versioning.SaveOverwritesModel | threat_analysis/server/threat_model_service.py:142-169 | As written, saving to any output path without ".md" leaves the metadata, not the model text, at that path. |
| Versioning.SaveFixedThenCheck | threat_analysis/server/threat_model_service.py:104-169 | With the corrected path, both files survive the save and what is read back from them passes the compatibility check. |
| Versioning.ParseStamped | threat_analysis/server/threat_model_service.py:108-141 | Parsing a freshly stamped text gives back "1.0" and the version id it was stamped with. |
| Versioning.SaveThenCheck | threat_analysis/server/threat_model_service.py:104-166 | Content not yet stamped, once saved, passes the compatibility check against its freshly written metadata. |
| Versioning.ResaveIsIncompatible | threat_analysis/server/threat_model_service.py:138-166 | Saving an already-stamped text at a different second keeps the old header but writes a new version id. The pair then fails the check. |
| Exports.ExportFiles | threat_analysis/server/threat_model_service.py:372-437 | The checks come in the code's order. Missing content or format, assembly failure, the validator's errors joined by ", ", a missing SVG file, and an unknown format each give their error. Success means every check passed, and it returns the format's file name joined to the output directory. |
| Exports.FilenameIsPlain | threat_analysis/server/threat_model_service.py:390-435 | No export file name holds a directory separator. |
| Exports.ExportPathNamesFile | threat_analysis/server/threat_model_service.py:390-435 | The returned path's base name is the returned file name. |
| Exports.InvalidFormatAfterValidation | threat_analysis/server/threat_model_service.py:374-437 | An invalid format is reported only after the content, assembly and validation checks have all passed. |
| Exports.BasenameOfJoin | threat_analysis/server/threat_model_service.py:393-395 | The base name of a directory joined with a plain file name is that file name. |
| Exports.BundleVersionIdIsCompact | threat_analysis/server/threat_model_service.py:531-541 | The bundle's version id, "1.0-" followed by the dashed timestamp with '-', ':' and '_' removed, equals the version id `save_model_with_metadata` derives from the same clock reading. |
| Exports.DropSeparator | threat_analysis/server/threat_model_service.py:541 | Removing the separators keeps a digit field and drops the separator that follows it. |
| Exports.BundleMetadata | threat_analysis/server/threat_model_service.py:538-550 | The bundle's metadata records version "1.0", the model file "threat_model.md", the compact version id, the display time of the clock reading and the extracted positions. |
| Exports.ExportAllFiles | threat_analysis/server/threat_model_service.py:526-574 | Empty content fails before anything is created. Success means the generators and the assembler succeeded. A successful bundle carries the dashed timestamp and its metadata, and its working directory is removed. |
| Exports.ExportAllLeaksOnFailure | threat_analysis/server/threat_model_service.py:534-572 | As written, a failure after the working directory is created leaves that directory behind. |
| Exports.ExportAllFilesFixed | threat_analysis/server/threat_model_service.py:526-574 | With the removal in a `finally`, the working directory never remains after a call with content. |
| Exports.ExportAllFixedCleansUp | threat_analysis/server/threat_model_service.py:526-574 | The corrected export returns exactly what the code returns, and differs only in removing the working directory on every path. |
| GuiProjection.Allocate | threat_analysis/server/threat_model_service.py:231 | `id()` returns the known number of an object seen before, or a number no other object has. |
| GuiProjection.Register | threat_analysis/server/threat_model_service.py:231-232 | Registering records the object's number in `element_to_id` and keeps every earlier entry. |
| GuiProjection.RegisterAll | threat_analysis/server/threat_model_service.py:229-283 | One entity loop registers exactly its objects, and each record's id is its object's number. Each record's parent id is set exactly when the parent was registered before the loop, or earlier in the loop, or is the entity itself. It is then the parent's number. |
| GuiProjection.Kept | threat_analysis/server/threat_model_service.py:291-297 | The kept dataflows are exactly the model's dataflows both of whose endpoints have an id. |
| GuiProjection.ProjectFlows | threat_analysis/server/threat_model_service.py:291-307 | Every dataflow gets a number. The records are exactly those of the kept dataflows, in order, with both endpoints' ids. |
| GuiProjection.Project | threat_analysis/server/threat_model_service.py:229-309 | The projection fails with KeyError exactly when an actor or server has no name, and with TypeError when an endpoint is a dict. On success, `element_to_id` holds exactly the entities' objects. |
| GuiProjection.ProjectionIds | threat_analysis/server/threat_model_service.py:229-307 | There is one record per boundary, actor, server and data asset, in input order, each carrying its object's number. `element_to_id` agrees with those numbers. |
| GuiProjection.IdsIdentifyObjects | threat_analysis/server/threat_model_service.py:229-307 | Two emitted records of any kinds share an id exactly when they come from the same object, so distinct entities get distinct ids. |
| GuiProjection.BoundaryParentIds | threat_analysis/server/threat_model_service.py:229-245 | A boundary's parentId is set exactly when its parent is itself or a boundary listed before it, and it is then the parent's id. |
| GuiProjection.ActorParentIds | threat_analysis/server/threat_model_service.py:247-261 | An actor's parentId is set exactly when its boundary is a boundary of the model or an actor listed up to it. |
| GuiProjection.ServerParentIds | threat_analysis/server/threat_model_service.py:263-278 | A server's parentId is set exactly when its boundary is a boundary or an actor of the model, or a server listed up to it. |
| GuiProjection.EmittedDataflows | threat_analysis/server/threat_model_service.py:291-307 | A dataflow is emitted exactly when both endpoints are objects of registered boundaries, actors, servers or data assets. The records follow the dataflows' order and carry the endpoints' ids. |
| GuiProjection.MarkdownToGui | threat_analysis/server/threat_model_service.py:202-217 | Empty content and a failed assembly each raise their error. Otherwise the result is the projection of the assembled model. |
| MarkdownDsl.PropertyListMembers | threat_analysis/server/server.py:183-190 | A requested key with a truthy value contributes its `key="value"` entry. Every entry comes from a requested key with a truthy value. |
| MarkdownDsl.PropertyListAppend | threat_analysis/server/server.py:186-189 | Properties follow the order of the requested keys. |
| MarkdownDsl.FormatPropertiesEmpty | threat_analysis/server/server.py:183-190 | The property text is empty exactly when no requested key has a truthy value. |
| MarkdownDsl.BoundaryMap | threat_analysis/server/server.py:202 | The boundary map's keys are the boundary ids. Each maps to the name of a boundary with that id, and that is the name of the last boundary with the id. |
| MarkdownDsl.NodeTable | threat_analysis/server/server.py:227 | The node table's keys are the ids of actors, servers and data items. Each maps to an item with that id, and that is the last item with the id. |
| MarkdownDsl.NodeBoundaryProperty | threat_analysis/server/server.py:202-219 | An actor's or server's boundary property is the name the boundary map gives its parentId. It is omitted when no boundary has the node's parentId, or when that boundary's name is falsy. A missing parentId is looked up as None, so a boundary whose id is null names it. |
| MarkdownDsl.FlowLine | threat_analysis/server/server.py:228-234 | A dataflow line exists exactly when both endpoints resolve. It is the bold name, which is the dataflow's truthy name or else "<from name> to <to name>", then `from="…", to="…", ` with the endpoint names, then the dataflow's protocol and description properties. |
| MarkdownDsl.FlowLines | threat_analysis/server/server.py:228-234 | The dataflow section holds the lines of exactly the resolving dataflows. |
| MarkdownDsl.FlowLinesSnoc | threat_analysis/server/server.py:228-234 | One more dataflow appends its line, when it resolves, after the lines of the earlier dataflows, so the section keeps input order. |
| MarkdownDsl.FlowEmittedIff | threat_analysis/server/server.py:227-231 | A dataflow is written exactly when both endpoints are ids of actors, servers or data items. A boundary id does not count. |
| MarkdownDsl.ConvertJsonToMarkdown | threat_analysis/server/server.py:192-236 | The serialiser produces text exactly when every key it indexes with `[...]` is present. Otherwise it raises KeyError. |
| MarkdownDsl.SectionOrder | threat_analysis/server/server.py:192-234 | The output opens with "# Threat Model: Graphical Editor", then the headers Boundaries, Actors, Servers, Data and Dataflows. Every boundary, actor, server and data item has exactly one line, at its input position: its bold name followed by its properties. A boundary carries its description; an actor or server its looked-up boundary name and description; a data item its description and classification. After the Dataflows header come exactly the lines of the resolving dataflows, and the length is exact. |
| MarkdownDsl.NodeLineBoundary | threat_analysis/server/server.py:202-219 | An actor's or server's line names, as its boundary, the truthy name of the last boundary whose id equals its parentId. When no boundary has that id, only the description follows the name. |
| MarkdownDsl.FirstTitle | threat_analysis/server/server.py:67 | The first line starting with "# Threat Model: " gives the text after that prefix. There is no match when no line starts with it. |
| MarkdownDsl.GetModelName | threat_analysis/server/server.py:66-70 | Text without a title line is named "Untitled Model". Otherwise the name is the stripped rest of the first line that starts with "# Threat Model: ". |
| MarkdownDsl.ModelNameOfTitle | threat_analysis/server/server.py:66-70 | A leading title line names the model with the stripped title. |
| MarkdownDsl.ConvertedModelName | threat_analysis/server/server.py:66-194 | For every graph it accepts, the serialiser's output reads back as "Graphical Editor". |
| MarkdownDsl.DefaultModelName | threat_analysis/server/server.py:39-70 | The starting template is named "New Model". |
| TargetNames.ExtractName | threat_analysis/generation/utils.py:21-50 | A one-element tuple is unwrapped once. Then None is "Unspecified", a named object gives its name, a string gives itself, and anything else is "Unspecified". |
| TargetNames.GetTargetName | threat_analysis/generation/utils.py:53-95 | A pair renders as "A → B", taking a dataflow's source on the left and its sink on the right. A one-tuple holding a dataflow renders as its endpoints. Tuples of length 0 or 3 and more render as "Unspecified". Everything else renders by its extracted name. |
| TargetNames.UnwrapsOnce | threat_analysis/generation/utils.py:37-38 | A tuple nested in a one-element tuple is not unwrapped a second time. |
| TargetNames.NoneIsUnspecified | threat_analysis/generation/utils.py:37-41 | None, bare or in a one-element tuple, renders as "Unspecified" under both functions. |
| TargetNames.WrappedFlowIsEndpointPair | threat_analysis/generation/utils.py:69-92 | A one-tuple holding a dataflow whose endpoints are not dataflows themselves renders like the pair of its endpoints. |
| TargetNames.BareFlowIsNamed | threat_analysis/generation/utils.py:43-95 | A dataflow that is not in a tuple renders by its own name, not by its endpoints. |

## Left out

- File and directory I/O, YAML and JSON decoding, logging, `datetime.now()` and `os.makedirs` are outside the model. Decoded contents, failure shapes and clock readings are parameters.
- The Flask routes, `run_gui`, `run_full_gui` and the global `initial_markdown_content` are HTTP plumbing and process state.
- `create_threat_model`, `ModelValidator` and the diagram, report, STIX, Navigator and MITRE collaborators are not part of this model. Their outcomes are parameters: the assembled model, the validation messages, and whether generation succeeded.
- `update_diagram_logic`, `generate_full_project_export`, `export_navigator_stix_logic` and `export_attack_flow_logic` consist of file generation by those collaborators.
- The zip archive of the bundle export and the tool that copies CVE data are file operations only.
- Directory listing order: shards are processed in the order of the given sequence. `glob` order is unspecified.
- CveService.LoadDefinitions: Python's `str(k)` of a non-string key is taken as given. A definition key that is not a string is already its text.
- CveService.LoadDefinitions: the value of each definition is kept as a list of strings. YAML values of other shapes are not distinguished.
- CveService.LoadCapecMap: a line that is a JSON value other than an object is an abandoning failure (`Broken`). The distinct exceptions it can raise all end the shard alike.
- Python key equality across types (`1 == True`), and unhashable ids in `boundary_map` and `nodes`, are not modelled. JSON keys compare structurally.
- MarkdownDsl.Render: floats, lists and objects are carried with their `str()` text and truthiness, not their structure.
- Positions.MergeUiPositions: a coordinate the editor sends as JSON null is treated as missing, and so as 0. The code would store None.
- Positions.MergeUiPositions: coordinates are integers. The editor may send JSON floats, which the merge copies unchanged; since it only copies and defaults them, no property here depends on the number type.
- Versioning.SaveModel: editor positions of `{}` are falsy in the code. The caller passes them as no positions.
- GuiProjection.Project: `getattr` defaults on data assets and dataflows are taken from the assembled model. The descriptive fields are not modelled beyond names and ids.
- GuiProjection.Project: a dataflow endpoint that is a dict raises TypeError in the code. It is a failure of the projection, not a partial result.

## Findings

| source | as written | input that shows it | evidently intended | confidence | as-written member | corrected member |
|---|---|---|---|---|---|---|
| threat_analysis/server/threat_model_service.py:167 | The metadata path replaces every ".md" in the output path with "_metadata.json". | Any output path without ".md", for example "threat_model" (no caller is part of this model), is its own metadata path, so the metadata overwrites the model just written. | The ".md" suffix is swapped for "_metadata.json", and the metadata file is never the model file. | not executed | Versioning.SaveOverwritesModel | Versioning.SaveModelFixed |
| threat_analysis/server/threat_model_service.py:526-574 | `export_all_files_logic` creates the export directory and removes it only after every generator and the zip succeed. There is no try/finally. | A generator raising after `os.makedirs` at line 534 leaves the `export_<timestamp>` directory behind. | The working directory is removed on every path. | not executed | Exports.ExportAllLeaksOnFailure | Exports.ExportAllFixedCleansUp |

=== FILE: cve_service.dfy ===
/**
  The vulnerability correlation index of `CVEService`: a table from equipment
  name to CVE identifiers, loaded from a definitions mapping, and a table from
  CVE identifier to CAPEC identifiers, merged from a directory of JSONL shards.
  File reading and YAML/JSON decoding are outside the model: the loaders take
  the already-decoded contents, including the ways decoding can fail.
 */
module CveService {
  import opened Text
  import opened Dicts

  /** A lookup table keyed by name or CVE identifier. */
  type Table = map<string, seq<string>>

  // ---------------------------------------------------------------------------
  // Equipment definitions

  /** One `name: [CVE, ...]` pair of the definitions mapping; `key` is `str(k)`. */
  datatype DefinitionEntry = DefinitionEntry(key: string, cves: seq<string>)

  /** The definitions file as the loader sees it. */
  datatype DefinitionsFile =
    | Absent
      // the file does not exist
    | Unparsable
      // reading or YAML decoding raised, or the document is not a mapping
    | Document(entries: seq<DefinitionEntry>)
      // a mapping, in document order (an empty document is the empty mapping)

  /** The `(key.strip(), value)` pairs of the comprehension, in document order. */
  function TrimmedPairs(entries: seq<DefinitionEntry>): (pairs: seq<(string, seq<string>)>)
    ensures |pairs| == |entries|
    ensures forall i :: 0 <= i < |entries| ==> pairs[i] == (Trim(entries[i].key), entries[i].cves)
  {
    seq(|entries|, i requires 0 <= i < |entries| => (Trim(entries[i].key), entries[i].cves))
  }

  /** `_load_cve_definitions`: equipment name (trimmed) to its CVE list. */
  function LoadDefinitions(f: DefinitionsFile): (t: Table)
    ensures !f.Document? ==> t == map[]
    ensures forall k :: k in t ==> Trim(k) == k
    ensures f.Document? ==> t.Keys == set i | 0 <= i < |f.entries| :: Trim(f.entries[i].key)
    ensures f.Document? ==>
              forall i :: LastForKey(TrimmedPairs(f.entries), i) ==>
                t[Trim(f.entries[i].key)] == f.entries[i].cves
  {
    match f
    case Absent => map[]
    case Unparsable => map[]
    case Document(entries) =>
      TrimmedKeys(entries);
      Collect(TrimmedPairs(entries))
  }

  /** The keys of the loaded definitions are exactly the trimmed keys of the document. */
  lemma TrimmedKeys(entries: seq<DefinitionEntry>)
    ensures Collect(TrimmedPairs(entries)).Keys == set i | 0 <= i < |entries| :: Trim(entries[i].key)
    ensures forall k :: k in Collect(TrimmedPairs(entries)) ==> Trim(k) == k
  {
    var pairs := TrimmedPairs(entries);
    TrimmedKeySet(entries, pairs);
    forall k | k in Collect(pairs) ensures Trim(k) == k {
      var i :| 0 <= i < |pairs| && pairs[i].0 == k;
      TrimIdempotent(entries[i].key);
    }
  }

  lemma TrimmedKeySet(entries: seq<DefinitionEntry>, pairs: seq<(string, seq<string>)>)
    requires pairs == TrimmedPairs(entries)
    ensures (set i | 0 <= i < |pairs| :: pairs[i].0) == set i | 0 <= i < |entries| :: Trim(entries[i].key)
  {
    var a := set i | 0 <= i < |pairs| :: pairs[i].0;
    var b := set i | 0 <= i < |entries| :: Trim(entries[i].key);
    forall k | k in a ensures k in b {
      var i :| 0 <= i < |pairs| && pairs[i].0 == k;
      assert Trim(entries[i].key) == k;
    }
    forall k | k in b ensures k in a {
      var i :| 0 <= i < |entries| && Trim(entries[i].key) == k;
      assert pairs[i].0 == k;
    }
  }

  // ---------------------------------------------------------------------------
  // CVE to CAPEC shards

  /** The `"CAPEC"` field of one CVE's details. */
  datatype CapecField =
    | NoField
      // the details have no "CAPEC" key
    | Ids(ids: seq<string>)
      // the field's identifiers, possibly none (falsy, like null or [])

  /** One `cve_id: details` pair of a decoded line, in key order. */
  datatype Item =
    | Entry(cve: string, capec: CapecField)
    | BadDetails
      // details that make the membership test or the comprehension raise
      // (for example details that are not an object, or a truthy CAPEC
      // field that is not iterable),
      // abandoning the shard

  /** One line of a shard. */
  datatype Line =
    | Undecodable
      // json.JSONDecodeError: logged and skipped
    | Decoded(items: seq<Item>)
      // a JSON object
    | Broken
      // any other failure on this line (not an object, unreadable bytes): abandons the shard

  /** One `*.jsonl` shard, in the order the directory listing yields it. */
  datatype Shard = Unreadable | Lines(lines: seq<Line>)

  /** The shard directory. */
  datatype ShardDirectory = NoDirectory | Directory(shards: seq<Shard>)

  /** The stored form of a record's identifiers: each prefixed with "CAPEC-". */
  function Prefixed(ids: seq<string>): (r: seq<string>)
    ensures |r| == |ids|
    ensures forall i :: 0 <= i < |ids| ==> r[i] == "CAPEC-" + ids[i]
  {
    seq(|ids|, i requires 0 <= i < |ids| => "CAPEC-" + ids[i])
  }

  /** A CAPEC list as the loader stores it: non-empty, every entry prefixed. */
  predicate IsCapecList(v: seq<string>) {
    |v| > 0 && forall i :: 0 <= i < |v| ==> StartsWith(v[i], "CAPEC-")
  }

  /** The table after part of a shard, and whether the rest of the shard is abandoned. */
  datatype Progress = Progress(table: Table, aborted: bool)

  /** Every key of `t` is still present, and every changed value is a CAPEC list. */
  predicate Extends(t: Table, t': Table) {
    && t.Keys <= t'.Keys
    && forall k :: k in t' ==> (k in t && t'[k] == t[k]) || IsCapecList(t'[k])
  }

  /** The effect of one CVE entry: stored only when its CAPEC field is truthy. */
  function ApplyEntry(t: Table, cve: string, field: CapecField): Table {
    if field.Ids? && |field.ids| > 0 then t[cve := Prefixed(field.ids)] else t
  }

  /** The inner `for cve_id, details in data.items()` loop over one decoded line. */
  function ApplyItems(t: Table, items: seq<Item>): (p: Progress)
    ensures Extends(t, p.table)
    decreases |items|
  {
    if |items| == 0 then Progress(t, false)
    else match items[0]
      case BadDetails => Progress(t, true)
      case Entry(cve, field) => ApplyItems(ApplyEntry(t, cve, field), items[1..])
  }

  /** The `for line in f` loop over one shard. */
  function ApplyLines(t: Table, lines: seq<Line>): (p: Progress)
    ensures Extends(t, p.table)
    decreases |lines|
  {
    if |lines| == 0 then Progress(t, false)
    else match lines[0]
      case Undecodable => ApplyLines(t, lines[1..])
      case Broken => Progress(t, true)
      case Decoded(items) =>
        var p := ApplyItems(t, items);
        if p.aborted then p else ApplyLines(p.table, lines[1..])
  }

  /** One iteration of the `for jsonl_file in ...` loop. */
  function ApplyShard(t: Table, shard: Shard): (t': Table)
    ensures Extends(t, t')
  {
    match shard
    case Unreadable => t
    case Lines(lines) => ApplyLines(t, lines).table
  }

  /** The shard loop, in sequence order. */
  function ApplyShards(t: Table, shards: seq<Shard>): (t': Table)
    ensures Extends(t, t')
    decreases |shards|
  {
    if |shards| == 0 then t else ApplyShards(ApplyShard(t, shards[0]), shards[1..])
  }

  /** `_load_cve_to_capec_map`. */
  function LoadCapecMap(d: ShardDirectory): (t: Table)
    ensures d.NoDirectory? ==> t == map[]
    ensures forall k :: k in t ==> IsCapecList(t[k])
  {
    match d
    case NoDirectory => map[]
    case Directory(shards) => ApplyShards(map[], shards)
  }

  // ---------------------------------------------------------------------------
  // Reference definition: the log of writes the loader performs

  /** The writes of a decoded line up to the first item that raises, and whether one did. */
  function ItemWrites(items: seq<Item>): (seq<(string, seq<string>)>, bool)
    decreases |items|
  {
    if |items| == 0 then ([], false)
    else match items[0]
      case BadDetails => ([], true)
      case Entry(cve, field) =>
        var rest := ItemWrites(items[1..]);
        if field.Ids? && |field.ids| > 0 then ([(cve, Prefixed(field.ids))] + rest.0, rest.1)
        else rest
  }

  /** The writes of a shard's lines up to the point where the shard is abandoned. */
  function LineWrites(lines: seq<Line>): seq<(string, seq<string>)>
    decreases |lines|
  {
    if |lines| == 0 then []
    else match lines[0]
      case Undecodable => LineWrites(lines[1..])
      case Broken => []
      case Decoded(items) =>
        var w := ItemWrites(items);
        if w.1 then w.0 else w.0 + LineWrites(lines[1..])
  }

  /** The writes of one shard. */
  function ShardLog(shard: Shard): seq<(string, seq<string>)> {
    match shard
    case Unreadable => []
    case Lines(lines) => LineWrites(lines)
  }

  /** The writes of all shards, in sequence order. */
  function ShardWrites(shards: seq<Shard>): seq<(string, seq<string>)>
    decreases |shards|
  {
    if |shards| == 0 then [] else ShardLog(shards[0]) + ShardWrites(shards[1..])
  }

  /** Building a dictionary from two runs of pairs is overlaying the second on the first. */
  lemma {:induction false} CollectAppend<K, V>(p: seq<(K, V)>, q: seq<(K, V)>)
    ensures Collect(p + q) == Collect(p) + Collect(q)
    decreases |q|
  {
    if |q| > 0 {
      var q', last := q[..|q| - 1], q[|q| - 1];
      assert (p + q)[..|p + q| - 1] == p + q';
      assert (p + q)[|p + q| - 1] == last;
      assert Collect(p + q) == Collect(p + q')[last.0 := last.1];
      assert Collect(q) == Collect(q')[last.0 := last.1];
      CollectAppend(p, q');
      OverlayUpdate(Collect(p), Collect(q'), last.0, last.1);
    } else {
      assert p + q == p;
    }
  }

  /** Updating an overlay is updating its top layer. */
  lemma OverlayUpdate<K, V>(a: map<K, V>, b: map<K, V>, k: K, v: V)
    ensures (a + b)[k := v] == a + b[k := v]
  {
  }

  /** Writing one pair in front of a log is overlaying the log on that single write. */
  lemma ConsWrite(t: Table, k: string, v: seq<string>, w: seq<(string, seq<string>)>)
    ensures t[k := v] + Collect(w) == t + Collect([(k, v)] + w)
  {
    CollectAppend([(k, v)], w);
    assert Collect([(k, v)]) == Collect([(k, v)][..0])[k := v];
  }

  lemma OverlayAssoc(t: Table, a: Table, b: Table)
    ensures (t + a) + b == t + (a + b)
  {
  }

  lemma {:induction false} ApplyItemsIsOverlay(t: Table, items: seq<Item>)
    ensures ApplyItems(t, items) == Progress(t + Collect(ItemWrites(items).0), ItemWrites(items).1)
    decreases |items|
  {
    if |items| > 0 {
      match items[0]
      case BadDetails =>
      case Entry(cve, field) =>
        var t' := ApplyEntry(t, cve, field);
        ApplyItemsIsOverlay(t', items[1..]);
        var w := ItemWrites(items[1..]).0;
        if field.Ids? && |field.ids| > 0 {
          ConsWrite(t, cve, Prefixed(field.ids), w);
        }
    }
  }

  lemma {:induction false} ApplyLinesIsOverlay(t: Table, lines: seq<Line>)
    ensures ApplyLines(t, lines).table == t + Collect(LineWrites(lines))
    decreases |lines|
  {
    if |lines| > 0 {
      match lines[0]
      case Undecodable => ApplyLinesIsOverlay(t, lines[1..]);
      case Broken =>
      case Decoded(items) =>
        ApplyItemsIsOverlay(t, items);
        var w := ItemWrites(items);
        if !w.1 {
          var a, b := Collect(w.0), Collect(LineWrites(lines[1..]));
          ApplyLinesIsOverlay(t + a, lines[1..]);
          CollectAppend(w.0, LineWrites(lines[1..]));
          OverlayAssoc(t, a, b);
        }
    }
  }

  lemma ApplyShardIsOverlay(t: Table, shard: Shard)
    ensures ApplyShard(t, shard) == t + Collect(ShardLog(shard))
  {
    match shard
    case Unreadable => assert t + Collect([]) == t;
    case Lines(lines) => ApplyLinesIsOverlay(t, lines);
  }

  lemma {:induction false} ApplyShardsIsOverlay(t: Table, shards: seq<Shard>)
    ensures ApplyShards(t, shards) == t + Collect(ShardWrites(shards))
    decreases |shards|
  {
    if |shards| > 0 {
      var first := ShardLog(shards[0]);
      ApplyShardIsOverlay(t, shards[0]);
      var a, b := Collect(first), Collect(ShardWrites(shards[1..]));
      ApplyShardsIsOverlay(t + a, shards[1..]);
      CollectAppend(first, ShardWrites(shards[1..]));
      OverlayAssoc(t, a, b);
    }
  }

  /**
    The merged table is exactly the dictionary built from the loader's write
    log: a CVE is present iff some reached record carried a non-empty CAPEC
    list for it, and its value comes from the last such record.
   */
  lemma LoadIsLastWrite(shards: seq<Shard>)
    ensures LoadCapecMap(Directory(shards)) == Collect(ShardWrites(shards))
  {
    ApplyShardsIsOverlay(map[], shards);
    assert map[] + Collect(ShardWrites(shards)) == Collect(ShardWrites(shards));
  }

  // ---------------------------------------------------------------------------
  // Failure granularity and ordering

  /** Shards are processed in sequence order: a further shard is applied to the table so far. */
  lemma {:induction false} ShardWritesAppend(shards: seq<Shard>, s: Shard)
    ensures ShardWrites(shards + [s]) == ShardWrites(shards) + ShardLog(s)
    decreases |shards|
  {
    if |shards| == 0 {
      assert shards + [s] == [s];
    } else {
      assert (shards + [s])[1..] == shards[1..] + [s];
      ShardWritesAppend(shards[1..], s);
    }
  }

  /**
    Loading one more shard applies it to the table built from the earlier ones,
    whatever happened inside them: an abandoned or unreadable shard does not stop
    the shards after it.
   */
  lemma LoadAppend(shards: seq<Shard>, s: Shard)
    ensures LoadCapecMap(Directory(shards + [s])) == ApplyShard(LoadCapecMap(Directory(shards)), s)
  {
    LoadIsLastWrite(shards + [s]);
    LoadIsLastWrite(shards);
    ShardWritesAppend(shards, s);
    CollectAppend(ShardWrites(shards), ShardLog(s));
    ApplyShardIsOverlay(LoadCapecMap(Directory(shards)), s);
  }

  /** A later non-empty record for a CVE replaces the earlier entry, prefixed. */
  lemma LaterRecordWins(shards: seq<Shard>, cve: string, ids: seq<string>)
    requires |ids| > 0
    ensures var t := LoadCapecMap(Directory(shards + [Lines([Decoded([Entry(cve, Ids(ids))])])]));
            cve in t && t[cve] == Prefixed(ids)
  {
    var before := LoadCapecMap(Directory(shards));
    var items := [Entry(cve, Ids(ids))];
    var after := before[cve := Prefixed(ids)];
    LoadAppend(shards, Lines([Decoded(items)]));
    assert ApplyItems(before, items) == ApplyItems(after, items[1..]) == Progress(after, false);
    assert [Decoded(items)][1..] == [];
    assert ApplyLines(before, [Decoded(items)]) == ApplyLines(after, []);
  }

  /** A later record whose CAPEC field is absent or empty leaves the table as it was. */
  lemma EmptyRecordKeepsEntry(shards: seq<Shard>, cve: string, field: CapecField)
    requires field.NoField? || field.ids == []
    ensures LoadCapecMap(Directory(shards + [Lines([Decoded([Entry(cve, field)])])]))
            == LoadCapecMap(Directory(shards))
  {
    var before := LoadCapecMap(Directory(shards));
    var items := [Entry(cve, field)];
    LoadAppend(shards, Lines([Decoded(items)]));
    assert ApplyItems(before, items) == ApplyItems(before, items[1..]) == Progress(before, false);
    assert [Decoded(items)][1..] == [];
    assert ApplyLines(before, [Decoded(items)]) == ApplyLines(before, []);
  }

  /** An undecodable line is skipped: the shard loads as if it were not there. */
  lemma {:induction false} UndecodableLineSkipped(t: Table, pre: seq<Line>, post: seq<Line>)
    ensures ApplyLines(t, pre + [Undecodable] + post) == ApplyLines(t, pre + post)
    decreases |pre|
  {
    if |pre| == 0 {
      assert pre + [Undecodable] + post == [Undecodable] + post;
      assert pre + post == post;
    } else {
      assert (pre + [Undecodable] + post)[1..] == pre[1..] + [Undecodable] + post;
      assert (pre + post)[1..] == pre[1..] + post;
      assert (pre + [Undecodable] + post)[0] == pre[0] == (pre + post)[0];
      match pre[0]
      case Undecodable => UndecodableLineSkipped(t, pre[1..], post);
      case Broken =>
      case Decoded(items) =>
        var p := ApplyItems(t, items);
        if !p.aborted {
          UndecodableLineSkipped(p.table, pre[1..], post);
        }
    }
  }

  /**
    Any other failing line abandons the rest of its shard: nothing after it is
    loaded, and everything before it is kept.
   */
  lemma {:induction false} BrokenLineAbandonsShard(t: Table, pre: seq<Line>, post: seq<Line>)
    ensures ApplyLines(t, pre + [Broken] + post).table == ApplyLines(t, pre).table
    ensures ApplyLines(t, pre + [Broken] + post).aborted
    decreases |pre|
  {
    if |pre| == 0 {
      assert pre + [Broken] + post == [Broken] + post;
    } else {
      assert (pre + [Broken] + post)[1..] == pre[1..] + [Broken] + post;
      assert (pre + [Broken] + post)[0] == pre[0];
      match pre[0]
      case Undecodable => BrokenLineAbandonsShard(t, pre[1..], post);
      case Broken =>
      case Decoded(items) =>
        var p := ApplyItems(t, items);
        if !p.aborted {
          BrokenLineAbandonsShard(p.table, pre[1..], post);
        }
    }
  }

  /**
    Details that cannot be inspected raise inside a line: entries of that line
    before them are kept (the table is updated in place), and the shard is abandoned.
   */
  lemma {:induction false} BadDetailsKeepsEarlierEntries(t: Table, pre: seq<Item>, post: seq<Item>)
    ensures ApplyItems(t, pre + [BadDetails] + post) == Progress(ApplyItems(t, pre).table, true)
    decreases |pre|
  {
    if |pre| == 0 {
      assert pre + [BadDetails] + post == [BadDetails] + post;
    } else {
      assert (pre + [BadDetails] + post)[1..] == pre[1..] + [BadDetails] + post;
      assert (pre + [BadDetails] + post)[0] == pre[0];
      match pre[0]
      case BadDetails =>
      case Entry(cve, field) => BadDetailsKeepsEarlierEntries(ApplyEntry(t, cve, field), pre[1..], post);
    }
  }

  // ---------------------------------------------------------------------------
  // The index and its lookups

  /** Both tables, built once; lookups take the index by value and cannot change it. */
  datatype Index = Index(definitions: Table, capecs: Table)

  /** `CVEService.__init__`, given the decoded contents of both sources. */
  function Build(defs: DefinitionsFile, dir: ShardDirectory): (idx: Index)
    ensures idx.definitions == LoadDefinitions(defs)
    ensures idx.capecs == LoadCapecMap(dir)
  {
    Index(LoadDefinitions(defs), LoadCapecMap(dir))
  }

  /** `get_capecs_for_cve`: exact-match lookup, `[]` when unknown. */
  function CapecsFor(idx: Index, cve: string): (r: seq<string>)
    ensures cve in idx.capecs ==> r == idx.capecs[cve]
    ensures cve !in idx.capecs ==> r == []
  {
    if cve in idx.capecs then idx.capecs[cve] else []
  }

  /** `get_cves_for_equipment`: the query is trimmed, `[]` when unknown. */
  function CvesFor(idx: Index, name: string): (r: seq<string>)
    ensures Trim(name) in idx.definitions ==> r == idx.definitions[Trim(name)]
    ensures Trim(name) !in idx.definitions ==> r == []
  {
    var key := Trim(name);
    if key in idx.definitions then idx.definitions[key] else []
  }

  /** Surrounding whitespace in the equipment query makes no difference. */
  lemma CvesForIgnoresPadding(idx: Index, name: string)
    ensures CvesFor(idx, name) == CvesFor(idx, Trim(name))
  {
    TrimIdempotent(name);
  }

  /**
    End to end: the CVEs reported for an equipment are those of the last
    definition whose trimmed key equals the trimmed query, and `[]` if there is none.
   */
  lemma CvesForLoaded(entries: seq<DefinitionEntry>, dir: ShardDirectory, name: string)
    ensures var r := CvesFor(Build(Document(entries), dir), name);
            && ((forall i :: 0 <= i < |entries| ==> Trim(entries[i].key) != Trim(name)) ==> r == [])
            && (forall i :: LastForKey(TrimmedPairs(entries), i) && Trim(entries[i].key) == Trim(name)
                  ==> r == entries[i].cves)
  {
  }

  /**
    End to end: the CAPECs reported for a CVE are those of the last reached
    record with a non-empty CAPEC list for exactly that identifier, and `[]` if there is none.
   */
  lemma CapecsForLoaded(defs: DefinitionsFile, shards: seq<Shard>, cve: string)
    ensures var log := ShardWrites(shards);
            var r := CapecsFor(Build(defs, Directory(shards)), cve);
            && ((forall i :: 0 <= i < |log| ==> log[i].0 != cve) ==> r == [])
            && (forall i :: LastForKey(log, i) && log[i].0 == cve ==> r == log[i].1)
  {
    LoadIsLastWrite(shards);
  }

  /** The test fixture's definitions: one key carries a trailing space. */
  function FixtureDefinitions(): DefinitionsFile {
    Document([
      DefinitionEntry("WebServer", ["CVE-2021-44228", "CVE-2023-1234"]),
      DefinitionEntry("DatabaseServer ", ["CVE-2022-5678"])])
  }

  /** The test fixture's three yearly shards, one record each. */
  function FixtureShards(): ShardDirectory {
    Directory([
      Lines([Decoded([Entry("CVE-2021-44228", Ids(["153", "242"]))])]),
      Lines([Decoded([Entry("CVE-2022-5678", Ids(["7"]))])]),
      Lines([Decoded([Entry("CVE-2023-1234", Ids(["126"]))])])])
  }

  /** The fixture's definition keys load trimmed. */
  lemma FixtureKeysTrimmed(entries: seq<DefinitionEntry>)
    requires entries == FixtureDefinitions().entries
    ensures TrimmedPairs(entries)
            == [("WebServer", ["CVE-2021-44228", "CVE-2023-1234"]), ("DatabaseServer", ["CVE-2022-5678"])]
  {
    TrimUnpadded("WebServer");
    TrimAround("", "DatabaseServer", " ");
    assert "" + "DatabaseServer" + " " == "DatabaseServer ";
  }

  /** The fixture's loaded definitions table. */
  predicate IsFixtureTable(t: Table) {
    t == map["WebServer" := ["CVE-2021-44228", "CVE-2023-1234"], "DatabaseServer" := ["CVE-2022-5678"]]
  }

  /** The fixture's definitions table. */
  lemma FixtureDefinitionsTable(defs: DefinitionsFile)
    requires defs == FixtureDefinitions()
    ensures IsFixtureTable(LoadDefinitions(defs))
  {
    FixtureKeysTrimmed(defs.entries);
    CollectTwo("WebServer", ["CVE-2021-44228", "CVE-2023-1234"], "DatabaseServer", ["CVE-2022-5678"]);
  }

  /** Two pairs with distinct keys collect into a two-entry table. */
  lemma CollectTwo(k1: string, v1: seq<string>, k2: string, v2: seq<string>)
    requires k1 != k2
    ensures Collect([(k1, v1), (k2, v2)]) == map[k1 := v1, k2 := v2]
  {
    var pairs := [(k1, v1), (k2, v2)];
    assert pairs[..1][..0] == [];
    assert Collect(pairs[..1]) == map[k1 := v1];
  }

  lemma FixtureExactQuery(idx: Index)
    requires IsFixtureTable(idx.definitions)
    ensures CvesFor(idx, "WebServer") == ["CVE-2021-44228", "CVE-2023-1234"]
  {
    TrimUnpadded("WebServer");
  }

  lemma FixturePaddedQuery(idx: Index)
    requires IsFixtureTable(idx.definitions)
    ensures CvesFor(idx, "  " + "DatabaseServer" + "  ") == ["CVE-2022-5678"]
  {
    PaddedLookup(idx, "  ", "DatabaseServer", "  ");
  }

  /** A query padded with whitespace finds what the bare name finds. */
  lemma PaddedLookup(idx: Index, pre: string, name: string, post: string)
    requires forall i :: 0 <= i < |pre| ==> IsSpace(pre[i])
    requires forall i :: 0 <= i < |post| ==> IsSpace(post[i])
    requires |name| > 0 && Unpadded(name)
    ensures CvesFor(idx, pre + name + post) == if name in idx.definitions then idx.definitions[name] else []
  {
    TrimAround(pre, name, post);
  }

  lemma FixtureUnknownQuery(idx: Index)
    requires IsFixtureTable(idx.definitions)
    ensures CvesFor(idx, "NonExistentEquipment") == []
  {
    TrimUnpadded("NonExistentEquipment");
  }

  /** Equipment lookups on the test fixture's definitions, whatever the shards: with and without padding. */
  lemma FixtureEquipmentLookups(defs: DefinitionsFile, dir: ShardDirectory)
    requires defs == FixtureDefinitions()
    ensures var idx := Build(defs, dir);
            && CvesFor(idx, "WebServer") == ["CVE-2021-44228", "CVE-2023-1234"]
            && CvesFor(idx, "  " + "DatabaseServer" + "  ") == ["CVE-2022-5678"]
            && CvesFor(idx, "NonExistentEquipment") == []
  {
    var idx := Build(defs, dir);
    FixtureDefinitionsTable(defs);
    FixtureExactQuery(idx);
    FixturePaddedQuery(idx);
    FixtureUnknownQuery(idx);
  }

  /** The fixture's writes: one per shard, in shard order, every identifier prefixed. */
  lemma FixtureWrites(shards: seq<Shard>)
    requires shards == FixtureShards().shards
    ensures ShardWrites(shards)
            == [("CVE-2021-44228", ["CAPEC-153", "CAPEC-242"]), ("CVE-2022-5678", ["CAPEC-7"]),
                ("CVE-2023-1234", ["CAPEC-126"])]
  {
    var p1, p2, p3 := Prefixed(["153", "242"]), Prefixed(["7"]), Prefixed(["126"]);
    assert p1[0] == "CAPEC-153" && p1[1] == "CAPEC-242";
    assert p2[0] == "CAPEC-7";
    assert p3[0] == "CAPEC-126";
    assert p1 == ["CAPEC-153", "CAPEC-242"] && p2 == ["CAPEC-7"] && p3 == ["CAPEC-126"];
    assert ShardLog(shards[0]) == [("CVE-2021-44228", p1)];
    assert ShardLog(shards[1]) == [("CVE-2022-5678", p2)];
    assert ShardLog(shards[2]) == [("CVE-2023-1234", p3)];
    assert shards[1..][1..][1..] == [];
  }

  /** The lookup of a CVE whose last write is at position `i` of the log. */
  lemma CapecsOfLastWrite(defs: DefinitionsFile, shards: seq<Shard>, i: nat)
    requires LastForKey(ShardWrites(shards), i)
    ensures CapecsFor(Build(defs, Directory(shards)), ShardWrites(shards)[i].0) == ShardWrites(shards)[i].1
  {
    CapecsForLoaded(defs, shards, ShardWrites(shards)[i].0);
  }

  /** CAPEC lookups on the test fixture's shards, whatever the definitions: prefixed, in record order, `[]` when unknown. */
  lemma FixtureCapecLookups(defs: DefinitionsFile, shards: seq<Shard>)
    requires shards == FixtureShards().shards
    ensures var idx := Build(defs, Directory(shards));
            && CapecsFor(idx, "CVE-2021-44228") == ["CAPEC-153", "CAPEC-242"]
            && CapecsFor(idx, "CVE-2022-5678") == ["CAPEC-7"]
            && CapecsFor(idx, "NON_EXISTENT_CVE") == []
  {
    var log := ShardWrites(shards);
    FixtureWrites(shards);
    assert LastForKey(log, 0) && LastForKey(log, 1);
    CapecsOfLastWrite(defs, shards, 0);
    CapecsOfLastWrite(defs, shards, 1);
    FixtureUnknownCve(defs, shards);
  }

  /** A CVE the fixture's shards never mention has no CAPECs. */
  lemma FixtureUnknownCve(defs: DefinitionsFile, shards: seq<Shard>)
    requires shards == FixtureShards().shards
    ensures CapecsFor(Build(defs, Directory(shards)), "NON_EXISTENT_CVE") == []
  {
    var log, cve := ShardWrites(shards), "NON_EXISTENT_CVE";
    FixtureWrites(shards);
    assert |log| == 3 && |log[0].0| == 14 && |log[1].0| == 13 && |log[2].0| == 13 && |cve| == 16;
    UnmentionedCve(defs, shards, cve);
  }

  /** A CVE no reached record writes has no CAPECs. */
  lemma UnmentionedCve(defs: DefinitionsFile, shards: seq<Shard>, cve: string)
    requires forall i :: 0 <= i < |ShardWrites(shards)| ==> ShardWrites(shards)[i].0 != cve
    ensures CapecsFor(Build(defs, Directory(shards)), cve) == []
  {
    CapecsForLoaded(defs, shards, cve);
  }
}

=== FILE: dicts.dfy ===
/**
  Python dictionaries built by a loop or a comprehension over a sequence of
  key/value pairs: `{k: v for k, v in pairs}`, or `d[k] = v` in a `for` loop.
  A key that occurs more than once keeps the value of its last occurrence.
 */
module Dicts {

  /** Position `i` holds the last pair of `pairs` with that key. */
  predicate LastForKey<K(==), V>(pairs: seq<(K, V)>, i: int) {
    && 0 <= i < |pairs|
    && forall j :: i < j < |pairs| ==> pairs[j].0 != pairs[i].0
  }

  /** The dictionary `{k: v for k, v in pairs}`. */
  function Collect<K(==), V>(pairs: seq<(K, V)>): (m: map<K, V>)
    ensures m.Keys == set i | 0 <= i < |pairs| :: pairs[i].0
    ensures forall i :: LastForKey(pairs, i) ==> m[pairs[i].0] == pairs[i].1
    decreases |pairs|
  {
    if |pairs| == 0 then map[]
    else
      var init := pairs[..|pairs| - 1];
      var prev := Collect(init);
      CollectSnoc(pairs, init, prev);
      prev[pairs[|pairs| - 1].0 := pairs[|pairs| - 1].1]
  }

  /** One more pair, written over the dictionary of the earlier pairs. */
  lemma CollectSnoc<K, V>(pairs: seq<(K, V)>, init: seq<(K, V)>, prev: map<K, V>)
    requires |pairs| > 0 && init == pairs[..|pairs| - 1]
    requires prev.Keys == set i | 0 <= i < |init| :: init[i].0
    requires forall i :: LastForKey(init, i) ==> prev[init[i].0] == init[i].1
    ensures var m := prev[pairs[|pairs| - 1].0 := pairs[|pairs| - 1].1];
            && m.Keys == (set i | 0 <= i < |pairs| :: pairs[i].0)
            && forall i :: LastForKey(pairs, i) ==> m[pairs[i].0] == pairs[i].1
  {
    var last := pairs[|pairs| - 1];
    var m := prev[last.0 := last.1];
    KeysSnoc(pairs, init);
    forall i | LastForKey(pairs, i) ensures m[pairs[i].0] == pairs[i].1 {
      if i < |pairs| - 1 {
        assert LastForKey(init, i);
        assert init[i] == pairs[i];
      }
    }
  }

  /** The keys of a sequence of pairs are those of all but the last, and the last's. */
  lemma KeysSnoc<K, V>(pairs: seq<(K, V)>, init: seq<(K, V)>)
    requires |pairs| > 0 && init == pairs[..|pairs| - 1]
    ensures (set i | 0 <= i < |pairs| :: pairs[i].0) == (set i | 0 <= i < |init| :: init[i].0) + {pairs[|pairs| - 1].0}
  {
    var a := set i | 0 <= i < |pairs| :: pairs[i].0;
    var b := set i | 0 <= i < |init| :: init[i].0;
    forall k | k in a ensures k in b + {pairs[|pairs| - 1].0} {
      var i :| 0 <= i < |pairs| && pairs[i].0 == k;
      if i < |init| {
        assert init[i].0 == k;
      }
    }
    forall k | k in b ensures k in a {
      var i :| 0 <= i < |init| && init[i].0 == k;
      assert pairs[i].0 == k;
    }
  }

  /** Every key of the dictionary is the key of the last pair that mentions it. */
  lemma CollectLastWins<K, V>(pairs: seq<(K, V)>, k: K)
    requires k in Collect(pairs)
    ensures exists i :: LastForKey(pairs, i) && pairs[i].0 == k && Collect(pairs)[k] == pairs[i].1
  {
    var i :| 0 <= i < |pairs| && pairs[i].0 == k;
    while exists j :: i < j < |pairs| && pairs[j].0 == k
      invariant 0 <= i < |pairs| && pairs[i].0 == k
      decreases |pairs| - i
    {
      var j :| i < j < |pairs| && pairs[j].0 == k;
      i := j;
    }
  }
}

=== FILE: exports.dfy ===
/**
  The export entry points of `ThreatModelService` reduced to their decisions:
  which error an export raises, which file it produces, and what the bundle
  export records and leaves on disk. The generators themselves (diagram,
  report, STIX, Navigator, Attack Flow), the validator and the model
  assembler are collaborators outside this project; their outcomes are
  parameters.
 */
module Exports {
  import opened Wrappers
  import opened Text
  import opened ThreatModels
  import opened Positions
  import opened Versioning

  /** `os.path.join(dir, name)` for a relative `name`. */
  function PathJoin(dir: string, name: string): (p: string)
    ensures |p| >= |name| && p[|p| - |name|..] == name
  {
    if |dir| == 0 || dir[|dir| - 1] == '/' then dir + name else dir + "/" + name
  }

  /** A character other than '/' extends the base name. */
  lemma BasenameSnoc(s: string, c: char)
    requires c != '/'
    ensures Basename(s + [c]) == Basename(s) + [c]
  {
    var t := s + [c];
    assert t[..|t| - 1] == s && t[|t| - 1] == c;
  }

  /** After a separator, the base name is everything that follows it. */
  lemma {:induction false} BasenameAfterSlash(p: string, name: string)
    requires '/' !in name
    requires |p| == 0 || p[|p| - 1] == '/'
    ensures Basename(p + name) == name
    decreases |name|
  {
    if |name| == 0 {
      assert p + name == p;
    } else {
      var init, c := name[..|name| - 1], name[|name| - 1];
      assert name == init + [c] && c in name;
      assert '/' !in init by {
        forall i | 0 <= i < |init| ensures init[i] != '/' {
          assert init[i] == name[i];
        }
      }
      assert p + name == (p + init) + [c];
      BasenameSnoc(p + init, c);
      BasenameAfterSlash(p, init);
    }
  }

  /** The base name of a joined path is the name joined, when it has no '/'. */
  lemma BasenameOfJoin(dir: string, name: string)
    requires '/' !in name
    ensures Basename(PathJoin(dir, name)) == name
  {
    if |dir| == 0 || dir[|dir| - 1] == '/' {
      BasenameAfterSlash(dir, name);
    } else {
      BasenameAfterSlash(dir + "/", name);
      assert dir + "/" + name == (dir + "/") + name;
    }
  }

  /** The errors the export entry points raise. */
  datatype ExportError =
    | MissingInput              // ValueError: no markdown, or no format
    | AssemblyFailed            // RuntimeError: the model could not be built or validated
    | ValidationFailed(message: string)
    | SvgFailed                 // RuntimeError: the SVG file was not generated
    | InvalidFormat             // ValueError: unknown export format
    | GenerationFailed          // an exception from a generator of the full export

  /** The file each export format produces. */
  function ExportFilename(format: string): Option<string> {
    if format == "svg" then Some("diagram.svg")
    else if format == "diagram" then Some("diagram.html")
    else if format == "report" then Some("threat_report.html")
    else if format == "markdown" then Some("threat_model.md")
    else None
  }

  /**
    `export_files_logic`: the checks in the order the code makes them, then the
    dispatch on the format. `assembled` is the assembler's result,
    `validationErrors` the validator's messages and `svgWritten` whether the
    diagram generator reported a file.
   */
  function ExportFiles(content: string, format: string, assembled: Option<ThreatModel>,
                       validationErrors: seq<string>, svgWritten: bool, outDir: string)
    : (r: Result<(string, string), ExportError>)
    ensures content == "" || format == "" ==> r == Failure(MissingInput)
    ensures r.Success? <==>
              && content != "" && format != "" && assembled.Some? && validationErrors == []
              && ExportFilename(format).Some? && (format == "svg" ==> svgWritten)
    ensures r.Success? ==> r.value.1 == ExportFilename(format).value && r.value.0 == PathJoin(outDir, r.value.1)
    ensures r.Failure? && r.error.ValidationFailed? ==>
              validationErrors != [] && r.error.message == "Validation failed: " + Join(validationErrors, ", ")
    ensures r == Failure(InvalidFormat) ==> ExportFilename(format).None?
  {
    if content == "" || format == "" then Failure(MissingInput)
    else if assembled.None? then Failure(AssemblyFailed)
    else if validationErrors != [] then Failure(ValidationFailed("Validation failed: " + Join(validationErrors, ", ")))
    else if format == "svg" && !svgWritten then Failure(SvgFailed)
    else
      match ExportFilename(format)
      case Some(name) => Success((PathJoin(outDir, name), name))
      case None => Failure(InvalidFormat)
  }

  /** No export file name holds a directory separator. */
  lemma FilenameIsPlain(format: string)
    requires ExportFilename(format).Some?
    ensures '/' !in ExportFilename(format).value
  {
    var name := ExportFilename(format).value;
    assert name == "diagram.svg" || name == "diagram.html" || name == "threat_report.html" || name == "threat_model.md";
    forall i | 0 <= i < |name| ensures name[i] != '/' {
      if name == "diagram.svg" {
      } else if name == "diagram.html" {
      } else if name == "threat_report.html" {
      } else {
      }
    }
  }

  /** A successful export names the file at the end of the path it returns. */
  lemma ExportPathNamesFile(content: string, format: string, assembled: Option<ThreatModel>,
                            validationErrors: seq<string>, svgWritten: bool, outDir: string)
    requires ExportFiles(content, format, assembled, validationErrors, svgWritten, outDir).Success?
    ensures var r := ExportFiles(content, format, assembled, validationErrors, svgWritten, outDir);
            Basename(r.value.0) == r.value.1
  {
    FilenameIsPlain(format);
    BasenameOfJoin(outDir, ExportFilename(format).value);
  }

  /** An unknown format is reported only after the model was built and validated. */
  lemma InvalidFormatAfterValidation(content: string, format: string, assembled: Option<ThreatModel>,
                                     validationErrors: seq<string>, svgWritten: bool, outDir: string)
    requires ExportFiles(content, format, assembled, validationErrors, svgWritten, outDir) == Failure(InvalidFormat)
    ensures content != "" && format != "" && assembled.Some? && validationErrors == []
  {
  }

  // ---------------------------------------------------------------------------
  // Bundle export

  /** The characters removed from the bundle timestamp to form its version id. */
  const Separators: set<char> := {'-', ':', '_'}

  /** `f"1.0-{timestamp.replace('-', '').replace(':', '').replace('_', '')}"`. */
  function BundleVersionId(stamp: Timestamp): string {
    Version + "-" + RemoveChars(Dashed(stamp), Separators)
  }

  /** Digit strings lose nothing to the separator removal. */
  lemma DigitsKept(s: string)
    requires IsDigits(s)
    ensures RemoveChars(s, Separators) == s
  {
    forall i | 0 <= i < |s| ensures s[i] !in Separators {
      assert '0' <= s[i] <= '9';
    }
    RemoveCharsNone(s, Separators);
  }

  /** A digit field followed by one separator keeps the field and loses the separator. */
  lemma DropSeparator(field: string, sep: string, rest: string)
    requires IsDigits(field) && |sep| == 1 && sep[0] in Separators
    ensures RemoveChars(field + sep + rest, Separators) == field + RemoveChars(rest, Separators)
  {
    var fs := field + sep;
    assert field + sep + rest == fs + rest;
    RemoveCharsAppend(fs, rest, Separators);
    RemoveCharsAppend(field, sep, Separators);
    DigitsKept(field);
    SeparatorRemoved(sep);
    assert RemoveChars(fs, Separators) == field + "";
  }

  /** A lone separator is removed entirely. */
  lemma SeparatorRemoved(sep: string)
    requires |sep| == 1 && sep[0] in Separators
    ensures RemoveChars(sep, Separators) == ""
  {
    assert sep[1..] == "";
  }

  /**
    The bundle's version id is the version id a save would record at the same
    clock reading: removing the separators from the dashed timestamp leaves
    the compact one.
   */
  lemma BundleVersionIdIsCompact(stamp: Timestamp)
    requires ValidTimestamp(stamp)
    ensures BundleVersionId(stamp) == VersionId(stamp)
  {
    var t := stamp;
    var r5 := t.minute + "-" + t.second;
    var r4 := t.hour + "-" + r5;
    var r3 := t.day + "_" + r4;
    var r2 := t.month + "-" + r3;
    assert Dashed(t) == t.year + "-" + r2;
    DropSeparator(t.year, "-", r2);
    DropSeparator(t.month, "-", r3);
    DropSeparator(t.day, "_", r4);
    DropSeparator(t.hour, "-", r5);
    DropSeparator(t.minute, "-", t.second);
    DigitsKept(t.second);
    var body := RemoveChars(Dashed(t), Separators);
    assert body == t.year + (t.month + (t.day + (t.hour + (t.minute + t.second))));
    assert body == Compact(t);
  }

  /** What the bundle export returns: its timestamp and the metadata it packed. */
  datatype Bundle = Bundle(timestamp: string, metadata: Metadata)

  /** The working directory of the bundle export. */
  function ExportDir(outDir: string, stamp: Timestamp): string {
    PathJoin(outDir, "export_" + Dashed(stamp))
  }

  /** The metadata the bundle export writes as `element_positions.json`. */
  function BundleMetadata(stamp: Timestamp, updatedAt: Timestamp, m: ThreatModel): (md: Metadata)
    ensures md.version == Version && md.modelFile == "threat_model.md"
    ensures ValidTimestamp(stamp) ==> md.versionId == VersionId(stamp)
    ensures md.lastUpdated == Display(updatedAt)
    ensures md.positions == Some(ExtractPositions(m))
  {
    var id := BundleVersionId(stamp);
    assert ValidTimestamp(stamp) ==> id == VersionId(stamp) by {
      if ValidTimestamp(stamp) {
        BundleVersionIdIsCompact(stamp);
      }
    }
    Metadata(Version, id, Display(updatedAt), "threat_model.md", Some(ExtractPositions(m)))
  }

  /**
    `export_all_files_logic` as written: the working directory is created,
    the full export is generated into it, positions are extracted from a
    freshly assembled model, and only at the very end, after packaging, the
    directory is removed. `dirs` is the set of directories that exist.
   */
  function ExportAllFiles(content: string, stamp: Timestamp, updatedAt: Timestamp, outDir: string,
                          generated: bool, assembled: Option<ThreatModel>, dirs: set<string>)
    : (r: (Result<Bundle, ExportError>, set<string>))
    ensures content == "" ==> r == (Failure(MissingInput), dirs)
    ensures r.0.Success? <==> content != "" && generated && assembled.Some?
    ensures r.0.Success? ==> r.0.value.timestamp == Dashed(stamp)
                             && r.0.value.metadata == BundleMetadata(stamp, updatedAt, assembled.value)
    ensures r.0.Success? ==> r.1 == dirs - {ExportDir(outDir, stamp)}
  {
    if content == "" then (Failure(MissingInput), dirs)
    else
      var dir := ExportDir(outDir, stamp);
      var created := dirs + {dir};
      if !generated then (Failure(GenerationFailed), created)
      else if assembled.None? then (Failure(AssemblyFailed), created)
      else (Success(Bundle(Dashed(stamp), BundleMetadata(stamp, updatedAt, assembled.value))), created - {dir})
  }

  /** A failure after the working directory was created leaves that directory behind. */
  lemma ExportAllLeaksOnFailure(content: string, stamp: Timestamp, updatedAt: Timestamp, outDir: string,
                                generated: bool, assembled: Option<ThreatModel>, dirs: set<string>)
    requires content != "" && (!generated || assembled.None?)
    ensures var r := ExportAllFiles(content, stamp, updatedAt, outDir, generated, assembled, dirs);
            r.0.Failure? && ExportDir(outDir, stamp) in r.1
  {
  }

  /** The bundle export with its cleanup in a `finally` clause. */
  function ExportAllFilesFixed(content: string, stamp: Timestamp, updatedAt: Timestamp, outDir: string,
                               generated: bool, assembled: Option<ThreatModel>, dirs: set<string>)
    : (r: (Result<Bundle, ExportError>, set<string>))
    ensures content != "" ==> ExportDir(outDir, stamp) !in r.1
  {
    var (result, after) := ExportAllFiles(content, stamp, updatedAt, outDir, generated, assembled, dirs);
    if content == "" then (result, after) else (result, after - {ExportDir(outDir, stamp)})
  }

  /**
    The corrected export returns what the code returns, and whatever happens
    once it has started, it leaves the directories as they were apart from its
    working directory.
   */
  lemma ExportAllFixedCleansUp(content: string, stamp: Timestamp, updatedAt: Timestamp, outDir: string,
                               generated: bool, assembled: Option<ThreatModel>, dirs: set<string>)
    ensures var fixed := ExportAllFilesFixed(content, stamp, updatedAt, outDir, generated, assembled, dirs);
            var written := ExportAllFiles(content, stamp, updatedAt, outDir, generated, assembled, dirs);
            && fixed.0 == written.0
            && (content != "" ==> fixed.1 == dirs - {ExportDir(outDir, stamp)})
            && (content == "" ==> fixed.1 == dirs)
  {
  }
}

=== FILE: gui_projection.dfy ===
/**
  `markdown_to_json_for_gui`: the projection of an assembled threat model onto
  the flat JSON the graphical editor loads. Every entity gets a transient id,
  containment is expressed by `parentId`, and a dataflow is kept only when both
  of its endpoints were given an id.

  Python's `id()` is modelled by an arena that hands out fresh numbers, starting
  from 0 for each projection, and gives an object it has already seen the same
  number again. The editor receives ids as strings (`str(id(obj))`), which are
  never empty and therefore always truthy; the model keeps them as numbers.
 */
module GuiProjection {
  import opened Wrappers
  import opened ThreatModels

  // ---------------------------------------------------------------------------
  // Identity arena

  /** The ids handed out so far, and the next fresh one. */
  datatype Arena = Arena(ids: map<Obj, nat>, next: nat)

  /** Ids are below `next`, and distinct objects have distinct ids. */
  predicate ArenaOk(a: Arena) {
    && (forall o :: o in a.ids ==> a.ids[o] < a.next)
    && (forall o1, o2 :: o1 in a.ids && o2 in a.ids && o1 != o2 ==> a.ids[o1] != a.ids[o2])
  }

  /** `a2` remembers every id of `a1`. */
  predicate Grows(a1: Arena, a2: Arena) {
    forall o :: o in a1.ids ==> o in a2.ids && a2.ids[o] == a1.ids[o]
  }

  /** `id(o)`: the object's id, fresh the first time it is asked for. */
  function Allocate(a: Arena, o: Obj): (r: (nat, Arena))
    requires ArenaOk(a)
    ensures ArenaOk(r.1) && Grows(a, r.1)
    ensures r.1.ids.Keys == a.ids.Keys + {o}
    ensures r.1.ids[o] == r.0
    ensures o !in a.ids ==> r.0 !in a.ids.Values
  {
    if o in a.ids then (a.ids[o], a)
    else (a.next, Arena(a.ids[o := a.next], a.next + 1))
  }

  /** The arena and `element_to_id`, the ids of the entities registered so far. */
  datatype St = St(arena: Arena, registry: map<Obj, nat>)

  /** The registry agrees with the arena. */
  predicate Good(st: St) {
    && ArenaOk(st.arena)
    && (forall o :: o in st.registry ==> o in st.arena.ids && st.registry[o] == st.arena.ids[o])
  }

  /** `element_to_id[obj] = str(id(obj))`. */
  function Register(st: St, o: Obj): (r: (nat, St))
    requires Good(st)
    ensures Good(r.1) && Grows(st.arena, r.1.arena)
    ensures r.1.registry.Keys == st.registry.Keys + {o}
    ensures r.1.registry[o] == r.0
  {
    var (id, a) := Allocate(st.arena, o);
    (id, St(a, st.registry[o := id]))
  }

  // ---------------------------------------------------------------------------
  // Registration of entities, kind by kind

  /** `o` has been registered by the time the entity at index `i` looks up its parent. */
  predicate RegisteredBy(before: set<Obj>, es: seq<(Obj, Option<Obj>)>, i: int, o: Obj) {
    o in before || exists j :: 0 <= j <= i && j < |es| && es[j].0 == o
  }

  /** Ids and parent ids of one kind's entities, and the state after them. */
  datatype Registration = Registration(ids: seq<nat>, parentIds: seq<Option<nat>>, st: St)

  /** The entity at each index has the arena's id for its object. */
  predicate IdsMatch(es: seq<(Obj, Option<Obj>)>, ids: seq<nat>, a: Arena) {
    && |ids| == |es|
    && forall i :: 0 <= i < |es| ==> es[i].0 in a.ids && ids[i] == a.ids[es[i].0]
  }

  /**
    The entity at each index has a parent id exactly when it has a parent that
    was registered by then, and the parent id is the arena's id for the parent.
   */
  predicate ParentsMatch(before: set<Obj>, es: seq<(Obj, Option<Obj>)>, pids: seq<Option<nat>>, a: Arena) {
    && |pids| == |es|
    && (forall i :: 0 <= i < |es| ==>
          (pids[i].Some? <==> es[i].1.Some? && RegisteredBy(before, es, i, es[i].1.value)))
    && (forall i :: 0 <= i < |es| && pids[i].Some? ==>
          es[i].1.value in a.ids && pids[i].value == a.ids[es[i].1.value])
  }

  /** The objects of a sequence of entities. */
  function Objs(es: seq<(Obj, Option<Obj>)>): set<Obj> {
    set i | 0 <= i < |es| :: es[i].0
  }

  lemma ObjsSnoc(es: seq<(Obj, Option<Obj>)>)
    requires |es| > 0
    ensures Objs(es) == Objs(es[..|es| - 1]) + {es[|es| - 1].0}
  {
    var init := es[..|es| - 1];
    forall o | o in Objs(es) ensures o in Objs(init) + {es[|es| - 1].0} {
      var i :| 0 <= i < |es| && es[i].0 == o;
      if i < |init| {
        assert init[i].0 == o;
      }
    }
    forall o | o in Objs(init) ensures o in Objs(es) {
      var i :| 0 <= i < |init| && init[i].0 == o;
      assert es[i].0 == o;
    }
  }

  /** Registered by index `i` of a prefix is registered by index `i` of the whole. */
  lemma RegisteredByPrefix(before: set<Obj>, es: seq<(Obj, Option<Obj>)>, n: nat, i: int, o: Obj)
    requires n <= |es| && 0 <= i < n
    ensures RegisteredBy(before, es[..n], i, o) == RegisteredBy(before, es, i, o)
  {
    if RegisteredBy(before, es, i, o) && o !in before {
      var j :| 0 <= j <= i && j < |es| && es[j].0 == o;
      assert es[..n][j].0 == o;
    }
  }

  /** Before the last entity looks up its parent, exactly the objects registered by then are known. */
  lemma RegisteredByLast(before: set<Obj>, es: seq<(Obj, Option<Obj>)>, o: Obj)
    requires |es| > 0
    ensures o in before + Objs(es) <==> RegisteredBy(before, es, |es| - 1, o)
  {
    if o in Objs(es) {
      var j :| 0 <= j < |es| && es[j].0 == o;
      assert RegisteredBy(before, es, |es| - 1, o);
    }
  }

  lemma SnocIds(es: seq<(Obj, Option<Obj>)>, ids: seq<nat>, a: Arena, id: nat, a1: Arena)
    requires |es| > 0
    requires IdsMatch(es[..|es| - 1], ids, a)
    requires Grows(a, a1) && es[|es| - 1].0 in a1.ids && a1.ids[es[|es| - 1].0] == id
    ensures IdsMatch(es, ids + [id], a1)
  {
    var init := es[..|es| - 1];
    forall i | 0 <= i < |es| ensures es[i].0 in a1.ids && (ids + [id])[i] == a1.ids[es[i].0] {
      if i < |init| {
        assert es[i] == init[i];
      }
    }
  }

  lemma SnocParents(before: set<Obj>, es: seq<(Obj, Option<Obj>)>, pids: seq<Option<nat>>, a: Arena, st1: St, pid: Option<nat>)
    requires |es| > 0
    requires ParentsMatch(before, es[..|es| - 1], pids, a)
    requires Good(st1) && Grows(a, st1.arena)
    requires st1.registry.Keys == before + Objs(es)
    requires var parent := es[|es| - 1].1;
             pid == if parent.Some? && parent.value in st1.registry then Some(st1.registry[parent.value]) else None
    ensures ParentsMatch(before, es, pids + [pid], st1.arena)
  {
    var n := |es| - 1;
    var all := pids + [pid];
    forall i | 0 <= i < |es|
      ensures (all[i].Some? <==> es[i].1.Some? && RegisteredBy(before, es, i, es[i].1.value))
      ensures all[i].Some? ==> es[i].1.value in st1.arena.ids && all[i].value == st1.arena.ids[es[i].1.value]
    {
      if i < n {
        assert es[..n][i] == es[i];
        if es[i].1.Some? {
          RegisteredByPrefix(before, es, n, i, es[i].1.value);
        }
      } else if es[i].1.Some? {
        RegisteredByLast(before, es, es[i].1.value);
      }
    }
  }

  /**
    One registration loop over `(object, parent)` pairs: each entity is
    registered first and then looks its parent up in `element_to_id`, so the
    parent id is set exactly when the parent was registered before it, by an
    earlier loop, earlier in this loop, or by this very entity.
   */
  function RegisterAll(es: seq<(Obj, Option<Obj>)>, st0: St): (r: Registration)
    requires Good(st0)
    ensures Good(r.st) && Grows(st0.arena, r.st.arena)
    ensures r.st.registry.Keys == st0.registry.Keys + Objs(es)
    ensures IdsMatch(es, r.ids, r.st.arena)
    ensures ParentsMatch(st0.registry.Keys, es, r.parentIds, r.st.arena)
    decreases |es|
  {
    if |es| == 0 then Registration([], [], st0)
    else
      var init := es[..|es| - 1];
      var (obj, parent) := es[|es| - 1];
      var r0 := RegisterAll(init, st0);
      var (id, st1) := Register(r0.st, obj);
      var pid := if parent.Some? && parent.value in st1.registry then Some(st1.registry[parent.value]) else None;
      ObjsSnoc(es);
      SnocIds(es, r0.ids, r0.st.arena, id, st1.arena);
      SnocParents(st0.registry.Keys, es, r0.parentIds, r0.st.arena, st1, pid);
      Registration(r0.ids + [id], r0.parentIds + [pid], st1)
  }

  // ---------------------------------------------------------------------------
  // Dataflows

  /** `element_to_id.get(endpoint)`: only a registered model object has an id. */
  function Endpoint(e: ElementRef, registry: map<Obj, nat>): (r: Option<nat>)
    ensures r.Some? <==> e.Object? && e.obj in registry
  {
    if e.Object? && e.obj in registry then Some(registry[e.obj]) else None
  }

  /** Both endpoints of the dataflow have an id. */
  predicate Resolves(f: Flow, registry: map<Obj, nat>) {
    Endpoint(f.source, registry).Some? && Endpoint(f.sink, registry).Some?
  }

  /** The dataflows that are kept, in their original order. */
  function Kept(fs: seq<Flow>, registry: map<Obj, nat>): (k: seq<Flow>)
    ensures forall i :: 0 <= i < |k| ==> Resolves(k[i], registry)
    ensures forall f :: f in k <==> f in fs && Resolves(f, registry)
    decreases |fs|
  {
    if |fs| == 0 then []
    else
      var init := fs[..|fs| - 1];
      var last := fs[|fs| - 1];
      assert fs == init + [last];
      Kept(init, registry) + (if Resolves(last, registry) then [last] else [])
  }

  /** A dataflow record of the editor's JSON. */
  datatype GuiFlow = GuiFlow(
    id: nat, name: string, from: nat, to: nat, protocol: string,
    description: string, isEncrypted: bool, isAuthenticated: bool)

  /** The record of a kept dataflow, given its own id and its endpoints' ids. */
  function FlowRecord(f: Flow, id: nat, from: nat, to: nat): GuiFlow {
    GuiFlow(id, f.name, from, to, f.protocol, f.description.GetOr(""),
            f.isEncrypted.GetOr(false), f.isAuthenticated.GetOr(false))
  }

  /** The dataflow records and the arena after the dataflow loop. */
  datatype FlowProjection = FlowProjection(records: seq<GuiFlow>, arena: Arena)

  /** Each record is the record of the kept dataflow at the same index. */
  predicate RecordsMatch(kept: seq<Flow>, records: seq<GuiFlow>, registry: map<Obj, nat>, a: Arena) {
    && |records| == |kept|
    && forall i :: 0 <= i < |kept| ==>
         && Resolves(kept[i], registry)
         && kept[i].obj in a.ids
         && records[i] == FlowRecord(kept[i], a.ids[kept[i].obj],
                                     Endpoint(kept[i].source, registry).value,
                                     Endpoint(kept[i].sink, registry).value)
  }

  lemma SnocRecords(kept: seq<Flow>, records: seq<GuiFlow>, registry: map<Obj, nat>, a: Arena, a1: Arena,
                    extra: seq<Flow>, more: seq<GuiFlow>)
    requires RecordsMatch(kept, records, registry, a) && Grows(a, a1)
    requires RecordsMatch(extra, more, registry, a1)
    ensures RecordsMatch(kept + extra, records + more, registry, a1)
  {
    forall i | 0 <= i < |kept| + |extra|
      ensures (kept + extra)[i].obj in a1.ids
      ensures (records + more)[i] == FlowRecord((kept + extra)[i], a1.ids[(kept + extra)[i].obj],
                                               Endpoint((kept + extra)[i].source, registry).value,
                                               Endpoint((kept + extra)[i].sink, registry).value)
    {
      if i < |kept| {
        assert (kept + extra)[i] == kept[i] && (records + more)[i] == records[i];
      } else {
        assert (kept + extra)[i] == extra[i - |kept|] && (records + more)[i] == more[i - |kept|];
      }
    }
  }

  /** One turn of the dataflow loop: the dataflow gets an id, and a record when it resolves. */
  function FlowStep(r0: FlowProjection, f: Flow, registry: map<Obj, nat>): (r: FlowProjection)
    requires ArenaOk(r0.arena)
    ensures ArenaOk(r.arena) && Grows(r0.arena, r.arena) && f.obj in r.arena.ids
    ensures RecordsMatch(if Resolves(f, registry) then [f] else [], r.records, registry, r.arena)
  {
    var (id, a) := Allocate(r0.arena, f.obj);
    var from, to := Endpoint(f.source, registry), Endpoint(f.sink, registry);
    FlowProjection(if Resolves(f, registry) then [FlowRecord(f, id, from.value, to.value)] else [], a)
  }

  /**
    The dataflow loop: every dataflow is given an id, and a record is emitted
    exactly for the dataflows both of whose endpoints are registered entities.
   */
  function ProjectFlows(fs: seq<Flow>, st: St): (r: FlowProjection)
    requires Good(st)
    ensures ArenaOk(r.arena) && Grows(st.arena, r.arena)
    ensures RecordsMatch(Kept(fs, st.registry), r.records, st.registry, r.arena)
    decreases |fs|
  {
    if |fs| == 0 then FlowProjection([], st.arena)
    else
      var init := fs[..|fs| - 1];
      var last := fs[|fs| - 1];
      var r0 := ProjectFlows(init, st);
      var r1 := FlowStep(r0, last, st.registry);
      var keep := if Resolves(last, st.registry) then [last] else [];
      assert Kept(fs, st.registry) == Kept(init, st.registry) + keep;
      SnocRecords(Kept(init, st.registry), r0.records, st.registry, r0.arena, r1.arena, keep, r1.records);
      FlowProjection(r0.records + r1.records, r1.arena)
  }

  // ---------------------------------------------------------------------------
  // The projection

  /** A boundary record. */
  datatype GuiBoundary = GuiBoundary(
    id: nat, name: string, parentId: Option<nat>,
    description: string, isTrusted: bool, lineStyle: string)

  /** An actor or a server record; servers also carry `os` and `stereotype`. */
  datatype GuiNode =
    | GuiActor(id: nat, name: string, parentId: Option<nat>, description: string)
    | GuiServer(id: nat, name: string, parentId: Option<nat>, description: string,
                os: string, stereotype: string)

  /** A data asset record. */
  datatype GuiData = GuiData(id: nat, name: string, description: string, classification: string)

  /** The editor's JSON. */
  datatype GuiModel = GuiModel(
    boundaries: seq<GuiBoundary>,
    actors: seq<GuiNode>,
    servers: seq<GuiNode>,
    data: seq<GuiData>,
    dataflows: seq<GuiFlow>)

  /** The exceptions `markdown_to_json_for_gui` raises. */
  datatype GuiError =
    | EmptyContent     // ValueError: the markdown is empty
    | AssemblyFailed   // RuntimeError: no threat model could be built
    | MissingName      // KeyError: an actor or server has no 'name'
    | Unhashable       // TypeError: a dataflow endpoint is a dictionary

  /** The JSON together with the final arena and `element_to_id`. */
  datatype Projection = Projection(model: GuiModel, arena: Arena, registry: map<Obj, nat>)

  /** The `(object, parent)` pairs of the boundary loop. */
  function BoundaryEntities(m: ThreatModel): (es: seq<(Obj, Option<Obj>)>)
    ensures |es| == |m.boundaries|
    ensures forall i :: 0 <= i < |es| ==> es[i] == (m.boundaries[i].1.obj, m.boundaries[i].1.parent)
  {
    seq(|m.boundaries|, i requires 0 <= i < |m.boundaries| => (m.boundaries[i].1.obj, m.boundaries[i].1.parent))
  }

  /** The `(object, boundary)` pairs of the actor or server loop. */
  function NodeEntities(ns: seq<NodeInfo>): (es: seq<(Obj, Option<Obj>)>)
    ensures |es| == |ns|
    ensures forall i :: 0 <= i < |es| ==> es[i] == (ns[i].obj, ns[i].boundary)
  {
    seq(|ns|, i requires 0 <= i < |ns| => (ns[i].obj, ns[i].boundary))
  }

  /** The data loop registers objects without looking up any parent. */
  function DataEntities(m: ThreatModel): (es: seq<(Obj, Option<Obj>)>)
    ensures |es| == |m.dataObjects|
    ensures forall i :: 0 <= i < |es| ==> es[i] == (m.dataObjects[i].1.obj, None)
  {
    seq(|m.dataObjects|, i requires 0 <= i < |m.dataObjects| => (m.dataObjects[i].1.obj, None))
  }

  /** Every actor and server has a name. */
  predicate AllNamed(m: ThreatModel) {
    && (forall i :: 0 <= i < |m.actors| ==> m.actors[i].name.Some?)
    && (forall i :: 0 <= i < |m.servers| ==> m.servers[i].name.Some?)
  }

  /** No dataflow endpoint is a dictionary. */
  predicate AllHashable(m: ThreatModel) {
    forall i :: 0 <= i < |m.dataflows| ==> !m.dataflows[i].source.Dict? && !m.dataflows[i].sink.Dict?
  }

  /** The objects of every registered entity. */
  function EntityObjs(m: ThreatModel): set<Obj> {
    (set i | 0 <= i < |m.boundaries| :: m.boundaries[i].1.obj)
    + (set i | 0 <= i < |m.actors| :: m.actors[i].obj)
    + (set i | 0 <= i < |m.servers| :: m.servers[i].obj)
    + (set i | 0 <= i < |m.dataObjects| :: m.dataObjects[i].1.obj)
  }

  /** The boundary records, from the registration of the boundary loop. */
  function BoundaryRecords(bs: seq<(string, BoundaryInfo)>, r: Registration): (out: seq<GuiBoundary>)
    requires |r.ids| == |bs| && |r.parentIds| == |bs|
    ensures |out| == |bs|
    ensures forall i :: 0 <= i < |bs| ==> out[i].id == r.ids[i] && out[i].name == bs[i].0 && out[i].parentId == r.parentIds[i]
  {
    seq(|bs|, i requires 0 <= i < |bs| =>
      var b := bs[i].1;
      GuiBoundary(r.ids[i], bs[i].0, r.parentIds[i],
                  b.description.GetOr(""), b.isTrusted.GetOr(false), b.lineStyle.GetOr("solid")))
  }

  /** The actor (or, with `server` set, server) records. */
  function NodeRecords(ns: seq<NodeInfo>, r: Registration, server: bool): (out: seq<GuiNode>)
    requires |r.ids| == |ns| && |r.parentIds| == |ns|
    requires forall i :: 0 <= i < |ns| ==> ns[i].name.Some?
    ensures |out| == |ns|
    ensures forall i :: 0 <= i < |ns| ==>
              && out[i].id == r.ids[i] && out[i].name == ns[i].name.value && out[i].parentId == r.parentIds[i]
              && out[i].GuiServer? == server
  {
    seq(|ns|, i requires 0 <= i < |ns| =>
      var n := ns[i];
      if server then
        GuiServer(r.ids[i], n.name.value, r.parentIds[i], n.description.GetOr(""),
                  n.os.GetOr(""), n.stereotype.GetOr("server"))
      else
        GuiActor(r.ids[i], n.name.value, r.parentIds[i], n.description.GetOr("")))
  }

  /** The data records. */
  function DataRecords(ds: seq<(string, DataInfo)>, r: Registration): (out: seq<GuiData>)
    requires |r.ids| == |ds|
    ensures |out| == |ds|
    ensures forall i :: 0 <= i < |ds| ==> out[i].id == r.ids[i] && out[i].name == ds[i].0
  {
    seq(|ds|, i requires 0 <= i < |ds| =>
      var d := ds[i].1;
      GuiData(r.ids[i], ds[i].0, d.description.GetOr(""), d.classification.GetOr("public")))
  }

  // ---------------------------------------------------------------------------
  // The entity loops, one after the other

  /** An arena that grows keeps the ids it gave to entities. */
  lemma IdsMatchGrows(es: seq<(Obj, Option<Obj>)>, ids: seq<nat>, a: Arena, a1: Arena)
    requires IdsMatch(es, ids, a) && Grows(a, a1)
    ensures IdsMatch(es, ids, a1)
  {
  }

  /** An arena that grows keeps the ids it gave to parents. */
  lemma ParentsMatchGrows(before: set<Obj>, es: seq<(Obj, Option<Obj>)>, pids: seq<Option<nat>>, a: Arena, a1: Arena)
    requires ParentsMatch(before, es, pids, a) && Grows(a, a1)
    ensures ParentsMatch(before, es, pids, a1)
  {
  }

  /** The entity loops of the projection in program order: boundaries, actors, servers, data. */
  function Groups(m: ThreatModel): seq<seq<(Obj, Option<Obj>)>> {
    [BoundaryEntities(m), NodeEntities(m.actors), NodeEntities(m.servers), DataEntities(m)]
  }

  /** The objects of the entities of several loops. */
  function AllObjs(groups: seq<seq<(Obj, Option<Obj>)>>): set<Obj>
    decreases |groups|
  {
    if |groups| == 0 then {} else AllObjs(groups[..|groups| - 1]) + Objs(groups[|groups| - 1])
  }

  /** The registrations of consecutive loops, and the state after the last of them. */
  datatype Loops = Loops(regs: seq<Registration>, st: St)

  /**
    After loops that started with the objects `before` registered: every
    entity of every loop has the final arena's id, and looks its parent up
    among the objects registered before its loop or up to it in its own loop.
   */
  predicate Registered(before: set<Obj>, groups: seq<seq<(Obj, Option<Obj>)>>, l: Loops) {
    && |l.regs| == |groups|
    && Good(l.st)
    && l.st.registry.Keys == before + AllObjs(groups)
    && (forall k {:trigger IdsMatch(groups[k], l.regs[k].ids, l.st.arena)} :: 0 <= k < |groups| ==>
          IdsMatch(groups[k], l.regs[k].ids, l.st.arena))
    && (forall k {:trigger ParentsMatch(before + AllObjs(groups[..k]), groups[k], l.regs[k].parentIds, l.st.arena)} ::
          0 <= k < |groups| ==>
          ParentsMatch(before + AllObjs(groups[..k]), groups[k], l.regs[k].parentIds, l.st.arena))
  }

  lemma SnocLoops(before: set<Obj>, groups: seq<seq<(Obj, Option<Obj>)>>, l0: Loops, r: Registration)
    requires |groups| > 0
    requires Registered(before, groups[..|groups| - 1], l0)
    requires Good(r.st) && Grows(l0.st.arena, r.st.arena)
    requires r.st.registry.Keys == l0.st.registry.Keys + Objs(groups[|groups| - 1])
    requires IdsMatch(groups[|groups| - 1], r.ids, r.st.arena)
    requires ParentsMatch(l0.st.registry.Keys, groups[|groups| - 1], r.parentIds, r.st.arena)
    ensures Registered(before, groups, Loops(l0.regs + [r], r.st))
  {
    var n := |groups| - 1;
    var init := groups[..n];
    var regs := l0.regs + [r];
    assert AllObjs(groups) == AllObjs(init) + Objs(groups[n]);
    forall k | 0 <= k < |groups|
      ensures IdsMatch(groups[k], regs[k].ids, r.st.arena)
      ensures ParentsMatch(before + AllObjs(groups[..k]), groups[k], regs[k].parentIds, r.st.arena)
    {
      if k < n {
        assert groups[k] == init[k] && regs[k] == l0.regs[k] && groups[..k] == init[..k];
        IdsMatchGrows(init[k], l0.regs[k].ids, l0.st.arena, r.st.arena);
        ParentsMatchGrows(before + AllObjs(init[..k]), init[k], l0.regs[k].parentIds, l0.st.arena, r.st.arena);
      } else {
        assert groups[..k] == init;
      }
    }
  }

  /** Runs registration loops one after the other, each continuing with the state the previous one left. */
  function RegisterGroups(groups: seq<seq<(Obj, Option<Obj>)>>, st0: St): (l: Loops)
    requires Good(st0)
    ensures Registered(st0.registry.Keys, groups, l) && Grows(st0.arena, l.st.arena)
    decreases |groups|
  {
    if |groups| == 0 then Loops([], st0)
    else
      var l0 := RegisterGroups(groups[..|groups| - 1], st0);
      var r := RegisterAll(groups[|groups| - 1], l0.st);
      SnocLoops(st0.registry.Keys, groups, l0, r);
      Loops(l0.regs + [r], r.st)
  }

  /** A fresh arena and an empty `element_to_id`. */
  const Fresh := St(Arena(map[], 0), map[])

  /** The four registration loops of the projection, from a fresh arena. */
  function RegisterEntities(m: ThreatModel): (l: Loops)
    ensures Registered({}, Groups(m), l)
  {
    assert Fresh.registry.Keys == {};
    RegisterGroups(Groups(m), Fresh)
  }

  /** The objects registered before each loop starts. */
  lemma GroupObjs(m: ThreatModel)
    ensures var g := Groups(m);
            && AllObjs(g[..0]) == {}
            && AllObjs(g[..1]) == Objs(g[0])
            && AllObjs(g[..2]) == Objs(g[0]) + Objs(g[1])
            && AllObjs(g) == Objs(g[0]) + Objs(g[1]) + Objs(g[2]) + Objs(g[3])
  {
    var g := Groups(m);
    assert g[..1][..0] == g[..0];
    assert g[..2][..1] == g[..1];
    assert g[..3][..2] == g[..2];
    assert g[..|g| - 1] == g[..3];
  }

  /** The objects of a loop's pairs are the objects it iterates over. */
  lemma BoundaryObjs(m: ThreatModel)
    ensures Objs(BoundaryEntities(m)) == set i | 0 <= i < |m.boundaries| :: m.boundaries[i].1.obj
  {
    var es := BoundaryEntities(m);
    forall o | o in Objs(es) ensures o in set i | 0 <= i < |m.boundaries| :: m.boundaries[i].1.obj {
      var i :| 0 <= i < |es| && es[i].0 == o;
    }
    forall o | o in (set i | 0 <= i < |m.boundaries| :: m.boundaries[i].1.obj) ensures o in Objs(es) {
      var i :| 0 <= i < |m.boundaries| && m.boundaries[i].1.obj == o;
      assert es[i].0 == o;
    }
  }

  lemma NodeObjs(ns: seq<NodeInfo>)
    ensures Objs(NodeEntities(ns)) == set i | 0 <= i < |ns| :: ns[i].obj
  {
    var es := NodeEntities(ns);
    forall o | o in Objs(es) ensures o in set i | 0 <= i < |ns| :: ns[i].obj {
      var i :| 0 <= i < |es| && es[i].0 == o;
    }
    forall o | o in (set i | 0 <= i < |ns| :: ns[i].obj) ensures o in Objs(es) {
      var i :| 0 <= i < |ns| && ns[i].obj == o;
      assert es[i].0 == o;
    }
  }

  lemma DataObjs(m: ThreatModel)
    ensures Objs(DataEntities(m)) == set i | 0 <= i < |m.dataObjects| :: m.dataObjects[i].1.obj
  {
    var es := DataEntities(m);
    forall o | o in Objs(es) ensures o in set i | 0 <= i < |m.dataObjects| :: m.dataObjects[i].1.obj {
      var i :| 0 <= i < |es| && es[i].0 == o;
    }
    forall o | o in (set i | 0 <= i < |m.dataObjects| :: m.dataObjects[i].1.obj) ensures o in Objs(es) {
      var i :| 0 <= i < |m.dataObjects| && m.dataObjects[i].1.obj == o;
      assert es[i].0 == o;
    }
  }

  /** The loops register exactly the objects of the model's entities. */
  lemma EntityObjsOfLoops(m: ThreatModel)
    ensures AllObjs(Groups(m)) == EntityObjs(m)
  {
    GroupObjs(m);
    BoundaryObjs(m);
    NodeObjs(m.actors);
    NodeObjs(m.servers);
    DataObjs(m);
  }

  /**
    What the four loops leave: every entity of every kind has the final
    arena's id, a boundary's parent is looked up among the boundaries up to
    it, an actor's among all boundaries and the actors up to it, and a
    server's among all boundaries and actors and the servers up to it.
   */
  lemma LoopFacts(m: ThreatModel)
    ensures var l := RegisterEntities(m);
            && |l.regs| == 4 && Good(l.st) && l.st.registry.Keys == EntityObjs(m)
            && IdsMatch(BoundaryEntities(m), l.regs[0].ids, l.st.arena)
            && IdsMatch(NodeEntities(m.actors), l.regs[1].ids, l.st.arena)
            && IdsMatch(NodeEntities(m.servers), l.regs[2].ids, l.st.arena)
            && IdsMatch(DataEntities(m), l.regs[3].ids, l.st.arena)
            && ParentsMatch({}, BoundaryEntities(m), l.regs[0].parentIds, l.st.arena)
            && ParentsMatch(Objs(BoundaryEntities(m)), NodeEntities(m.actors), l.regs[1].parentIds, l.st.arena)
            && ParentsMatch(Objs(BoundaryEntities(m)) + Objs(NodeEntities(m.actors)),
                            NodeEntities(m.servers), l.regs[2].parentIds, l.st.arena)
  {
    var l, g := RegisterEntities(m), Groups(m);
    EntityObjsOfLoops(m);
    assert IdsMatch(g[0], l.regs[0].ids, l.st.arena) && IdsMatch(g[1], l.regs[1].ids, l.st.arena);
    assert IdsMatch(g[2], l.regs[2].ids, l.st.arena) && IdsMatch(g[3], l.regs[3].ids, l.st.arena);
    LoopParents(m);
  }

  lemma LoopParents(m: ThreatModel)
    ensures var l := RegisterEntities(m);
            && ParentsMatch({}, BoundaryEntities(m), l.regs[0].parentIds, l.st.arena)
            && ParentsMatch(Objs(BoundaryEntities(m)), NodeEntities(m.actors), l.regs[1].parentIds, l.st.arena)
            && ParentsMatch(Objs(BoundaryEntities(m)) + Objs(NodeEntities(m.actors)),
                            NodeEntities(m.servers), l.regs[2].parentIds, l.st.arena)
  {
    var l, g := RegisterEntities(m), Groups(m);
    GroupObjs(m);
    assert ParentsMatch({} + AllObjs(g[..0]), g[0], l.regs[0].parentIds, l.st.arena);
    assert ParentsMatch({} + AllObjs(g[..1]), g[1], l.regs[1].parentIds, l.st.arena);
    assert ParentsMatch({} + AllObjs(g[..2]), g[2], l.regs[2].parentIds, l.st.arena);
  }

  /** The projection of a model whose actors and servers all have names. */
  function Build(m: ThreatModel): (p: Projection)
    requires AllNamed(m)
    ensures p.registry.Keys == EntityObjs(m)
  {
    var l := RegisterEntities(m);
    var fp := ProjectFlows(m.dataflows, l.st);
    LoopFacts(m);
    var g := GuiModel(
      BoundaryRecords(m.boundaries, l.regs[0]),
      NodeRecords(m.actors, l.regs[1], false),
      NodeRecords(m.servers, l.regs[2], true),
      DataRecords(m.dataObjects, l.regs[3]),
      fp.records);
    Projection(g, fp.arena, l.st.registry)
  }

  /** The projection of an assembled model, or the exception it raises. */
  function Project(m: ThreatModel): (r: Result<Projection, GuiError>)
    ensures r.Success? <==> AllNamed(m) && AllHashable(m)
    ensures r.Failure? ==> r.error == (if AllNamed(m) then Unhashable else MissingName)
    ensures r.Success? ==> r.value.registry.Keys == EntityObjs(m)
  {
    if !AllNamed(m) then Failure(MissingName)
    else if !AllHashable(m) then Failure(Unhashable)
    else Success(Build(m))
  }

  // ---------------------------------------------------------------------------
  // Properties of the projection

  /** The final arena extends the one the entity loops left, and agrees with `element_to_id`. */
  lemma FinalArena(m: ThreatModel)
    requires AllNamed(m)
    ensures var p := Build(m);
            && ArenaOk(p.arena)
            && Grows(RegisterEntities(m).st.arena, p.arena)
            && (forall o :: o in p.registry ==> o in p.arena.ids && p.registry[o] == p.arena.ids[o])
  {
  }

  lemma BoundaryRecordIds(m: ThreatModel, r: Registration, a: Arena)
    requires IdsMatch(BoundaryEntities(m), r.ids, a) && |r.parentIds| == |m.boundaries|
    ensures var recs := BoundaryRecords(m.boundaries, r);
            forall i :: 0 <= i < |m.boundaries| ==>
              m.boundaries[i].1.obj in a.ids && recs[i].id == a.ids[m.boundaries[i].1.obj]
  {
  }

  lemma NodeRecordIds(ns: seq<NodeInfo>, r: Registration, server: bool, a: Arena)
    requires IdsMatch(NodeEntities(ns), r.ids, a) && |r.parentIds| == |ns|
    requires forall i :: 0 <= i < |ns| ==> ns[i].name.Some?
    ensures var recs := NodeRecords(ns, r, server);
            forall i :: 0 <= i < |ns| ==> ns[i].obj in a.ids && recs[i].id == a.ids[ns[i].obj]
  {
  }

  lemma DataRecordIds(m: ThreatModel, r: Registration, a: Arena)
    requires IdsMatch(DataEntities(m), r.ids, a)
    ensures var recs := DataRecords(m.dataObjects, r);
            forall i :: 0 <= i < |m.dataObjects| ==>
              m.dataObjects[i].1.obj in a.ids && recs[i].id == a.ids[m.dataObjects[i].1.obj]
  {
  }

  /** The ids the entity loops gave are still the final arena's ids. */
  lemma EntityIdsFinal(m: ThreatModel)
    requires AllNamed(m)
    ensures var l, a := RegisterEntities(m), Build(m).arena;
            && IdsMatch(BoundaryEntities(m), l.regs[0].ids, a)
            && IdsMatch(NodeEntities(m.actors), l.regs[1].ids, a)
            && IdsMatch(NodeEntities(m.servers), l.regs[2].ids, a)
            && IdsMatch(DataEntities(m), l.regs[3].ids, a)
  {
    var l, a := RegisterEntities(m), Build(m).arena;
    LoopFacts(m);
    FinalArena(m);
    IdsMatchGrows(BoundaryEntities(m), l.regs[0].ids, l.st.arena, a);
    IdsMatchGrows(NodeEntities(m.actors), l.regs[1].ids, l.st.arena, a);
    IdsMatchGrows(NodeEntities(m.servers), l.regs[2].ids, l.st.arena, a);
    IdsMatchGrows(DataEntities(m), l.regs[3].ids, l.st.arena, a);
  }

  /**
    Every record carries the final arena's id for the object it was made from,
    and the final arena gives distinct objects distinct ids.
   */
  lemma ProjectionIds(m: ThreatModel, p: Projection)
    requires Project(m) == Success(p)
    ensures ArenaOk(p.arena)
    ensures forall o :: o in p.registry ==> o in p.arena.ids && p.registry[o] == p.arena.ids[o]
    ensures |p.model.boundaries| == |m.boundaries| && |p.model.actors| == |m.actors|
    ensures |p.model.servers| == |m.servers| && |p.model.data| == |m.dataObjects|
    ensures forall i :: 0 <= i < |m.boundaries| ==>
              m.boundaries[i].1.obj in p.arena.ids && p.model.boundaries[i].id == p.arena.ids[m.boundaries[i].1.obj]
    ensures forall i :: 0 <= i < |m.actors| ==>
              m.actors[i].obj in p.arena.ids && p.model.actors[i].id == p.arena.ids[m.actors[i].obj]
    ensures forall i :: 0 <= i < |m.servers| ==>
              m.servers[i].obj in p.arena.ids && p.model.servers[i].id == p.arena.ids[m.servers[i].obj]
    ensures forall i :: 0 <= i < |m.dataObjects| ==>
              m.dataObjects[i].1.obj in p.arena.ids && p.model.data[i].id == p.arena.ids[m.dataObjects[i].1.obj]
    ensures RecordsMatch(Kept(m.dataflows, p.registry), p.model.dataflows, p.registry, p.arena)
  {
    assert p == Build(m);
    var l := RegisterEntities(m);
    FinalArena(m);
    LoopFacts(m);
    EntityIdsFinal(m);
    BoundaryRecordIds(m, l.regs[0], p.arena);
    NodeRecordIds(m.actors, l.regs[1], false, p.arena);
    NodeRecordIds(m.servers, l.regs[2], true, p.arena);
    DataRecordIds(m, l.regs[3], p.arena);
  }

  /** The projection emitted a record with id `id` made from the object `o`. */
  predicate Carries(m: ThreatModel, p: Projection, o: Obj, id: nat) {
    var g, kept := p.model, Kept(m.dataflows, p.registry);
    || (exists i :: 0 <= i < |m.boundaries| && i < |g.boundaries| && m.boundaries[i].1.obj == o && g.boundaries[i].id == id)
    || (exists i :: 0 <= i < |m.actors| && i < |g.actors| && m.actors[i].obj == o && g.actors[i].id == id)
    || (exists i :: 0 <= i < |m.servers| && i < |g.servers| && m.servers[i].obj == o && g.servers[i].id == id)
    || (exists i :: 0 <= i < |m.dataObjects| && i < |g.data| && m.dataObjects[i].1.obj == o && g.data[i].id == id)
    || (exists i :: 0 <= i < |kept| && i < |g.dataflows| && kept[i].obj == o && g.dataflows[i].id == id)
  }

  /**
    Ids identify objects across all kinds of record: two records have the
    same id exactly when they were made from the same object.
   */
  lemma IdsIdentifyObjects(m: ThreatModel, p: Projection, o1: Obj, id1: nat, o2: Obj, id2: nat)
    requires Project(m) == Success(p)
    requires Carries(m, p, o1, id1) && Carries(m, p, o2, id2)
    ensures o1 == o2 <==> id1 == id2
  {
    ProjectionIds(m, p);
    assert o1 in p.arena.ids && id1 == p.arena.ids[o1];
    assert o2 in p.arena.ids && id2 == p.arena.ids[o2];
  }

  lemma BoundaryRecordParents(m: ThreatModel, r: Registration, a: Arena)
    requires ParentsMatch({}, BoundaryEntities(m), r.parentIds, a) && |r.ids| == |m.boundaries|
    ensures var recs := BoundaryRecords(m.boundaries, r);
            && (forall i :: 0 <= i < |m.boundaries| ==>
                  var parent := m.boundaries[i].1.parent;
                  recs[i].parentId.Some? <==>
                    parent.Some? && exists j :: 0 <= j <= i && m.boundaries[j].1.obj == parent.value)
            && (forall i :: 0 <= i < |m.boundaries| && recs[i].parentId.Some? ==>
                  var parent := m.boundaries[i].1.parent.value;
                  parent in a.ids && recs[i].parentId.value == a.ids[parent])
  {
    var es := BoundaryEntities(m);
    forall i, o | 0 <= i < |m.boundaries|
      ensures RegisteredBy({}, es, i, o) <==> exists j :: 0 <= j <= i && m.boundaries[j].1.obj == o
    {
      if RegisteredBy({}, es, i, o) {
        var j :| 0 <= j <= i && j < |es| && es[j].0 == o;
        assert m.boundaries[j].1.obj == o;
      }
      if exists j :: 0 <= j <= i && m.boundaries[j].1.obj == o {
        var j :| 0 <= j <= i && m.boundaries[j].1.obj == o;
        assert es[j].0 == o;
      }
    }
  }

  /**
    A boundary's `parentId` is set exactly when its parent boundary is this
    boundary or one listed before it, and is then the parent's id.
   */
  lemma BoundaryParentIds(m: ThreatModel, p: Projection)
    requires Project(m) == Success(p)
    ensures forall i :: 0 <= i < |m.boundaries| ==>
              var parent := m.boundaries[i].1.parent;
              p.model.boundaries[i].parentId.Some? <==>
                parent.Some? && exists j :: 0 <= j <= i && m.boundaries[j].1.obj == parent.value
    ensures forall i :: 0 <= i < |m.boundaries| && p.model.boundaries[i].parentId.Some? ==>
              var parent := m.boundaries[i].1.parent.value;
              parent in p.arena.ids && p.model.boundaries[i].parentId.value == p.arena.ids[parent]
  {
    assert p == Build(m);
    var l := RegisterEntities(m);
    FinalArena(m);
    LoopFacts(m);
    ParentsMatchGrows({}, BoundaryEntities(m), l.regs[0].parentIds, l.st.arena, p.arena);
    BoundaryRecordParents(m, l.regs[0], p.arena);
  }

  /**
    Actor records have a parent id exactly when the actor's boundary is a
    boundary of the model, or an actor listed up to it.
   */
  predicate ActorParentsSpec(m: ThreatModel, recs: seq<GuiNode>) {
    && |recs| == |m.actors|
    && forall i :: 0 <= i < |m.actors| ==>
         var b := m.actors[i].boundary;
         recs[i].parentId.Some? <==>
           && b.Some?
           && ((exists j :: 0 <= j < |m.boundaries| && m.boundaries[j].1.obj == b.value)
               || exists j :: 0 <= j <= i && m.actors[j].obj == b.value)
  }

  lemma ActorRecordParents(m: ThreatModel, r: Registration, a: Arena)
    requires ParentsMatch(Objs(BoundaryEntities(m)), NodeEntities(m.actors), r.parentIds, a)
    requires |r.ids| == |m.actors| && AllNamed(m)
    ensures ActorParentsSpec(m, NodeRecords(m.actors, r, false))
  {
    var bs, es := BoundaryEntities(m), NodeEntities(m.actors);
    forall i, o | 0 <= i < |m.actors|
      ensures RegisteredBy(Objs(bs), es, i, o) <==>
                (exists j :: 0 <= j < |m.boundaries| && m.boundaries[j].1.obj == o)
                || exists j :: 0 <= j <= i && m.actors[j].obj == o
    {
      if o in Objs(bs) {
        var j :| 0 <= j < |bs| && bs[j].0 == o;
        assert m.boundaries[j].1.obj == o;
      } else if RegisteredBy(Objs(bs), es, i, o) {
        var j :| 0 <= j <= i && j < |es| && es[j].0 == o;
        assert m.actors[j].obj == o;
      }
      if exists j :: 0 <= j < |m.boundaries| && m.boundaries[j].1.obj == o {
        var j :| 0 <= j < |m.boundaries| && m.boundaries[j].1.obj == o;
        assert bs[j].0 == o;
      }
      if exists j :: 0 <= j <= i && m.actors[j].obj == o {
        var j :| 0 <= j <= i && m.actors[j].obj == o;
        assert es[j].0 == o;
      }
    }
  }

  /**
    An actor's `parentId` is set exactly when its boundary is a boundary of the
    model, or an actor listed up to it.
   */
  lemma ActorParentIds(m: ThreatModel, p: Projection)
    requires Project(m) == Success(p)
    ensures ActorParentsSpec(m, p.model.actors)
  {
    assert p == Build(m);
    LoopFacts(m);
    var l := RegisterEntities(m);
    ActorRecordParents(m, l.regs[1], l.st.arena);
  }

  /**
    Server records have a parent id exactly when the server's boundary is a
    boundary or an actor of the model, or a server listed up to it.
   */
  predicate ServerParentsSpec(m: ThreatModel, recs: seq<GuiNode>) {
    && |recs| == |m.servers|
    && forall i :: 0 <= i < |m.servers| ==>
         var b := m.servers[i].boundary;
         recs[i].parentId.Some? <==>
           && b.Some?
           && ((exists j :: 0 <= j < |m.boundaries| && m.boundaries[j].1.obj == b.value)
               || (exists j :: 0 <= j < |m.actors| && m.actors[j].obj == b.value)
               || exists j :: 0 <= j <= i && m.servers[j].obj == b.value)
  }

  lemma ServerRecordParents(m: ThreatModel, r: Registration, a: Arena)
    requires ParentsMatch(Objs(BoundaryEntities(m)) + Objs(NodeEntities(m.actors)),
                          NodeEntities(m.servers), r.parentIds, a)
    requires |r.ids| == |m.servers| && AllNamed(m)
    ensures ServerParentsSpec(m, NodeRecords(m.servers, r, true))
  {
    var bs, acts, es := BoundaryEntities(m), NodeEntities(m.actors), NodeEntities(m.servers);
    var before := Objs(bs) + Objs(acts);
    forall i, o | 0 <= i < |m.servers|
      ensures RegisteredBy(before, es, i, o) <==>
                (exists j :: 0 <= j < |m.boundaries| && m.boundaries[j].1.obj == o)
                || (exists j :: 0 <= j < |m.actors| && m.actors[j].obj == o)
                || exists j :: 0 <= j <= i && m.servers[j].obj == o
    {
      if o in Objs(bs) {
        var j :| 0 <= j < |bs| && bs[j].0 == o;
        assert m.boundaries[j].1.obj == o;
      } else if o in Objs(acts) {
        var j :| 0 <= j < |acts| && acts[j].0 == o;
        assert m.actors[j].obj == o;
      } else if RegisteredBy(before, es, i, o) {
        var j :| 0 <= j <= i && j < |es| && es[j].0 == o;
        assert m.servers[j].obj == o;
      }
      if exists j :: 0 <= j < |m.boundaries| && m.boundaries[j].1.obj == o {
        var j :| 0 <= j < |m.boundaries| && m.boundaries[j].1.obj == o;
        assert bs[j].0 == o;
      }
      if exists j :: 0 <= j < |m.actors| && m.actors[j].obj == o {
        var j :| 0 <= j < |m.actors| && m.actors[j].obj == o;
        assert acts[j].0 == o;
      }
      if exists j :: 0 <= j <= i && m.servers[j].obj == o {
        var j :| 0 <= j <= i && m.servers[j].obj == o;
        assert es[j].0 == o;
      }
    }
  }

  /**
    A server's `parentId` is set exactly when its boundary is a boundary or an
    actor of the model, or a server listed up to it.
   */
  lemma ServerParentIds(m: ThreatModel, p: Projection)
    requires Project(m) == Success(p)
    ensures ServerParentsSpec(m, p.model.servers)
  {
    assert p == Build(m);
    LoopFacts(m);
    var l := RegisterEntities(m);
    ServerRecordParents(m, l.regs[2], l.st.arena);
  }

  /** A dataflow is kept exactly when both endpoints are objects that have an id. */
  lemma KeptExactly(fs: seq<Flow>, registry: map<Obj, nat>, objs: set<Obj>)
    requires registry.Keys == objs
    ensures forall f :: f in Kept(fs, registry) <==>
              f in fs && f.source.Object? && f.source.obj in objs && f.sink.Object? && f.sink.obj in objs
  {
  }

  /** A dataflow record names its dataflow and carries its endpoints' ids. */
  lemma RecordEndpoints(kept: seq<Flow>, records: seq<GuiFlow>, registry: map<Obj, nat>, a: Arena)
    requires RecordsMatch(kept, records, registry, a)
    requires forall o :: o in registry ==> o in a.ids && registry[o] == a.ids[o]
    ensures forall i :: 0 <= i < |records| ==>
              && kept[i].source.Object? && kept[i].source.obj in a.ids
              && kept[i].sink.Object? && kept[i].sink.obj in a.ids
              && records[i].name == kept[i].name
              && records[i].from == a.ids[kept[i].source.obj]
              && records[i].to == a.ids[kept[i].sink.obj]
  {
  }

  /**
    A dataflow is emitted exactly when both of its endpoints are model objects
    registered as a boundary, actor, server or data asset; the emitted records
    follow the order of the model's dataflows.
   */
  lemma EmittedDataflows(m: ThreatModel, p: Projection)
    requires Project(m) == Success(p)
    ensures forall f :: f in Kept(m.dataflows, p.registry) <==>
              && f in m.dataflows
              && f.source.Object? && f.source.obj in EntityObjs(m)
              && f.sink.Object? && f.sink.obj in EntityObjs(m)
    ensures |p.model.dataflows| == |Kept(m.dataflows, p.registry)|
    ensures forall i :: 0 <= i < |p.model.dataflows| ==>
              var f := Kept(m.dataflows, p.registry)[i];
              && p.model.dataflows[i].name == f.name
              && p.model.dataflows[i].from == p.arena.ids[f.source.obj]
              && p.model.dataflows[i].to == p.arena.ids[f.sink.obj]
  {
    ProjectionIds(m, p);
    KeptExactly(m.dataflows, p.registry, EntityObjs(m));
    RecordEndpoints(Kept(m.dataflows, p.registry), p.model.dataflows, p.registry, p.arena);
  }

  /**
    `markdown_to_json_for_gui`. Assembling the model from markdown is done by a
    collaborator outside this project; its outcome is the parameter `assembled`.
   */
  function MarkdownToGui(content: string, assembled: Option<ThreatModel>): (r: Result<GuiModel, GuiError>)
    ensures content == "" ==> r == Failure(EmptyContent)
    ensures content != "" && assembled.None? ==> r == Failure(AssemblyFailed)
    ensures r.Success? ==> assembled.Some? && Project(assembled.value).Success?
                           && r.value == Project(assembled.value).value.model
  {
    if content == "" then Failure(EmptyContent)
    else if assembled.None? then Failure(AssemblyFailed)
    else
      match Project(assembled.value)
      case Success(p) => Success(p.model)
      case Failure(e) => Failure(e)
  }
}

=== FILE: markdown_dsl.dfy ===
/**
  The graphical editor's serialiser: the graph JSON the editor posts is
  written out as the Markdown DSL, section by section, and `get_model_name`
  reads the model's title back from Markdown text.
 */
module MarkdownDsl {
  import opened Wrappers
  import opened Text
  import opened Dicts

  /** A JSON value as Python holds it after `request.json`. */
  datatype Json =
    | JNull
    | JBool(b: bool)
    | JInt(i: int)
    | JStr(s: string)
    | JOther(text: string, nonEmpty: bool)
      // a float, list or object: its `str()` text and whether it is truthy

  /** Python truthiness. */
  predicate Truthy(v: Json) {
    match v
    case JNull => false
    case JBool(b) => b
    case JInt(i) => i != 0
    case JStr(s) => s != ""
    case JOther(_, nonEmpty) => nonEmpty
  }

  /** What an f-string interpolates: `str(v)`. */
  function Render(v: Json): string {
    match v
    case JNull => "None"
    case JBool(b) => if b then "True" else "False"
    case JInt(i) => IntToString(i)
    case JStr(s) => s
    case JOther(text, _) => text
  }

  /** A JSON object of the editor's graph. */
  type Item = map<string, Json>

  /** `item.get(key)`: the value, or None when the key is missing. */
  function Get(item: Item, key: string): Json {
    if key in item then item[key] else JNull
  }

  /** `d.get(k)` on a dictionary keyed by JSON values. */
  function Lookup<V>(d: map<Json, V>, k: Json, missing: V): V {
    if k in d then d[k] else missing
  }

  // ---------------------------------------------------------------------------
  // Properties

  /** The `key="value"` text of one property. */
  function Entry(item: Item, key: string): string {
    key + "=\"" + Render(Get(item, key)) + "\""
  }

  /** The properties `_format_properties` keeps, in the order of `keys`. */
  function PropertyList(item: Item, keys: seq<string>): (props: seq<string>)
    ensures |props| <= |keys|
    decreases |keys|
  {
    if |keys| == 0 then []
    else
      var init := keys[..|keys| - 1];
      var last := keys[|keys| - 1];
      PropertyList(item, init) + (if Truthy(Get(item, last)) then [Entry(item, last)] else [])
  }

  /** A key's entry is kept exactly when its value is truthy, and nothing else is kept. */
  lemma {:induction false} PropertyListMembers(item: Item, keys: seq<string>)
    ensures forall k :: k in keys && Truthy(Get(item, k)) ==> Entry(item, k) in PropertyList(item, keys)
    ensures forall p :: p in PropertyList(item, keys) ==>
              exists k :: k in keys && Truthy(Get(item, k)) && p == Entry(item, k)
    decreases |keys|
  {
    if |keys| > 0 {
      var init := keys[..|keys| - 1];
      var last := keys[|keys| - 1];
      PropertyListMembers(item, init);
      assert forall k :: k in keys ==> k in init || k == last;
      assert forall k :: k in init ==> k in keys;
    }
  }

  /** The kept properties of a concatenation of key lists are those of each, in order. */
  lemma {:induction false} PropertyListAppend(item: Item, keys1: seq<string>, keys2: seq<string>)
    ensures PropertyList(item, keys1 + keys2) == PropertyList(item, keys1) + PropertyList(item, keys2)
    decreases |keys2|
  {
    if |keys2| == 0 {
      assert keys1 + keys2 == keys1;
    } else {
      var ks, init, last := keys1 + keys2, keys2[..|keys2| - 1], keys2[|keys2| - 1];
      var tail := if Truthy(Get(item, last)) then [Entry(item, last)] else [];
      assert ks[..|ks| - 1] == keys1 + init && ks[|ks| - 1] == last;
      assert PropertyList(item, ks) == PropertyList(item, keys1 + init) + tail;
      assert PropertyList(item, keys2) == PropertyList(item, init) + tail;
      PropertyListAppend(item, keys1, init);
      assert (PropertyList(item, keys1) + PropertyList(item, init)) + tail
          == PropertyList(item, keys1) + (PropertyList(item, init) + tail);
    }
  }

  /** One key contributes its entry exactly when its value is truthy. */
  lemma PropertyListSingle(item: Item, key: string)
    ensures PropertyList(item, [key]) == if Truthy(Get(item, key)) then [Entry(item, key)] else []
  {
    assert [key][..0] == [];
  }

  /** `_format_properties`: the kept entries joined by ", ". */
  function FormatProperties(item: Item, keys: seq<string>): string {
    Join(PropertyList(item, keys), ", ")
  }

  /** A join of non-empty texts is empty only when there is nothing to join. */
  lemma JoinEmpty(parts: seq<string>, sep: string)
    requires forall i :: 0 <= i < |parts| ==> |parts[i]| > 0
    ensures Join(parts, sep) == "" <==> parts == []
  {
    if |parts| == 1 {
      assert Join(parts, sep) == parts[0];
    } else if |parts| > 1 {
      assert Join(parts, sep) == parts[0] + sep + Join(parts[1..], sep);
    }
  }

  /** The property text is empty exactly when none of the requested values is truthy. */
  lemma FormatPropertiesEmpty(item: Item, keys: seq<string>)
    ensures FormatProperties(item, keys) == "" <==> forall k :: k in keys ==> !Truthy(Get(item, k))
  {
    var props := PropertyList(item, keys);
    PropertyListMembers(item, keys);
    forall i | 0 <= i < |props| ensures |props[i]| > 0 {
      assert props[i] in props;
    }
    JoinEmpty(props, ", ");
    if props != [] {
      assert props[0] in props;
    }
  }

  // ---------------------------------------------------------------------------
  // The serialiser

  /** The editor's graph: each list is `data.get(kind, [])`. */
  datatype Graph = Graph(
    boundaries: seq<Item>,
    actors: seq<Item>,
    servers: seq<Item>,
    data: seq<Item>,
    dataflows: seq<Item>)

  /** Every item of `items` has each key of `keys`. */
  predicate AllHave(items: seq<Item>, keys: set<string>) {
    forall i :: 0 <= i < |items| ==> keys <= items[i].Keys
  }

  /** The graph holds every key the serialiser indexes with `[...]`; otherwise it raises KeyError. */
  predicate WellKeyed(g: Graph) {
    && AllHave(g.boundaries, {"id", "name"})
    && AllHave(g.actors + g.servers + g.data, {"id", "name"})
    && AllHave(g.dataflows, {"from", "to"})
  }

  const TitlePrefix := "# Threat Model: "
  const Title := TitlePrefix + "Graphical Editor"

  /** The line written for a boundary, actor, server or data item. */
  function ItemLine(name: Json, props: string): string {
    "- **" + Render(name) + "**: " + props
  }

  /** Pairs keyed by one field of each item have that field's values as keys. */
  lemma SameKeys<V>(items: seq<Item>, key: string, pairs: seq<(Json, V)>)
    requires AllHave(items, {key}) && |pairs| == |items|
    requires forall i :: 0 <= i < |items| ==> pairs[i].0 == items[i][key]
    ensures (set i | 0 <= i < |pairs| :: pairs[i].0) == set i | 0 <= i < |items| :: items[i][key]
  {
    var a := set i | 0 <= i < |pairs| :: pairs[i].0;
    var b := set i | 0 <= i < |items| :: items[i][key];
    forall x | x in a ensures x in b {
      var i :| 0 <= i < |pairs| && pairs[i].0 == x;
      assert key in items[i];
    }
    forall x | x in b ensures x in a {
      var i :| 0 <= i < |items| && key in items[i] && items[i][key] == x;
      assert pairs[i].0 == x;
    }
  }

  /** Each key of the dictionary of keyed pairs comes from an item with that key. */
  lemma KeyedOrigin<V>(items: seq<Item>, key: string, pairs: seq<(Json, V)>, k: Json)
    requires AllHave(items, {key}) && |pairs| == |items|
    requires forall i :: 0 <= i < |items| ==> pairs[i].0 == items[i][key]
    requires k in Collect(pairs)
    ensures exists i :: 0 <= i < |items| && items[i][key] == k && Collect(pairs)[k] == pairs[i].1
  {
    CollectLastWins(pairs, k);
  }

  /** An item whose key no later item repeats supplies the value for that key. */
  lemma KeyedLast<V>(items: seq<Item>, key: string, pairs: seq<(Json, V)>, i: int)
    requires AllHave(items, {key}) && |pairs| == |items|
    requires forall i :: 0 <= i < |items| ==> pairs[i].0 == items[i][key]
    requires 0 <= i < |items| && forall j :: i < j < |items| ==> items[j][key] != items[i][key]
    ensures items[i][key] in Collect(pairs) && Collect(pairs)[items[i][key]] == pairs[i].1
  {
    forall j | i < j < |pairs| ensures pairs[j].0 != pairs[i].0 {
      assert pairs[j].0 == items[j][key];
    }
    assert LastForKey(pairs, i);
  }

  /** `boundary_map`: boundary id to boundary name, the last boundary with an id winning. */
  function BoundaryMap(bs: seq<Item>): (bm: map<Json, Json>)
    requires AllHave(bs, {"id", "name"})
    ensures bm.Keys == set i | 0 <= i < |bs| :: bs[i]["id"]
    ensures forall k :: k in bm ==> exists i :: 0 <= i < |bs| && bs[i]["id"] == k && bm[k] == bs[i]["name"]
    ensures forall i :: 0 <= i < |bs| && (forall j :: i < j < |bs| ==> bs[j]["id"] != bs[i]["id"]) ==>
                        bs[i]["id"] in bm && bm[bs[i]["id"]] == bs[i]["name"]
  {
    var pairs := seq(|bs|, i requires 0 <= i < |bs| => (bs[i]["id"], bs[i]["name"]));
    SameKeys(bs, "id", pairs);
    var bm := Collect(pairs);
    forall k | k in bm ensures exists i :: 0 <= i < |bs| && bs[i]["id"] == k && bm[k] == bs[i]["name"] {
      KeyedOrigin(bs, "id", pairs, k);
    }
    forall i | 0 <= i < |bs| && (forall j :: i < j < |bs| ==> bs[j]["id"] != bs[i]["id"])
      ensures bs[i]["id"] in bm && bm[bs[i]["id"]] == bs[i]["name"]
    {
      KeyedLast(bs, "id", pairs, i);
    }
    bm
  }

  /** `nodes`: actor, server and data id to item, the last item with an id winning. */
  function NodeTable(items: seq<Item>): (nodes: map<Json, Item>)
    requires AllHave(items, {"id", "name"})
    ensures nodes.Keys == set i | 0 <= i < |items| :: items[i]["id"]
    ensures forall k :: k in nodes ==> exists i :: 0 <= i < |items| && items[i]["id"] == k && nodes[k] == items[i]
    ensures forall k :: k in nodes ==> "name" in nodes[k]
    ensures forall i :: 0 <= i < |items| && (forall j :: i < j < |items| ==> items[j]["id"] != items[i]["id"]) ==>
                        items[i]["id"] in nodes && nodes[items[i]["id"]] == items[i]
  {
    var pairs := seq(|items|, i requires 0 <= i < |items| => (items[i]["id"], items[i]));
    SameKeys(items, "id", pairs);
    var nodes := Collect(pairs);
    forall k | k in nodes ensures exists i :: 0 <= i < |items| && items[i]["id"] == k && nodes[k] == items[i] {
      KeyedOrigin(items, "id", pairs, k);
    }
    forall i | 0 <= i < |items| && (forall j :: i < j < |items| ==> items[j]["id"] != items[i]["id"])
      ensures items[i]["id"] in nodes && nodes[items[i]["id"]] == items[i]
    {
      KeyedLast(items, "id", pairs, i);
    }
    nodes
  }

  /** The properties of an actor or server: its `boundary` is replaced by the looked-up boundary name. */
  function NodeProps(bm: map<Json, Json>, node: Item): string {
    var withBoundary := node["boundary" := Lookup(bm, Get(node, "parentId"), JNull)];
    FormatProperties(withBoundary, ["boundary", "description"])
  }

  /** A boundary's line: its name and description. */
  function BoundaryLine(b: Item): string
    requires "name" in b
  {
    ItemLine(b["name"], FormatProperties(b, ["description"]))
  }

  /** An actor's or server's line: its name, the looked-up boundary name and its description. */
  function NodeLine(bm: map<Json, Json>, n: Item): string
    requires "name" in n
  {
    ItemLine(n["name"], NodeProps(bm, n))
  }

  /** A data item's line: its name, description and classification. */
  function DataLine(d: Item): string
    requires "name" in d
  {
    ItemLine(d["name"], FormatProperties(d, ["description", "classification"]))
  }

  /** From position `start` on, `lines` holds each boundary's line, in order. */
  predicate BoundariesAt(lines: seq<string>, start: nat, bs: seq<Item>)
    requires AllHave(bs, {"name"})
  {
    forall i :: 0 <= i < |bs| ==> start + i < |lines| && lines[start + i] == BoundaryLine(bs[i])
  }

  /** From position `start` on, `lines` holds each actor's or server's line, in order. */
  predicate NodesAt(lines: seq<string>, start: nat, bm: map<Json, Json>, ns: seq<Item>)
    requires AllHave(ns, {"name"})
  {
    forall i :: 0 <= i < |ns| ==> start + i < |lines| && lines[start + i] == NodeLine(bm, ns[i])
  }

  /** From position `start` on, `lines` holds each data item's line, in order. */
  predicate DataAt(lines: seq<string>, start: nat, ds: seq<Item>)
    requires AllHave(ds, {"name"})
  {
    forall i :: 0 <= i < |ds| ==> start + i < |lines| && lines[start + i] == DataLine(ds[i])
  }

  /** The Boundaries section: one line per boundary with its description. */
  function BoundaryLines(bs: seq<Item>): (lines: seq<string>)
    requires AllHave(bs, {"name"})
    ensures |lines| == |bs|
    ensures BoundariesAt(lines, 0, bs)
  {
    seq(|bs|, i requires 0 <= i < |bs| => BoundaryLine(bs[i]))
  }

  /** The Actors or Servers section: one line per node with its boundary and description. */
  function NodeLines(bm: map<Json, Json>, ns: seq<Item>): (lines: seq<string>)
    requires AllHave(ns, {"name"})
    ensures |lines| == |ns|
    ensures NodesAt(lines, 0, bm, ns)
  {
    seq(|ns|, i requires 0 <= i < |ns| => NodeLine(bm, ns[i]))
  }

  /** The Data section: one line per data item with its description and classification. */
  function DataLines(ds: seq<Item>): (lines: seq<string>)
    requires AllHave(ds, {"name"})
    ensures |lines| == |ds|
    ensures DataAt(lines, 0, ds)
  {
    seq(|ds|, i requires 0 <= i < |ds| => DataLine(ds[i]))
  }

  /** Every node of the table has a name. */
  predicate Named(nodes: map<Json, Item>) {
    forall k :: k in nodes ==> "name" in nodes[k]
  }

  /**
    The line of one dataflow, or None when an endpoint is not an actor,
    server or data id. A node item is a non-empty dictionary, so it is truthy.
   */
  function FlowLine(nodes: map<Json, Item>, df: Item): (line: Option<string>)
    requires Named(nodes) && "from" in df && "to" in df
    ensures line.Some? <==> df["from"] in nodes && df["to"] in nodes
    ensures line.Some? ==>
              var fromName := Render(nodes[df["from"]]["name"]);
              var toName := Render(nodes[df["to"]]["name"]);
              var name := if Truthy(Get(df, "name")) then Render(Get(df, "name")) else fromName + " to " + toName;
              line.value == "- **" + name + "**: from=\"" + fromName + "\", to=\"" + toName + "\", "
                            + FormatProperties(df, ["protocol", "description"])
  {
    var f, t := df["from"], df["to"];
    if f in nodes && t in nodes then
      var fromName := Render(nodes[f]["name"]);
      var toName := Render(nodes[t]["name"]);
      var name := if Truthy(Get(df, "name")) then Render(Get(df, "name")) else fromName + " to " + toName;
      var head := "- **" + name + "**: from=\"" + fromName + "\", to=\"" + toName + "\", ";
      Some(head + FormatProperties(df, ["protocol", "description"]))
    else None
  }

  /** The values of the present options, in order. */
  function Somes<T>(opts: seq<Option<T>>): (r: seq<T>)
    ensures |r| <= |opts|
    ensures forall i :: 0 <= i < |opts| && opts[i].Some? ==> opts[i].value in r
    ensures forall x :: x in r ==> exists i :: 0 <= i < |opts| && opts[i] == Some(x)
    decreases |opts|
  {
    if |opts| == 0 then []
    else
      var init := opts[..|opts| - 1];
      var rest := Somes(init);
      assert forall i :: 0 <= i < |init| ==> init[i] == opts[i];
      if opts[|opts| - 1].Some? then rest + [opts[|opts| - 1].value] else rest
  }

  /** Without a present option there are no values. */
  lemma {:induction false} SomesNone<T>(opts: seq<Option<T>>)
    requires forall i :: 0 <= i < |opts| ==> opts[i].None?
    ensures Somes(opts) == []
    decreases |opts|
  {
    if |opts| > 0 {
      SomesNone(opts[..|opts| - 1]);
    }
  }

  /** The dataflow section's lines: those of the resolvable dataflows, in input order. */
  function FlowLines(nodes: map<Json, Item>, dfs: seq<Item>): (lines: seq<string>)
    requires Named(nodes) && AllHave(dfs, {"from", "to"})
    ensures |lines| <= |dfs|
    ensures forall i :: 0 <= i < |dfs| && FlowLine(nodes, dfs[i]).Some? ==> FlowLine(nodes, dfs[i]).value in lines
    ensures forall l :: l in lines ==> exists i :: 0 <= i < |dfs| && FlowLine(nodes, dfs[i]) == Some(l)
  {
    var opts := seq(|dfs|, i requires 0 <= i < |dfs| => FlowLine(nodes, dfs[i]));
    assert forall i :: 0 <= i < |dfs| ==> opts[i] == FlowLine(nodes, dfs[i]);
    Somes(opts)
  }

  /** One more option adds its value, if present, at the end. */
  lemma SomesSnoc<T>(opts: seq<Option<T>>, o: Option<T>)
    ensures Somes(opts + [o]) == Somes(opts) + (if o.Some? then [o.value] else [])
  {
    assert (opts + [o])[..|opts|] == opts;
  }

  /**
    One more dataflow adds its line, if it resolves, after the lines of the
    earlier ones: the section keeps input order.
   */
  lemma FlowLinesSnoc(nodes: map<Json, Item>, dfs: seq<Item>, df: Item)
    requires Named(nodes) && AllHave(dfs, {"from", "to"}) && "from" in df && "to" in df
    ensures AllHave(dfs + [df], {"from", "to"})
    ensures var line := FlowLine(nodes, df);
            FlowLines(nodes, dfs + [df]) == FlowLines(nodes, dfs) + (if line.Some? then [line.value] else [])
  {
    var all := dfs + [df];
    assert forall i :: 0 <= i < |dfs| ==> dfs[i] == all[i];
    assert all[|dfs|] == df;
    var opts := seq(|dfs|, i requires 0 <= i < |dfs| => FlowLine(nodes, dfs[i]));
    var optsAll := seq(|all|, i requires 0 <= i < |all| => FlowLine(nodes, all[i]));
    assert optsAll == opts + [FlowLine(nodes, df)];
    SomesSnoc(opts, FlowLine(nodes, df));
  }

  /** No dataflow resolves: the section has no lines. */
  lemma FlowLinesNone(nodes: map<Json, Item>, dfs: seq<Item>)
    requires Named(nodes) && AllHave(dfs, {"from", "to"})
    requires forall i :: 0 <= i < |dfs| ==> FlowLine(nodes, dfs[i]).None?
    ensures FlowLines(nodes, dfs) == []
  {
    SomesNone(seq(|dfs|, i requires 0 <= i < |dfs| => FlowLine(nodes, dfs[i])));
  }

  /** `part` appears in `lines` from position `start` on. */
  predicate Placed(lines: seq<string>, start: nat, part: seq<string>) {
    start + |part| <= |lines| && forall i :: 0 <= i < |part| ==> lines[start + i] == part[i]
  }

  /** The title, then the five sections, each a header followed by its lines. */
  function Assemble(bl: seq<string>, al: seq<string>, sl: seq<string>, dl: seq<string>, fl: seq<string>)
    : (lines: seq<string>)
    ensures var nb, na, ns, nd := |bl|, |al|, |sl|, |dl|;
            && |lines| == 6 + nb + na + ns + nd + |fl|
            && lines[0] == Title
            && lines[1] == "\n## Boundaries"
            && lines[2 + nb] == "\n## Actors"
            && lines[3 + nb + na] == "\n## Servers"
            && lines[4 + nb + na + ns] == "\n## Data"
            && lines[5 + nb + na + ns + nd] == "\n## Dataflows"
            && (forall i :: 0 <= i < nb ==> lines[2 + i] == bl[i])
            && (forall i :: 0 <= i < na ==> lines[3 + nb + i] == al[i])
            && (forall i :: 0 <= i < ns ==> lines[4 + nb + na + i] == sl[i])
            && (forall i :: 0 <= i < nd ==> lines[5 + nb + na + ns + i] == dl[i])
            && (forall i :: 0 <= i < |fl| ==> lines[6 + nb + na + ns + nd + i] == fl[i])
            && lines[6 + nb + na + ns + nd..] == fl
  {
    [Title, "\n## Boundaries"] + bl + ["\n## Actors"] + al + ["\n## Servers"] + sl
      + ["\n## Data"] + dl + ["\n## Dataflows"] + fl
  }

  /** Every actor, server and data item has a name. */
  predicate NodesNamedFact(g: Graph) {
    AllHave(g.actors, {"name"}) && AllHave(g.servers, {"name"}) && AllHave(g.data, {"name"})
  }

  /** A well-keyed graph names all its nodes. */
  lemma NodesNamed(g: Graph)
    requires WellKeyed(g)
    ensures NodesNamedFact(g)
  {
    var nodeItems := g.actors + g.servers + g.data;
    assert forall i :: 0 <= i < |g.actors| ==> g.actors[i] == nodeItems[i];
    assert forall i :: 0 <= i < |g.servers| ==> g.servers[i] == nodeItems[|g.actors| + i];
    assert forall i :: 0 <= i < |g.data| ==> g.data[i] == nodeItems[|g.actors| + |g.servers| + i];
  }

  /** The Markdown lines in output order. */
  function Lines(g: Graph): seq<string>
    requires WellKeyed(g)
  {
    NodesNamed(g);
    var bm := BoundaryMap(g.boundaries);
    Assemble(BoundaryLines(g.boundaries), NodeLines(bm, g.actors), NodeLines(bm, g.servers), DataLines(g.data),
             FlowLines(NodeTable(g.actors + g.servers + g.data), g.dataflows))
  }

  /** `convert_json_to_markdown`: the lines joined by newlines, or None when a `[...]` raises KeyError. */
  function ConvertJsonToMarkdown(g: Graph): (md: Option<string>)
    ensures md.Some? <==> WellKeyed(g)
  {
    if WellKeyed(g) then Some(Join(Lines(g), "\n")) else None
  }

  /**
    The title, then the five section headers in the order Boundaries, Actors,
    Servers, Data, Dataflows. Each boundary, actor, server and data item has
    exactly one line, at its input position within its section, headed by its
    name and carrying its properties; an actor's or server's boundary property
    is looked up in the boundary map. The Dataflows section holds exactly the
    lines of the resolving dataflows, and nothing else is written.
   */
  predicate Layout(lines: seq<string>, g: Graph)
    requires WellKeyed(g)
  {
    NodesNamed(g);
    Arranged(lines, g, BoundaryMap(g.boundaries), FlowLines(NodeTable(g.actors + g.servers + g.data), g.dataflows))
  }

  /** The layout for a given boundary map and dataflow lines. */
  predicate Arranged(lines: seq<string>, g: Graph, bm: map<Json, Json>, flows: seq<string>)
    requires NodesNamedFact(g) && AllHave(g.boundaries, {"name"})
  {
    var nb, na, ns, nd := |g.boundaries|, |g.actors|, |g.servers|, |g.data|;
    && |lines| == 6 + nb + na + ns + nd + |flows|
    && lines[0] == Title
    && lines[1] == "\n## Boundaries"
    && lines[2 + nb] == "\n## Actors"
    && lines[3 + nb + na] == "\n## Servers"
    && lines[4 + nb + na + ns] == "\n## Data"
    && lines[5 + nb + na + ns + nd] == "\n## Dataflows"
    && BoundariesAt(lines, 2, g.boundaries)
    && NodesAt(lines, 3 + nb, bm, g.actors)
    && NodesAt(lines, 4 + nb + na, bm, g.servers)
    && DataAt(lines, 5 + nb + na + ns, g.data)
    && lines[6 + nb + na + ns + nd..] == flows
  }

  /**
    The output opens with the title and lists the sections in the order
    Boundaries, Actors, Servers, Data, Dataflows, each item's line complete
    with its properties, and the resolving dataflows' lines last.
   */
  lemma SectionOrder(g: Graph)
    requires WellKeyed(g)
    ensures Layout(Lines(g), g)
  {
    LinesAssembled(g);
    var bm := BoundaryMap(g.boundaries);
    AssembledLayout(g, BoundaryLines(g.boundaries), NodeLines(bm, g.actors), NodeLines(bm, g.servers),
                    DataLines(g.data), FlowLines(NodeTable(g.actors + g.servers + g.data), g.dataflows));
  }

  /** Sections placed by `Assemble` keep their lines in order. */
  lemma AssembledLayout(g: Graph, bl: seq<string>, al: seq<string>, sl: seq<string>, dl: seq<string>, fl: seq<string>)
    requires WellKeyed(g) && NodesNamedFact(g)
    requires |bl| == |g.boundaries| && |al| == |g.actors| && |sl| == |g.servers| && |dl| == |g.data|
    requires BoundariesAt(bl, 0, g.boundaries) && NodesAt(al, 0, BoundaryMap(g.boundaries), g.actors)
    requires NodesAt(sl, 0, BoundaryMap(g.boundaries), g.servers) && DataAt(dl, 0, g.data)
    requires fl == FlowLines(NodeTable(g.actors + g.servers + g.data), g.dataflows)
    ensures Layout(Assemble(bl, al, sl, dl, fl), g)
  {
    PlacedLayout(Assemble(bl, al, sl, dl, fl), g, BoundaryMap(g.boundaries), bl, al, sl, dl, fl);
  }

  /** Lines that hold each section's lines after its header have the layout. */
  lemma PlacedLayout(lines: seq<string>, g: Graph, bm: map<Json, Json>,
                     bl: seq<string>, al: seq<string>, sl: seq<string>, dl: seq<string>, fl: seq<string>)
    requires NodesNamedFact(g) && AllHave(g.boundaries, {"name"})
    requires |bl| == |g.boundaries| && |al| == |g.actors| && |sl| == |g.servers| && |dl| == |g.data|
    requires BoundariesAt(bl, 0, g.boundaries) && NodesAt(al, 0, bm, g.actors)
    requires NodesAt(sl, 0, bm, g.servers) && DataAt(dl, 0, g.data)
    requires var nb, na, ns, nd := |bl|, |al|, |sl|, |dl|;
             && |lines| == 6 + nb + na + ns + nd + |fl|
             && lines[0] == Title
             && lines[1] == "\n## Boundaries"
             && lines[2 + nb] == "\n## Actors"
             && lines[3 + nb + na] == "\n## Servers"
             && lines[4 + nb + na + ns] == "\n## Data"
             && lines[5 + nb + na + ns + nd] == "\n## Dataflows"
             && Placed(lines, 2, bl) && Placed(lines, 3 + nb, al)
             && Placed(lines, 4 + nb + na, sl) && Placed(lines, 5 + nb + na + ns, dl)
             && lines[6 + nb + na + ns + nd..] == fl
    ensures Arranged(lines, g, bm, fl)
  {
    var nb, na, ns := |bl|, |al|, |sl|;
    BoundariesAtShift(lines, 2, g.boundaries, bl);
    NodesAtShift(lines, 3 + nb, bm, g.actors, al);
    NodesAtShift(lines, 4 + nb + na, bm, g.servers, sl);
    DataAtShift(lines, 5 + nb + na + ns, g.data, dl);
  }

  /** Boundary lines copied into `lines` at `start` are in place there. */
  lemma BoundariesAtShift(lines: seq<string>, start: nat, bs: seq<Item>, part: seq<string>)
    requires AllHave(bs, {"name"}) && BoundariesAt(part, 0, bs) && |part| == |bs|
    requires Placed(lines, start, part)
    ensures BoundariesAt(lines, start, bs)
  {
    forall i | 0 <= i < |bs| ensures start + i < |lines| && lines[start + i] == BoundaryLine(bs[i]) {
      assert part[0 + i] == part[i];
    }
  }

  /** Actor or server lines copied into `lines` at `start` are in place there. */
  lemma NodesAtShift(lines: seq<string>, start: nat, bm: map<Json, Json>, ns: seq<Item>, part: seq<string>)
    requires AllHave(ns, {"name"}) && NodesAt(part, 0, bm, ns) && |part| == |ns|
    requires Placed(lines, start, part)
    ensures NodesAt(lines, start, bm, ns)
  {
    forall i | 0 <= i < |ns| ensures start + i < |lines| && lines[start + i] == NodeLine(bm, ns[i]) {
      assert part[0 + i] == part[i];
    }
  }

  /** Data lines copied into `lines` at `start` are in place there. */
  lemma DataAtShift(lines: seq<string>, start: nat, ds: seq<Item>, part: seq<string>)
    requires AllHave(ds, {"name"}) && DataAt(part, 0, ds) && |part| == |ds|
    requires Placed(lines, start, part)
    ensures DataAt(lines, start, ds)
  {
    forall i | 0 <= i < |ds| ensures start + i < |lines| && lines[start + i] == DataLine(ds[i]) {
      assert part[0 + i] == part[i];
    }
  }

  /** The lines of a graph, section by section. */
  lemma LinesAssembled(g: Graph)
    requires WellKeyed(g)
    ensures NodesNamedFact(g) && Lines(g) == Assemble(BoundaryLines(g.boundaries),
      NodeLines(BoundaryMap(g.boundaries), g.actors), NodeLines(BoundaryMap(g.boundaries), g.servers),
      DataLines(g.data), FlowLines(NodeTable(g.actors + g.servers + g.data), g.dataflows))
  {
    NodesNamed(g);
  }

  // ---------------------------------------------------------------------------
  // Reading the title back

  /** What follows the title prefix on the first line that starts with it. */
  function FirstTitle(lines: seq<string>): (t: Option<string>)
    ensures t.None? <==> forall i :: 0 <= i < |lines| ==> !StartsWith(lines[i], TitlePrefix)
    ensures t.Some? ==> exists i :: && 0 <= i < |lines| && StartsWith(lines[i], TitlePrefix)
                                   && t.value == lines[i][|TitlePrefix|..]
                                   && forall j :: 0 <= j < i ==> !StartsWith(lines[j], TitlePrefix)
    decreases |lines|
  {
    if |lines| == 0 then None
    else if StartsWith(lines[0], TitlePrefix) then Some(lines[0][|TitlePrefix|..])
    else
      var t := FirstTitle(lines[1..]);
      assert forall i :: 1 <= i < |lines| ==> lines[i] == lines[1..][i - 1];
      t
  }

  /**
    `get_model_name`: a multi-line search for `^# Threat Model: (.*)$`. Lines
    are delimited by '\n' only and `.` stops at '\n', so the captured group
    is the rest of the first line that starts with the prefix, stripped.
   */
  function GetModelName(content: string): (name: string)
    ensures (forall i :: 0 <= i < |Split(content, '\n')| ==> !StartsWith(Split(content, '\n')[i], TitlePrefix))
            ==> name == "Untitled Model"
    ensures var lines := Split(content, '\n');
            forall i :: 0 <= i < |lines| && StartsWith(lines[i], TitlePrefix)
                        && (forall j :: 0 <= j < i ==> !StartsWith(lines[j], TitlePrefix))
                        ==> name == Trim(lines[i][|TitlePrefix|..])
  {
    match FirstTitle(Split(content, '\n'))
    case Some(rest) => Trim(rest)
    case None => "Untitled Model"
  }

  /** A title line ahead of any text names the model: the stripped title. */
  lemma ModelNameOfTitle(name: string, rest: string)
    requires '\n' !in name
    ensures GetModelName(TitlePrefix + name + "\n" + rest) == Trim(name)
  {
    var first := TitlePrefix + name;
    assert '\n' !in first by {
      assert forall i :: 0 <= i < |TitlePrefix| ==> first[i] == TitlePrefix[i];
      assert forall i :: |TitlePrefix| <= i < |first| ==> first[i] == name[i - |TitlePrefix|];
    }
    SplitFirst(first, '\n', rest);
    assert first[..|TitlePrefix|] == TitlePrefix;
    assert first[|TitlePrefix|..] == name;
  }

  /** Joining lines with newlines puts the first line ahead of a newline. */
  lemma JoinFirst(lines: seq<string>)
    requires |lines| > 1
    ensures Join(lines, "\n") == lines[0] + "\n" + Join(lines[1..], "\n")
  {
  }

  /** A title without surrounding whitespace is read back unchanged. */
  lemma ModelNameOfCleanTitle(name: string, rest: string)
    requires '\n' !in name && Unpadded(name)
    ensures GetModelName(TitlePrefix + name + "\n" + rest) == name
  {
    ModelNameOfTitle(name, rest);
    TrimUnpadded(name);
  }

  /** The serialiser's title is the name `get_model_name` reads back, for every graph. */
  lemma ConvertedModelName(g: Graph)
    requires WellKeyed(g)
    ensures GetModelName(ConvertJsonToMarkdown(g).value) == "Graphical Editor"
  {
    var lines := Lines(g);
    SectionOrder(g);
    JoinFirst(lines);
    GraphicalEditorTitle(Join(lines[1..], "\n"));
  }

  /** The serialiser's first line, ahead of any text, names the model "Graphical Editor". */
  lemma GraphicalEditorTitle(rest: string)
    ensures GetModelName(Title + "\n" + rest) == "Graphical Editor"
  {
    ModelNameOfCleanTitle("Graphical Editor", rest);
  }

  /** The first line of the template the editor starts from. */
  const DefaultTitleLine := "# Threat Model: New Model"

  /** The remaining lines of the template; the last is empty because the text ends with a newline. */
  const DefaultBodyLines: seq<string> := [
    "",
    "## Description",
    "A new threat model. Describe your system here.",
    "",
    "## Boundaries",
    "- **Default Boundary**: color=lightgray",
    "",
    "## Actors",
    "- **User**: boundary=Default Boundary",
    "",
    "## Servers",
    "- **Application Server**: boundary=Default Boundary",
    "",
    "## Dataflows",
    "- **User to Application Server**: from=\"User\", to=\"Application Server\", protocol=\"HTTPS\"",
    "",
    "## Severity Multipliers",
    "# Example:",
    "# - **Application Server**: 1.5",
    "",
    "## Custom Mitre Mapping",
    "# Example:",
    "# - **Custom Attack**: tactics=[\"Initial Access\"], techniques=[{\"id\": \"T1000\", \"name\": \"Custom Technique\"}]",
    ""]

  /** `DEFAULT_EMPTY_MARKDOWN`: the template's lines joined by newlines. */
  const DefaultEmptyMarkdown: string := Join([DefaultTitleLine] + DefaultBodyLines, "\n")

  /** Lines opened by a clean title line are named by that title. */
  lemma TitledLinesName(line: string, name: string, body: seq<string>)
    requires line == TitlePrefix + name && '\n' !in name && Unpadded(name) && |body| > 0
    ensures GetModelName(Join([line] + body, "\n")) == name
  {
    JoinFirst([line] + body);
    assert ([line] + body)[1..] == body;
    ModelNameOfCleanTitle(name, Join(body, "\n"));
  }

  /** The starting template is named "New Model". */
  lemma DefaultModelName()
    ensures GetModelName(DefaultEmptyMarkdown) == "New Model"
  {
    TitledLinesName(DefaultTitleLine, "New Model", DefaultBodyLines);
  }

  // ---------------------------------------------------------------------------
  // Resolution of references

  /**
    An actor's or server's `boundary` property is the looked-up name of the
    boundary whose id is its `parentId`, whatever the node itself says under
    `boundary`; when no boundary has that id, or the name is falsy, only the
    description is written. (`BoundaryMap` states which boundary's name that is.)
   */
  lemma NodeBoundaryProperty(bm: map<Json, Json>, node: Item)
    ensures var pid := Get(node, "parentId");
            var desc := PropertyList(node, ["description"]);
            && (pid in bm && Truthy(bm[pid]) ==>
                  NodeProps(bm, node) == Join(["boundary=\"" + Render(bm[pid]) + "\""] + desc, ", "))
            && (!(pid in bm && Truthy(bm[pid])) ==> NodeProps(bm, node) == FormatProperties(node, ["description"]))
  {
    var pid := Get(node, "parentId");
    var v := Lookup(bm, pid, JNull);
    var w := node["boundary" := v];
    PropertyListAppend(w, ["boundary"], ["description"]);
    assert ["boundary"] + ["description"] == ["boundary", "description"];
    PropertyListSingle(w, "boundary");
    assert "description" != "boundary" by {
      assert "description"[0] != "boundary"[0];
    }
    DescriptionUnchanged(node, v);
    if pid in bm && Truthy(bm[pid]) {
      assert Entry(w, "boundary") == "boundary=\"" + Render(bm[pid]) + "\"";
    }
  }

  /**
    The line of an actor or server names, as its boundary, the last boundary
    whose id is the node's parentId, when that name is truthy; when no
    boundary has that id, only the description follows the name.
   */
  lemma NodeLineBoundary(g: Graph, n: Item)
    requires WellKeyed(g) && "name" in n
    ensures var bs, pid := g.boundaries, Get(n, "parentId");
            forall j :: 0 <= j < |bs| && bs[j]["id"] == pid && Truthy(bs[j]["name"])
                        && (forall k :: j < k < |bs| ==> bs[k]["id"] != pid) ==>
                          NodeLine(BoundaryMap(bs), n)
                          == ItemLine(n["name"], Join(["boundary=\"" + Render(bs[j]["name"]) + "\""]
                                                      + PropertyList(n, ["description"]), ", "))
    ensures var bs, pid := g.boundaries, Get(n, "parentId");
            (forall j :: 0 <= j < |bs| ==> bs[j]["id"] != pid) ==>
              NodeLine(BoundaryMap(bs), n) == ItemLine(n["name"], FormatProperties(n, ["description"]))
  {
    var bm := BoundaryMap(g.boundaries);
    NodeBoundaryProperty(bm, n);
  }

  /** Setting `boundary` leaves the kept description alone. */
  lemma DescriptionUnchanged(node: Item, v: Json)
    ensures PropertyList(node["boundary" := v], ["description"]) == PropertyList(node, ["description"])
  {
    assert "description" != "boundary" by {
      assert "description"[0] != "boundary"[0];
    }
    var w := node["boundary" := v];
    assert Get(w, "description") == Get(node, "description");
    PropertyListSingle(w, "description");
    PropertyListSingle(node, "description");
  }

  /**
    A dataflow is written exactly when both its endpoints are ids of actors,
    servers or data items; a boundary id does not resolve unless a node
    shares it.
   */
  lemma FlowEmittedIff(g: Graph, df: Item)
    requires WellKeyed(g) && "from" in df && "to" in df
    ensures var items := g.actors + g.servers + g.data;
            var ids := set i | 0 <= i < |items| :: items[i]["id"];
            FlowLine(NodeTable(items), df).Some? <==> df["from"] in ids && df["to"] in ids
  {
  }
}

=== FILE: positions.dfy ===
/**
  Name-keyed layout metadata of `ThreatModelService`: the placeholder positions
  extracted from an assembled model, and the partial overlay of positions
  captured by the graphical editor onto them. Positions are keyed by the
  human-readable names of entities, so they survive re-parsing the model.
 */
module Positions {
  import opened Wrappers
  import opened Dicts
  import opened ThreatModels

  /** One point of a dataflow's polyline. */
  datatype Point = Point(x: int, y: int)

  /** A boundary's rectangle. */
  datatype BoxPos = BoxPos(x: int, y: int, width: int, height: int)

  /** An actor's or server's location and the name of its boundary. */
  datatype NodePos = NodePos(x: int, y: int, boundary: Option<string>)

  /** A dataflow's endpoints (by name) and polyline. */
  datatype FlowPos = FlowPos(source: string, target: string, points: seq<Point>)

  /** The `positions` dictionary, one name-keyed table per entity kind. */
  datatype Positions = Positions(
    boundaries: map<string, BoxPos>,
    actors: map<string, NodePos>,
    servers: map<string, NodePos>,
    dataflows: map<string, FlowPos>)

  // ---------------------------------------------------------------------------
  // Extraction

  /** The `(name, placeholder)` pairs the boundary loop writes, in iteration order. */
  function BoundaryPairs(bs: seq<(string, BoundaryInfo)>): (pairs: seq<(string, BoxPos)>)
    ensures |pairs| == |bs|
    ensures forall i :: 0 <= i < |bs| ==> pairs[i] == (bs[i].0, BoxPos(0, 0, 0, 0))
  {
    seq(|bs|, i requires 0 <= i < |bs| => (bs[i].0, BoxPos(0, 0, 0, 0)))
  }

  /** The name an actor or server is filed under: 'Unknown' when it has none. */
  function NodeKey(n: NodeInfo): string {
    n.name.GetOr("Unknown")
  }

  /** The pairs the actor (or server) loop writes, in list order. */
  function NodePairs(ns: seq<NodeInfo>): (pairs: seq<(string, NodePos)>)
    ensures |pairs| == |ns|
    ensures forall i :: 0 <= i < |ns| ==> pairs[i] == (NodeKey(ns[i]), NodePos(0, 0, ns[i].boundaryName))
  {
    seq(|ns|, i requires 0 <= i < |ns| => (NodeKey(ns[i]), NodePos(0, 0, ns[i].boundaryName)))
  }

  /** The pairs the dataflow loop writes, in list order. */
  function FlowPairs(fs: seq<Flow>): (pairs: seq<(string, FlowPos)>)
    ensures |pairs| == |fs|
    ensures forall i :: 0 <= i < |fs| ==>
              pairs[i] == (fs[i].name, FlowPos(ElementName(fs[i].source), ElementName(fs[i].sink), []))
  {
    seq(|fs|, i requires 0 <= i < |fs| =>
      (fs[i].name, FlowPos(ElementName(fs[i].source), ElementName(fs[i].sink), [])))
  }

  /** `_extract_element_positions`. */
  function ExtractPositions(m: ThreatModel): (p: Positions)
    ensures p.boundaries.Keys == set i | 0 <= i < |m.boundaries| :: m.boundaries[i].0
    ensures p.actors.Keys == set i | 0 <= i < |m.actors| :: NodeKey(m.actors[i])
    ensures p.servers.Keys == set i | 0 <= i < |m.servers| :: NodeKey(m.servers[i])
    ensures p.dataflows.Keys == set i | 0 <= i < |m.dataflows| :: m.dataflows[i].name
  {
    var bp, ap, sp, fp :=
      BoundaryPairs(m.boundaries), NodePairs(m.actors), NodePairs(m.servers), FlowPairs(m.dataflows);
    assert (set i | 0 <= i < |bp| :: bp[i].0) == set i | 0 <= i < |m.boundaries| :: m.boundaries[i].0;
    assert (set i | 0 <= i < |ap| :: ap[i].0) == set i | 0 <= i < |m.actors| :: NodeKey(m.actors[i]);
    assert (set i | 0 <= i < |sp| :: sp[i].0) == set i | 0 <= i < |m.servers| :: NodeKey(m.servers[i]);
    assert (set i | 0 <= i < |fp| :: fp[i].0) == set i | 0 <= i < |m.dataflows| :: m.dataflows[i].name;
    Positions(Collect(bp), Collect(ap), Collect(sp), Collect(fp))
  }

  /**
    Every extracted entry is a placeholder: coordinates and sizes are 0 and
    polylines are empty; an entity that shares its name with a later one of
    the same kind is represented by the later one.
   */
  lemma ExtractedPlaceholders(m: ThreatModel)
    ensures var p := ExtractPositions(m);
            && (forall k :: k in p.boundaries ==> p.boundaries[k] == BoxPos(0, 0, 0, 0))
            && (forall k :: k in p.actors ==> p.actors[k].x == 0 && p.actors[k].y == 0)
            && (forall k :: k in p.servers ==> p.servers[k].x == 0 && p.servers[k].y == 0)
            && (forall k :: k in p.dataflows ==> p.dataflows[k].points == [])
            && (forall i :: LastForKey(NodePairs(m.actors), i) ==>
                  p.actors[NodeKey(m.actors[i])].boundary == m.actors[i].boundaryName)
            && (forall i :: LastForKey(NodePairs(m.servers), i) ==>
                  p.servers[NodeKey(m.servers[i])].boundary == m.servers[i].boundaryName)
            && (forall i :: LastForKey(FlowPairs(m.dataflows), i) ==>
                  var f := p.dataflows[m.dataflows[i].name];
                  f.source == ElementName(m.dataflows[i].source) && f.target == ElementName(m.dataflows[i].sink))
  {
    var p := ExtractPositions(m);
    assert p.boundaries == Collect(BoundaryPairs(m.boundaries)) && p.actors == Collect(NodePairs(m.actors));
    assert p.servers == Collect(NodePairs(m.servers)) && p.dataflows == Collect(FlowPairs(m.dataflows));
    BoundaryPlaceholders(m.boundaries);
    NodePlaceholders(m.actors);
    NodePlaceholders(m.servers);
    FlowPlaceholders(m.dataflows);
  }

  lemma BoundaryPlaceholders(bs: seq<(string, BoundaryInfo)>)
    ensures var c := Collect(BoundaryPairs(bs));
            forall k :: k in c ==> c[k] == BoxPos(0, 0, 0, 0)
  {
    var c := Collect(BoundaryPairs(bs));
    forall k | k in c ensures c[k] == BoxPos(0, 0, 0, 0) {
      CollectLastWins(BoundaryPairs(bs), k);
    }
  }

  lemma NodePlaceholders(ns: seq<NodeInfo>)
    ensures var c := Collect(NodePairs(ns));
            && (forall k :: k in c ==> c[k].x == 0 && c[k].y == 0)
            && (forall i :: LastForKey(NodePairs(ns), i) ==> c[NodeKey(ns[i])].boundary == ns[i].boundaryName)
  {
    var c := Collect(NodePairs(ns));
    forall k | k in c ensures c[k].x == 0 && c[k].y == 0 {
      CollectLastWins(NodePairs(ns), k);
    }
  }

  lemma FlowPlaceholders(fs: seq<Flow>)
    ensures var c := Collect(FlowPairs(fs));
            && (forall k :: k in c ==> c[k].points == [])
            && (forall i :: LastForKey(FlowPairs(fs), i) ==>
                  c[fs[i].name].source == ElementName(fs[i].source) && c[fs[i].name].target == ElementName(fs[i].sink))
  {
    var c := Collect(FlowPairs(fs));
    forall k | k in c ensures c[k].points == [] {
      CollectLastWins(FlowPairs(fs), k);
    }
  }

  // ---------------------------------------------------------------------------
  // Merge with editor positions

  /** A boundary's rectangle as the editor reports it; any field may be missing. */
  datatype UiBox = UiBox(x: Option<int>, y: Option<int>, width: Option<int>, height: Option<int>)

  /** An actor's or server's location as the editor reports it. */
  datatype UiNode = UiNode(x: Option<int>, y: Option<int>)

  /** A dataflow's polyline as the editor reports it. */
  datatype UiFlow = UiFlow(points: Option<seq<Point>>)

  /** The editor's position report; each kind's table may be missing. */
  datatype UiPositions = UiPositions(
    boundaries: Option<map<string, UiBox>>,
    actors: Option<map<string, UiNode>>,
    servers: Option<map<string, UiNode>>,
    dataflows: Option<map<string, UiFlow>>)

  /** The `.update(...)` of a boundary: all four fields come from the editor, 0 when missing. */
  function PlaceBox(b: BoxPos, u: UiBox): BoxPos {
    BoxPos(u.x.GetOr(0), u.y.GetOr(0), u.width.GetOr(0), u.height.GetOr(0))
  }

  /** The `.update(...)` of an actor or server: x and y only, 0 when missing. */
  function PlaceNode(n: NodePos, u: UiNode): NodePos {
    n.(x := u.x.GetOr(0), y := u.y.GetOr(0))
  }

  /** The `['points'] = ...` of a dataflow: the editor's polyline, `[]` when missing. */
  function PlaceFlow(f: FlowPos, u: UiFlow): FlowPos {
    f.(points := u.points.GetOr([]))
  }

  /**
    `r` is `base` with each name that both tables hold updated from the editor
    by `place`, and every other name of `base` untouched; names only the editor
    reports are ignored.
   */
  ghost predicate Overlaid<V, U>(base: map<string, V>, ui: map<string, U>, place: (V, U) -> V, r: map<string, V>) {
    && r.Keys == base.Keys
    && (forall k :: k in base && k in ui ==> r[k] == place(base[k], ui[k]))
    && (forall k :: k in base && k !in ui ==> r[k] == base[k])
  }

  /** One `for name, ui_pos in ui_positions[kind].items()` loop: update names present in `base`. */
  method OverlayKind<V, U>(base: map<string, V>, ui: Option<map<string, U>>, place: (V, U) -> V)
    returns (r: map<string, V>)
    ensures Overlaid(base, ui.GetOr(map[]), place, r)
  {
    r := base;
    if ui.None? {
      return;
    }
    var table := ui.value;
    var todo := table.Keys;
    while todo != {}
      invariant todo <= table.Keys
      invariant r.Keys == base.Keys
      invariant forall k :: k in base && k in table && k !in todo ==> r[k] == place(base[k], table[k])
      invariant forall k :: k in base && (k !in table || k in todo) ==> r[k] == base[k]
      decreases todo
    {
      var k :| k in todo;
      if k in r {
        r := r[k := place(r[k], table[k])];
      }
      todo := todo - {k};
    }
  }

  /**
    `_merge_with_ui_positions`: a partial overlay, kind by kind. Boundaries take
    the editor's rectangle, actors and servers their x and y, dataflows their
    polyline; a kind the editor does not report is left as extracted.
   */
  method MergeUiPositions(base: Positions, ui: UiPositions) returns (r: Positions)
    ensures Overlaid(base.boundaries, ui.boundaries.GetOr(map[]), PlaceBox, r.boundaries)
    ensures Overlaid(base.actors, ui.actors.GetOr(map[]), PlaceNode, r.actors)
    ensures Overlaid(base.servers, ui.servers.GetOr(map[]), PlaceNode, r.servers)
    ensures Overlaid(base.dataflows, ui.dataflows.GetOr(map[]), PlaceFlow, r.dataflows)
  {
    var boundaries := OverlayKind(base.boundaries, ui.boundaries, PlaceBox);
    var actors := OverlayKind(base.actors, ui.actors, PlaceNode);
    var servers := OverlayKind(base.servers, ui.servers, PlaceNode);
    var dataflows := OverlayKind(base.dataflows, ui.dataflows, PlaceFlow);
    r := Positions(boundaries, actors, servers, dataflows);
  }

  /**
    The merge only moves things: the set of names of every kind, the boundary
    an actor or server belongs to, and a dataflow's endpoints are those extracted.
   */
  lemma MergeKeepsStructure(base: Positions, ui: UiPositions, r: Positions)
    requires Overlaid(base.boundaries, ui.boundaries.GetOr(map[]), PlaceBox, r.boundaries)
    requires Overlaid(base.actors, ui.actors.GetOr(map[]), PlaceNode, r.actors)
    requires Overlaid(base.servers, ui.servers.GetOr(map[]), PlaceNode, r.servers)
    requires Overlaid(base.dataflows, ui.dataflows.GetOr(map[]), PlaceFlow, r.dataflows)
    ensures r.boundaries.Keys == base.boundaries.Keys && r.actors.Keys == base.actors.Keys
    ensures r.servers.Keys == base.servers.Keys && r.dataflows.Keys == base.dataflows.Keys
    ensures forall k :: k in r.actors ==> r.actors[k].boundary == base.actors[k].boundary
    ensures forall k :: k in r.servers ==> r.servers[k].boundary == base.servers[k].boundary
    ensures forall k :: k in r.dataflows ==>
              r.dataflows[k].source == base.dataflows[k].source && r.dataflows[k].target == base.dataflows[k].target
  {
  }

  /** Without an editor report the merge is the identity. */
  lemma MergeWithoutReport(base: Positions, r: Positions)
    requires Overlaid(base.boundaries, map[], PlaceBox, r.boundaries)
    requires Overlaid(base.actors, map[], PlaceNode, r.actors)
    requires Overlaid(base.servers, map[], PlaceNode, r.servers)
    requires Overlaid(base.dataflows, map[], PlaceFlow, r.dataflows)
    ensures r == base
  {
  }
}

=== FILE: target_names.dfy ===
/**
  How report generators name the target of a threat: a single element, a
  `(source, sink)` pair, or a dataflow, possibly wrapped in a one-element
  tuple. The code probes attributes at run time; here each shape it can
  tell apart is a constructor.
 */
module TargetNames {

  /** A threat target as `extract_name_from_object` and `get_target_name` see it. */
  datatype Target =
    | NoneValue                                         // None
    | Text(s: string)                                   // a str
    | Named(name: string)                               // an object with a `name` attribute; `name` is str(obj.name)
    | Dataflow(name: string, source: Target, sink: Target)  // an object with `name`, `source` and `sink`
    | Tuple(items: seq<Target>)
    | Opaque                                            // anything else: a number, a dict, ...

  /** The arrow placed between a source and a destination name. */
  const Arrow := " \U{2192} "

  /** The fallback name. */
  const Unspecified := "Unspecified"

  /** The name of a target that is not unwrapped any further. */
  function NameOf(t: Target): (r: string)
    ensures t.Named? ==> r == t.name
    ensures t.Dataflow? ==> r == t.name
    ensures t.Text? ==> r == t.s
    ensures t.NoneValue? || t.Tuple? || t.Opaque? ==> r == Unspecified
  {
    match t
    case Named(name) => name
    case Dataflow(name, _, _) => name
    case Text(s) => s
    case _ => Unspecified
  }

  /** Whether `t` is a one-element tuple. */
  predicate Single(t: Target) {
    t.Tuple? && |t.items| == 1
  }

  /**
    `extract_name_from_object`: a one-element tuple is unwrapped once; then
    None is 'Unspecified', an object with a name gives that name, a string
    gives itself, and anything else is 'Unspecified'.
   */
  function ExtractName(t: Target): (r: string)
    ensures Single(t) ==> r == NameOf(t.items[0])
    ensures !Single(t) ==> r == NameOf(t)
  {
    NameOf(if Single(t) then t.items[0] else t)
  }

  /** The name of the source side of a pair: a dataflow stands for its source. */
  function SourceName(t: Target): string {
    if t.Dataflow? then ExtractName(t.source) else ExtractName(t)
  }

  /** The name of the destination side of a pair: a dataflow stands for its sink. */
  function SinkName(t: Target): string {
    if t.Dataflow? then ExtractName(t.sink) else ExtractName(t)
  }

  /**
    `get_target_name`: a pair is rendered "source → destination", a
    one-element tuple holding a dataflow is rendered by the dataflow's
    endpoints, and everything else by its extracted name.
   */
  function GetTargetName(t: Target): (r: string)
    ensures t.Tuple? && |t.items| == 2 ==> r == SourceName(t.items[0]) + Arrow + SinkName(t.items[1])
    ensures Single(t) && t.items[0].Dataflow? ==>
              r == ExtractName(t.items[0].source) + Arrow + ExtractName(t.items[0].sink)
    ensures Single(t) && !t.items[0].Dataflow? ==> r == NameOf(t.items[0])
    ensures !t.Tuple? ==> r == NameOf(t)
    ensures t.Tuple? && (|t.items| == 0 || |t.items| >= 3) ==> r == Unspecified
  {
    if t.Tuple? && |t.items| == 2 then
      SourceName(t.items[0]) + Arrow + SinkName(t.items[1])
    else if Single(t) && t.items[0].Dataflow? then
      var f := t.items[0];
      ExtractName(f.source) + Arrow + ExtractName(f.sink)
    else
      ExtractName(t)
  }

  // ---------------------------------------------------------------------------
  // Properties of the case analysis

  /** Unwrapping happens once: a one-element tuple inside a one-element tuple is unnamed. */
  lemma UnwrapsOnce(t: Target)
    ensures ExtractName(Tuple([t])) == if t.Tuple? then Unspecified else ExtractName(t)
  {
  }

  /** None, bare or wrapped in a one-element tuple, is 'Unspecified' under both functions. */
  lemma NoneIsUnspecified()
    ensures ExtractName(NoneValue) == Unspecified && ExtractName(Tuple([NoneValue])) == Unspecified
    ensures GetTargetName(NoneValue) == Unspecified && GetTargetName(Tuple([NoneValue])) == Unspecified
  {
  }

  /** A dataflow wrapped in a one-element tuple is rendered as the pair of itself with itself. */
  lemma WrappedFlowIsPair(f: Target)
    requires f.Dataflow?
    ensures GetTargetName(Tuple([f])) == GetTargetName(Tuple([f, f]))
  {
  }

  /**
    A dataflow wrapped in a one-element tuple is rendered as the pair of its
    endpoints, when neither endpoint is itself a dataflow.
   */
  lemma WrappedFlowIsEndpointPair(f: Target)
    requires f.Dataflow? && !f.source.Dataflow? && !f.sink.Dataflow?
    ensures GetTargetName(Tuple([f])) == GetTargetName(Tuple([f.source, f.sink]))
  {
  }

  /** Apart from the two tuple shapes it handles itself, `get_target_name` is `extract_name_from_object`. */
  lemma TargetNameFallsBack(t: Target)
    requires !(t.Tuple? && |t.items| == 2) && !(Single(t) && t.items[0].Dataflow?)
    ensures GetTargetName(t) == ExtractName(t)
  {
  }

  /** A bare dataflow is named by its own name, not by its endpoints. */
  lemma BareFlowIsNamed(name: string, source: Target, sink: Target)
    ensures GetTargetName(Dataflow(name, source, sink)) == name
  {
  }
}

=== FILE: text.dfy ===
/**
  The handful of Python `str` operations the modelled code relies on:
  `strip`, `startswith`, `replace`, `split` on one character, `join`,
  and the rendering of integers by `str()` / f-strings.
 */
module Text {

  /** Python's `str.isspace()` for a single character: the characters `strip()` removes. */
  predicate IsSpace(c: char) {
    || ('\t' <= c <= '\r')
    || ('\U{1C}' <= c <= '\U{1F}')
    || c == ' '
    || c == '\U{85}'
    || c == '\U{A0}'
    || c == '\U{1680}'
    || ('\U{2000}' <= c <= '\U{200A}')
    || c == '\U{2028}'
    || c == '\U{2029}'
    || c == '\U{202F}'
    || c == '\U{205F}'
    || c == '\U{3000}'
  }

  /** No whitespace at either end: what `strip()` leaves behind. */
  predicate Unpadded(s: string) {
    |s| == 0 || (!IsSpace(s[0]) && !IsSpace(s[|s| - 1]))
  }

  /** The number of whitespace characters at the start of `s`. */
  function LeadingSpaces(s: string): (k: nat)
    ensures k <= |s|
    ensures forall i :: 0 <= i < k ==> IsSpace(s[i])
    ensures k < |s| ==> !IsSpace(s[k])
    decreases |s|
  {
    if |s| > 0 && IsSpace(s[0]) then 1 + LeadingSpaces(s[1..]) else 0
  }

  /** The length of `s` once its trailing whitespace is cut off. */
  function TrailingCut(s: string): (k: nat)
    ensures k <= |s|
    ensures forall i :: k <= i < |s| ==> IsSpace(s[i])
    ensures k > 0 ==> !IsSpace(s[k - 1])
    decreases |s|
  {
    if |s| > 0 && IsSpace(s[|s| - 1]) then TrailingCut(s[..|s| - 1]) else |s|
  }

  /** Python's `s.strip()`. */
  function Trim(s: string): (r: string)
    ensures Unpadded(r)
    ensures |r| <= |s|
  {
    var t := s[LeadingSpaces(s)..];
    t[..TrailingCut(t)]
  }

  /** `strip()` is the identity on text that has no surrounding whitespace. */
  lemma TrimUnpadded(s: string)
    requires Unpadded(s)
    ensures Trim(s) == s
  {
    if |s| > 0 {
      assert LeadingSpaces(s) == 0;
      assert s[0..] == s;
      assert TrailingCut(s) == |s|;
    }
  }

  /** `strip()` is idempotent. */
  lemma TrimIdempotent(s: string)
    ensures Trim(Trim(s)) == Trim(s)
  {
    TrimUnpadded(Trim(s));
  }

  /** Stripping whitespace-only padding recovers the unpadded text. */
  lemma TrimAround(pre: string, s: string, post: string)
    requires forall i :: 0 <= i < |pre| ==> IsSpace(pre[i])
    requires forall i :: 0 <= i < |post| ==> IsSpace(post[i])
    requires |s| > 0 && Unpadded(s)
    ensures Trim(pre + s + post) == s
  {
    var all := pre + s + post;
    var k := LeadingSpaces(all);
    assert forall i :: 0 <= i < |pre| ==> all[i] == pre[i];
    assert all[|pre|] == s[0];
    assert k == |pre|;
    var t := all[k..];
    assert t == s + post;
    var j := TrailingCut(t);
    assert forall i :: |s| <= i < |t| ==> t[i] == post[i - |s|];
    assert t[|s| - 1] == s[|s| - 1];
    assert j == |s|;
    assert t[..j] == s;
  }

  /** Only whitespace is removed, and only from the ends. */
  lemma TrimIsInfix(s: string)
    ensures exists i, j ::
              && 0 <= i <= j <= |s|
              && Trim(s) == s[i..j]
              && (forall k :: 0 <= k < i ==> IsSpace(s[k]))
              && (forall k :: j <= k < |s| ==> IsSpace(s[k]))
  {
    var i := LeadingSpaces(s);
    var t := s[i..];
    var j := i + TrailingCut(t);
    assert Trim(s) == s[i..j];
    forall k | j <= k < |s| ensures IsSpace(s[k]) {
      assert s[k] == t[k - i];
    }
  }

  /** Python's `s.startswith(p)`. */
  predicate StartsWith(s: string, p: string) {
    |p| <= |s| && s[..|p|] == p
  }

  /** `p` occurs in `s` starting at index `i`. */
  predicate OccursAt(s: string, p: string, i: int) {
    0 <= i && i + |p| <= |s| && s[i..i + |p|] == p
  }

  /** `p` occurs somewhere in `s` (Python's `p in s`). */
  ghost predicate Contains(s: string, p: string) {
    exists i :: OccursAt(s, p, i)
  }

  /**
    Python's `s.replace(pat, rep)`: every non-overlapping occurrence of `pat`,
    scanning left to right, is replaced by `rep`.
   */
  function ReplaceAll(s: string, pat: string, rep: string): string
    requires |pat| > 0
    decreases |s|
  {
    if |s| < |pat| then s
    else if s[..|pat|] == pat then rep + ReplaceAll(s[|pat|..], pat, rep)
    else [s[0]] + ReplaceAll(s[1..], pat, rep)
  }

  /** An occurrence at the front is replaced, and the scan continues after it. */
  lemma ReplaceAtFront(pat: string, rest: string, rep: string)
    requires |pat| > 0
    ensures ReplaceAll(pat + rest, pat, rep) == rep + ReplaceAll(rest, pat, rep)
  {
    var s := pat + rest;
    assert s[..|pat|] == pat && s[|pat|..] == rest;
  }

  /** Text in which the pattern does not occur is left unchanged by `replace`. */
  lemma {:induction false} ReplaceAbsent(s: string, pat: string, rep: string)
    requires |pat| > 0
    requires !Contains(s, pat)
    ensures ReplaceAll(s, pat, rep) == s
    decreases |s|
  {
    if |s| >= |pat| {
      assert s[0..0 + |pat|] == s[..|pat|];
      assert !OccursAt(s, pat, 0);
      forall i | 0 <= i && i + |pat| <= |s[1..]|
        ensures !OccursAt(s[1..], pat, i)
      {
        assert s[1..][i..i + |pat|] == s[i + 1..i + 1 + |pat|];
        assert !OccursAt(s, pat, i + 1);
      }
      ReplaceAbsent(s[1..], pat, rep);
      assert [s[0]] + s[1..] == s;
    }
  }

  /** A pattern cannot occur in text that lacks the pattern's first character. */
  lemma LacksFirstChar(s: string, pat: string)
    requires |pat| > 0
    requires pat[0] !in s
    ensures !Contains(s, pat)
  {
    forall i | 0 <= i && i + |pat| <= |s|
      ensures !OccursAt(s, pat, i)
    {
      assert s[i..i + |pat|][0] == s[i];
    }
  }

  /** Python's `s.split(sep)` for a one-character separator. */
  function Split(s: string, sep: char): (parts: seq<string>)
    ensures |parts| >= 1
    ensures forall i :: 0 <= i < |parts| ==> sep !in parts[i]
    decreases |s|
  {
    if |s| == 0 then [""]
    else if s[0] == sep then [""] + Split(s[1..], sep)
    else
      var rest := Split(s[1..], sep);
      [[s[0]] + rest[0]] + rest[1..]
  }

  /** Python's `sep.join(parts)`. */
  function Join(parts: seq<string>, sep: string): string
    decreases |parts|
  {
    if |parts| == 0 then ""
    else if |parts| == 1 then parts[0]
    else parts[0] + sep + Join(parts[1..], sep)
  }

  /** Splitting on a character and joining back with it restores the text. */
  lemma {:induction false} JoinSplit(s: string, sep: char)
    ensures Join(Split(s, sep), [sep]) == s
    decreases |s|
  {
    if |s| > 0 {
      var rest := Split(s[1..], sep);
      JoinSplit(s[1..], sep);
      if s[0] == sep {
        assert Split(s, sep) == [""] + rest;
        assert ([""] + rest)[1..] == rest;
        assert s == [sep] + s[1..];
      } else {
        var parts := [[s[0]] + rest[0]] + rest[1..];
        assert Split(s, sep) == parts;
        if |rest| == 1 {
          assert s == [s[0]] + s[1..];
        } else {
          assert parts[1..] == rest[1..];
          assert Join(rest, [sep]) == rest[0] + [sep] + Join(rest[1..], [sep]);
          assert s == [s[0]] + s[1..];
        }
      }
    }
  }

  /** A first line free of the separator is split off exactly. */
  lemma {:induction false} SplitFirst(a: string, sep: char, b: string)
    requires sep !in a
    ensures Split(a + [sep] + b, sep) == [a] + Split(b, sep)
    decreases |a|
  {
    if |a| == 0 {
      assert a + [sep] + b == [sep] + b;
      assert ([sep] + b)[1..] == b;
    } else {
      var s := a + [sep] + b;
      assert s[0] == a[0];
      assert s[1..] == a[1..] + [sep] + b;
      SplitFirst(a[1..], sep, b);
      assert [a[0]] + a[1..] == a;
    }
  }

  /** Python's `s.replace(c, '')` for each character in `cs`, in any order. */
  function RemoveChars(s: string, cs: set<char>): (r: string)
    ensures forall i :: 0 <= i < |r| ==> r[i] !in cs
    ensures |r| <= |s|
    decreases |s|
  {
    if |s| == 0 then ""
    else if s[0] in cs then RemoveChars(s[1..], cs)
    else [s[0]] + RemoveChars(s[1..], cs)
  }

  /** Removing characters distributes over concatenation. */
  lemma {:induction false} RemoveCharsAppend(a: string, b: string, cs: set<char>)
    ensures RemoveChars(a + b, cs) == RemoveChars(a, cs) + RemoveChars(b, cs)
    decreases |a|
  {
    if |a| == 0 {
      assert a + b == b;
    } else {
      assert (a + b)[0] == a[0];
      assert (a + b)[1..] == a[1..] + b;
      RemoveCharsAppend(a[1..], b, cs);
    }
  }

  /** Text none of whose characters is removed is unchanged. */
  lemma {:induction false} RemoveCharsNone(s: string, cs: set<char>)
    requires forall i :: 0 <= i < |s| ==> s[i] !in cs
    ensures RemoveChars(s, cs) == s
    decreases |s|
  {
    if |s| > 0 {
      RemoveCharsNone(s[1..], cs);
      assert [s[0]] + s[1..] == s;
    }
  }

  /** All characters are ASCII decimal digits, as `strftime` produces for numeric fields. */
  predicate IsDigits(s: string) {
    forall i :: 0 <= i < |s| ==> '0' <= s[i] <= '9'
  }

  /** Python's `str(n)` for a natural number. */
  function NatToString(n: nat): (r: string)
    ensures |r| >= 1 && IsDigits(r)
    decreases n
  {
    var d := ['0' + (n % 10) as char];
    if n < 10 then d else NatToString(n / 10) + d
  }

  /** Python's `str(i)` for an integer. */
  function IntToString(i: int): (r: string)
    ensures |r| >= 1
    ensures (r[0] == '-') == (i < 0)
  {
    if i < 0 then "-" + NatToString(-i) else NatToString(i)
  }
}

=== FILE: threat_model.dfy ===
/**
  The parts of an assembled threat model that the service layer reads. The
  model is built by an assembler outside this project; these records describe
  its output as the position and GUI helpers consume it.
 */
module ThreatModels {
  import opened Wrappers

  /** The identity of a model object: what Python's `id()` and dictionary keys distinguish. */
  type Obj = nat

  /** A dataflow endpoint, as `_get_element_name` probes it. */
  datatype ElementRef =
    | Object(obj: Obj, name: Option<string>)
      // a model object; `name` is its `name` attribute when it has one
    | Dict(name: Option<string>)
      // a dictionary, with or without a 'name' key
    | Str(s: string)
    | Other
      // anything else: None, a number, ...

  /** A trust boundary (the value of `threat_model.boundaries[name]`). */
  datatype BoundaryInfo = BoundaryInfo(
    obj: Obj,                    // b_info['boundary']
    parent: Option<Obj>,         // boundary_obj.inBoundary, when set
    description: Option<string>,
    isTrusted: Option<bool>,
    lineStyle: Option<string>)

  /** An actor or a server (an element of `threat_model.actors` / `.servers`). */
  datatype NodeInfo = NodeInfo(
    obj: Obj,                    // info['object']
    name: Option<string>,        // info['name']
    boundaryName: Option<string>,// info['boundary_name']
    boundary: Option<Obj>,       // info['boundary'], when truthy
    description: Option<string>,
    os: Option<string>,
    stereotype: Option<string>)  // info['type'] (servers only)

  /** A data asset (the value of `threat_model.data_objects[name]`). */
  datatype DataInfo = DataInfo(obj: Obj, description: Option<string>, classification: Option<string>)

  /** A dataflow between two elements. */
  datatype Flow = Flow(
    obj: Obj,
    name: string,
    source: ElementRef,
    sink: ElementRef,
    protocol: string,
    description: Option<string>,
    isEncrypted: Option<bool>,
    isAuthenticated: Option<bool>)

  /** An assembled model: dictionaries appear as key/value sequences in iteration order. */
  datatype ThreatModel = ThreatModel(
    boundaries: seq<(string, BoundaryInfo)>,
    actors: seq<NodeInfo>,
    servers: seq<NodeInfo>,
    dataObjects: seq<(string, DataInfo)>,
    dataflows: seq<Flow>)

  /** `_get_element_name`: the name attribute, else the 'name' key, else the string itself. */
  function ElementName(e: ElementRef): (r: string)
    ensures (e.Object? || e.Dict?) && e.name.Some? ==> r == e.name.value
    ensures e.Str? ==> r == e.s
    ensures e.Other? || ((e.Object? || e.Dict?) && e.name.None?) ==> r == "Unknown"
  {
    match e
    case Object(_, name) => name.GetOr("Unknown")
    case Dict(name) => name.GetOr("Unknown")
    case Str(s) => s
    case Other => "Unknown"
  }
}

=== FILE: versioning.dfy ===
/**
  Versioned persistence of a threat model (`save_model_with_metadata`) and the
  check that a model file and its metadata file belong together
  (`check_version_compatibility`).

  A saved model starts with a three-line version header followed by a blank
  line; the metadata file records the same version and version id. Clock
  readings are parameters: `datetime.now()` is called twice while saving, so
  two timestamps are passed in.
 */
module Versioning {
  import opened Wrappers
  import opened Text
  import opened ThreatModels
  import opened Positions

  // ---------------------------------------------------------------------------
  // Timestamps

  /** The numeric fields `strftime` renders, each as its digit string. */
  datatype Timestamp = Timestamp(year: string, month: string, day: string, hour: string, minute: string, second: string)

  /** Every field is made of decimal digits. */
  predicate ValidTimestamp(t: Timestamp) {
    IsDigits(t.year) && IsDigits(t.month) && IsDigits(t.day)
    && IsDigits(t.hour) && IsDigits(t.minute) && IsDigits(t.second)
  }

  /** `%Y-%m-%d %H:%M:%S`, the `last_updated` format. */
  function Display(t: Timestamp): string {
    t.year + "-" + t.month + "-" + t.day + " " + t.hour + ":" + t.minute + ":" + t.second
  }

  /** `%Y%m%d%H%M%S`, the version-id format. */
  function Compact(t: Timestamp): (r: string)
    ensures ValidTimestamp(t) ==> IsDigits(r)
  {
    t.year + t.month + t.day + t.hour + t.minute + t.second
  }

  /** `%Y-%m-%d_%H-%M-%S`, the export-bundle format. */
  function Dashed(t: Timestamp): string {
    t.year + "-" + t.month + "-" + t.day + "_" + t.hour + "-" + t.minute + "-" + t.second
  }

  // ---------------------------------------------------------------------------
  // Version header

  /** The version every save writes. */
  const Version: string := "1.0"

  const VersionTag: string := "# Version:"
  const VersionIdTag: string := "# Version ID:"

  /** `f"{version}-{now:%Y%m%d%H%M%S}"`. */
  function VersionId(idAt: Timestamp): string {
    Version + "-" + Compact(idAt)
  }

  /** The header a save prepends: version, version id, last-updated time and a blank line. */
  function Header(versionId: string, lastUpdated: string): (h: string)
    ensures StartsWith(h, VersionTag)
  {
    VersionTag + " " + Version + "\n" + VersionIdTag + " " + versionId + "\n" + "# Last Updated: " + lastUpdated + "\n\n"
  }

  /** Prepends the header unless the content already starts with a version line. */
  function Stamp(content: string, versionId: string, lastUpdated: string): (r: string)
    ensures StartsWith(r, VersionTag)
    ensures StartsWith(content, VersionTag) ==> r == content
    ensures !StartsWith(content, VersionTag) ==> r == Header(versionId, lastUpdated) + content
  {
    if StartsWith(content, VersionTag) then content
    else
      var h := Header(versionId, lastUpdated);
      assert (h + content)[..|VersionTag|] == h[..|VersionTag|];
      h + content
  }

  /** Stamping is idempotent, whatever header the second stamping would write. */
  lemma StampIdempotent(content: string, id1: string, at1: string, id2: string, at2: string)
    ensures Stamp(Stamp(content, id1, at1), id2, at2) == Stamp(content, id1, at1)
  {
  }

  // ---------------------------------------------------------------------------
  // Header parsing

  /** `line.replace(tag, '').strip()`. */
  function FieldValue(line: string, tag: string): (r: string)
    requires |tag| > 0
    ensures Unpadded(r)
  {
    Trim(ReplaceAll(line, tag, ""))
  }

  predicate IsVersionLine(line: string) { StartsWith(line, VersionTag) }
  predicate IsVersionIdLine(line: string) { StartsWith(line, VersionIdTag) }

  /** A version-id line is never taken for a version line: the tags differ at their tenth character. */
  lemma IdLineIsNotVersionLine(line: string)
    requires IsVersionIdLine(line)
    ensures !IsVersionLine(line)
  {
    assert line[9] == VersionIdTag[9] == ' ';
    assert VersionTag[9] == ':';
  }

  /**
    The scan of `check_version_compatibility`: a version line sets the version,
    the first version-id line sets the version id and ends the scan.
   */
  function Scan(lines: seq<string>, version: string): (r: (string, string))
    decreases |lines|
  {
    if |lines| == 0 then (version, "unknown")
    else if IsVersionLine(lines[0]) then Scan(lines[1..], FieldValue(lines[0], VersionTag))
    else if IsVersionIdLine(lines[0]) then (version, FieldValue(lines[0], VersionIdTag))
    else Scan(lines[1..], version)
  }

  /** The `(version, version id)` a model file declares; "1.0" and "unknown" when absent. */
  function ParseHeader(content: string): (string, string) {
    Scan(Split(content, '\n'), Version)
  }

  /** The version line reached next, if any, replaces the version. */
  function NextVersion(line: string, version: string): string {
    if IsVersionLine(line) then FieldValue(line, VersionTag) else version
  }

  /** The value of the last version line of `lines`, or `version` if there is none. */
  function LastVersion(lines: seq<string>, version: string): (r: string)
    decreases |lines|
  {
    if |lines| == 0 then version
    else if IsVersionLine(lines[|lines| - 1]) then FieldValue(lines[|lines| - 1], VersionTag)
    else LastVersion(lines[..|lines| - 1], version)
  }

  /** Reading one more line from the front of `LastVersion`. */
  lemma {:induction false} LastVersionCons(line: string, rest: seq<string>, version: string)
    ensures LastVersion([line] + rest, version) == LastVersion(rest, NextVersion(line, version))
    decreases |rest|
  {
    var all := [line] + rest;
    if |rest| > 0 {
      assert all[|all| - 1] == rest[|rest| - 1];
      assert all[..|all| - 1] == [line] + rest[..|rest| - 1];
      LastVersionCons(line, rest[..|rest| - 1], version);
    } else {
      assert all[..|all| - 1] == [];
    }
  }

  /** A line that is not a version-id line only updates the version and the scan goes on. */
  lemma ScanStep(line: string, rest: seq<string>, version: string)
    requires !IsVersionIdLine(line)
    ensures Scan([line] + rest, version) == Scan(rest, NextVersion(line, version))
  {
    var all := [line] + rest;
    assert all[0] == line && all[1..] == rest;
  }

  /** Without a version-id line, the version is the last version line's and the id "unknown". */
  lemma {:induction false} ScanWithoutId(lines: seq<string>, version: string)
    requires forall i :: 0 <= i < |lines| ==> !IsVersionIdLine(lines[i])
    ensures Scan(lines, version) == (LastVersion(lines, version), "unknown")
    decreases |lines|
  {
    if |lines| > 0 {
      assert lines == [lines[0]] + lines[1..];
      ScanStep(lines[0], lines[1..], version);
      ScanWithoutId(lines[1..], NextVersion(lines[0], version));
      LastVersionCons(lines[0], lines[1..], version);
    }
  }

  /**
    The scan stops at the first version-id line: the version is the last
    version line before it, the id is its value, and nothing after it is read.
   */
  lemma {:induction false} ScanStopsAtId(pre: seq<string>, idLine: string, post: seq<string>, version: string)
    requires forall i :: 0 <= i < |pre| ==> !IsVersionIdLine(pre[i])
    requires IsVersionIdLine(idLine)
    ensures Scan(pre + [idLine] + post, version) == (LastVersion(pre, version), FieldValue(idLine, VersionIdTag))
    decreases |pre|
  {
    var all := pre + [idLine] + post;
    if |pre| == 0 {
      assert all[0] == idLine;
      IdLineIsNotVersionLine(idLine);
    } else {
      var rest := pre[1..] + [idLine] + post;
      assert all == [pre[0]] + rest by {
        assert pre == [pre[0]] + pre[1..];
      }
      forall i | 0 <= i < |pre| - 1 ensures !IsVersionIdLine(pre[1..][i]) {
        assert pre[1..][i] == pre[i + 1];
      }
      ScanStep(pre[0], rest, version);
      ScanStopsAtId(pre[1..], idLine, post, NextVersion(pre[0], version));
      LastVersionCons(pre[0], pre[1..], version);
      assert [pre[0]] + pre[1..] == pre;
    }
  }

  // ---------------------------------------------------------------------------
  // Metadata and the compatibility check

  /** A JSON value read from the metadata: only strings can match a header field. */
  datatype MetaValue = MStr(s: string) | MOther

  /** The metadata file as `json.load` sees it. */
  datatype MetadataDoc =
    | Unreadable                // missing file, unreadable file, invalid JSON
    | NotAnObject               // valid JSON without a `.get` method
    | Doc(version: Option<MetaValue>, versionId: Option<MetaValue>)

  /** `metadata.get(key, default)` as a string, or None when it is not a string. */
  function StringField(v: Option<MetaValue>, default: string): Option<string> {
    match v
    case None => Some(default)
    case Some(MStr(s)) => Some(s)
    case Some(MOther) => None
  }

  /**
    `check_version_compatibility`. `markdown` is the model file's text, or None
    when it cannot be read.
   */
  function CheckCompatibility(markdown: Option<string>, metadata: MetadataDoc): (ok: bool)
    ensures markdown.None? || !metadata.Doc? ==> !ok
    ensures ok <==> markdown.Some? && metadata.Doc?
                    && StringField(metadata.version, Version) == Some(ParseHeader(markdown.value).0)
                    && StringField(metadata.versionId, "unknown") == Some(ParseHeader(markdown.value).1)
  {
    if markdown.None? || !metadata.Doc? then false
    else
      var (version, versionId) := ParseHeader(markdown.value);
      StringField(metadata.version, Version) == Some(version)
      && StringField(metadata.versionId, "unknown") == Some(versionId)
  }

  /** A model file without any header matches metadata without version fields. */
  lemma UnversionedMatchesDefaults(content: string)
    requires forall i :: 0 <= i < |content| ==> content[i] != '#'
    ensures CheckCompatibility(Some(content), Doc(None, None))
  {
    var lines := Split(content, '\n');
    forall i | 0 <= i < |lines| ensures !IsVersionIdLine(lines[i]) && !IsVersionLine(lines[i]) {
      assert VersionTag[0] == '#' && VersionIdTag[0] == '#';
      if |lines[i]| > 0 {
        LineCharsFromContent(content, i);
        assert lines[i][0] in lines[i];
      }
    }
    ScanWithoutId(lines, Version);
    NoVersionLines(lines, Version);
  }

  /** Every character of a line is a character of the text it was split from. */
  lemma LineCharsFromContent(content: string, i: int)
    requires 0 <= i < |Split(content, '\n')|
    ensures forall c :: c in Split(content, '\n')[i] ==> c in content
  {
    JoinSplit(content, '\n');
    JoinHasParts(Split(content, '\n'), "\n", i);
  }

  lemma {:induction false} JoinHasParts(parts: seq<string>, sep: string, i: int)
    requires 0 <= i < |parts|
    ensures forall c :: c in parts[i] ==> c in Join(parts, sep)
    decreases |parts|
  {
    if |parts| > 1 {
      if i > 0 {
        JoinHasParts(parts[1..], sep, i - 1);
        assert parts[1..][i - 1] == parts[i];
      }
    }
  }

  lemma {:induction false} NoVersionLines(lines: seq<string>, version: string)
    requires forall i :: 0 <= i < |lines| ==> !IsVersionLine(lines[i])
    ensures LastVersion(lines, version) == version
    decreases |lines|
  {
    if |lines| > 0 {
      NoVersionLines(lines[..|lines| - 1], version);
    }
  }

  // ---------------------------------------------------------------------------
  // Metadata path

  /** `output_path.replace('.md', '_metadata.json')`, as written. */
  function MetadataPath(path: string): string {
    ReplaceAll(path, ".md", "_metadata.json")
  }

  /** A path without ".md" is its own metadata path. */
  lemma MetadataPathWithoutMd(path: string)
    requires !Contains(path, ".md")
    ensures MetadataPath(path) == path
  {
    ReplaceAbsent(path, ".md", "_metadata.json");
  }

  /** "threat_model", a path without ".md", is its own metadata path. */
  lemma MetadataOverwritesModel()
    ensures MetadataPath("threat_model") == "threat_model"
  {
    LacksFirstChar("threat_model", ".md");
    MetadataPathWithoutMd("threat_model");
  }

  /** Prepending text that cannot start an occurrence commutes with `replace`. */
  lemma {:induction false} ReplaceAfterPrefix(a: string, b: string, pat: string, rep: string)
    requires |pat| > 0
    requires forall i :: 0 <= i < |a| ==> !OccursAt(a + b, pat, i)
    ensures ReplaceAll(a + b, pat, rep) == a + ReplaceAll(b, pat, rep)
    decreases |a|
  {
    var s := a + b;
    if |a| > 0 {
      assert s[1..] == a[1..] + b;
      forall i | 0 <= i < |a[1..]| ensures !OccursAt(a[1..] + b, pat, i) {
        assert !OccursAt(s, pat, i + 1);
        if i + |pat| <= |s[1..]| {
          assert s[1..][i..i + |pat|] == s[i + 1..i + 1 + |pat|];
        }
      }
      ReplaceAfterPrefix(a[1..], b, pat, rep);
      if |s| >= |pat| {
        assert s[0..0 + |pat|] == s[..|pat|];
        assert !OccursAt(s, pat, 0);
      }
      assert [a[0]] + (a[1..] + ReplaceAll(b, pat, rep)) == a + ReplaceAll(b, pat, rep);
    } else {
      assert s == b;
    }
  }

  /** The suffix swap the code is meant to perform: `stem_metadata.json` for `stem.md`. */
  function MetadataPathFixed(path: string): (r: string)
    ensures r != path
    ensures |path| >= 3 && path[|path| - 3..] == ".md" ==> r == path[..|path| - 3] + "_metadata.json"
  {
    if |path| >= 3 && path[|path| - 3..] == ".md" then path[..|path| - 3] + "_metadata.json"
    else path + "_metadata.json"
  }

  /**
    For a path that ends in ".md" and has no other ".md", the code as written
    and the suffix swap agree.
   */
  lemma MetadataPathAgrees(stem: string)
    requires forall i :: 0 <= i < |stem| ==> !OccursAt(stem + ".md", ".md", i)
    ensures MetadataPath(stem + ".md") == MetadataPathFixed(stem + ".md")
  {
    var p := stem + ".md";
    ReplaceAfterPrefix(stem, ".md", ".md", "_metadata.json");
    assert ".md"[..3] == ".md" && ".md"[3..] == "";
    assert ReplaceAll(".md", ".md", "_metadata.json") == "_metadata.json" + ReplaceAll("", ".md", "_metadata.json");
    assert p[|p| - 3..] == ".md" && p[..|p| - 3] == stem;
  }

  /** `os.path.basename`: the text after the last '/'. */
  function Basename(path: string): (r: string)
    ensures '/' !in r
    ensures |r| <= |path| && path[|path| - |r|..] == r
    ensures |r| == |path| || path[|path| - |r| - 1] == '/'
    decreases |path|
  {
    if |path| == 0 || path[|path| - 1] == '/' then ""
    else Basename(path[..|path| - 1]) + [path[|path| - 1]]
  }

  // ---------------------------------------------------------------------------
  // Saving

  /** The metadata a save writes; `positions` is None when it writes `{}`. */
  datatype Metadata = Metadata(
    version: string, versionId: string, lastUpdated: string, modelFile: string, positions: Option<Positions>)

  /** What a save leaves behind: the model file's text, the metadata path and the metadata. */
  datatype Saved = Saved(markdown: string, metadataPath: string, metadata: Metadata)

  /** The metadata as the compatibility check reads it back. */
  function AsDocument(md: Metadata): MetadataDoc {
    Doc(Some(MStr(md.version)), Some(MStr(md.versionId)))
  }

  /**
    `save_model_with_metadata`. `updatedAt` and `idAt` are the two clock
    readings; `positionsData` is the editor's positions when it sent a
    non-empty table; `assembled` is what assembling the stamped text yields
    (consulted only without editor positions). The metadata path is the
    code's `replace`, see `MetadataPath`; `SaveModelFixed` below uses the
    suffix swap instead.
   */
  function SaveModel(content: string, outputPath: string, updatedAt: Timestamp, idAt: Timestamp,
                     positionsData: Option<Positions>, assembled: Option<ThreatModel>): (s: Saved)
    ensures s.metadata.version == Version && s.metadata.versionId == VersionId(idAt)
    ensures s.metadata.lastUpdated == Display(updatedAt)
    ensures s.metadata.modelFile == Basename(outputPath)
    ensures s.metadataPath == MetadataPath(outputPath)
    ensures !Contains(outputPath, ".md") ==> s.metadataPath == outputPath
    ensures StartsWith(s.markdown, VersionTag)
    ensures positionsData.Some? ==> s.metadata.positions == positionsData
    ensures positionsData.None? && assembled.Some? ==> s.metadata.positions == Some(ExtractPositions(assembled.value))
    ensures positionsData.None? && assembled.None? ==> s.metadata.positions == None
    ensures s.markdown == Stamp(content, VersionId(idAt), Display(updatedAt))
    ensures StartsWith(content, VersionTag) ==> s.markdown == content
    ensures !StartsWith(content, VersionTag) ==> s.markdown == Header(VersionId(idAt), Display(updatedAt)) + content
  {
    var markdown := Stamp(content, VersionId(idAt), Display(updatedAt));
    var positions :=
      if positionsData.Some? then positionsData
      else if assembled.Some? then Some(ExtractPositions(assembled.value))
      else None;
    var metadataPath := MetadataPath(outputPath);
    assert !Contains(outputPath, ".md") ==> metadataPath == outputPath by {
      if !Contains(outputPath, ".md") { MetadataPathWithoutMd(outputPath); }
    }
    Saved(markdown, metadataPath,
          Metadata(Version, VersionId(idAt), Display(updatedAt), Basename(outputPath), positions))
  }

  /**
    The save with the metadata path the code is meant to use: the same model
    text and metadata, written next to the model file and never over it.
   */
  function SaveModelFixed(content: string, outputPath: string, updatedAt: Timestamp, idAt: Timestamp,
                          positionsData: Option<Positions>, assembled: Option<ThreatModel>): (s: Saved)
    ensures var written := SaveModel(content, outputPath, updatedAt, idAt, positionsData, assembled);
            s.markdown == written.markdown && s.metadata == written.metadata
    ensures s.metadataPath != outputPath
  {
    SaveModel(content, outputPath, updatedAt, idAt, positionsData, assembled)
      .(metadataPath := MetadataPathFixed(outputPath))
  }

  /** A file as a save leaves it: model text, or a metadata document. */
  datatype File = TextFile(text: string) | MetadataFile(metadata: Metadata)

  /** The two writes of a save, model file first, then the metadata file. */
  function WriteSaved(files: map<string, File>, outputPath: string, s: Saved): (r: map<string, File>)
    ensures s.metadataPath in r && r[s.metadataPath] == MetadataFile(s.metadata)
    ensures outputPath in r && (s.metadataPath != outputPath ==> r[outputPath] == TextFile(s.markdown))
    ensures forall p :: p in files && p != outputPath && p != s.metadataPath ==> p in r && r[p] == files[p]
  {
    files[outputPath := TextFile(s.markdown)][s.metadataPath := MetadataFile(s.metadata)]
  }

  /**
    As written, saving to a path without ".md" (for example "threat_model")
    replaces the model text it has just written with the metadata.
   */
  lemma SaveOverwritesModel(files: map<string, File>, content: string, outputPath: string,
                            updatedAt: Timestamp, idAt: Timestamp,
                            positionsData: Option<Positions>, assembled: Option<ThreatModel>)
    requires !Contains(outputPath, ".md")
    ensures var s := SaveModel(content, outputPath, updatedAt, idAt, positionsData, assembled);
            var r := WriteSaved(files, outputPath, s);
            outputPath in r && r[outputPath] == MetadataFile(s.metadata)
  {
  }

  /**
    With the suffix swap both files survive the save, and what is read back
    from them passes the compatibility check.
   */
  lemma SaveFixedThenCheck(files: map<string, File>, content: string, outputPath: string,
                           updatedAt: Timestamp, idAt: Timestamp,
                           positionsData: Option<Positions>, assembled: Option<ThreatModel>)
    requires ValidTimestamp(idAt)
    requires !StartsWith(content, VersionTag)
    ensures var s := SaveModelFixed(content, outputPath, updatedAt, idAt, positionsData, assembled);
            var r := WriteSaved(files, outputPath, s);
            && r[outputPath].TextFile? && r[s.metadataPath].MetadataFile?
            && CheckCompatibility(Some(r[outputPath].text), AsDocument(r[s.metadataPath].metadata))
  {
    SaveThenCheck(content, outputPath, updatedAt, idAt, positionsData, assembled);
  }

  /** `tag + rest` with `rest` free of the tag's first character loses exactly the tag. */
  lemma ReplaceLeadingTag(tag: string, rest: string)
    requires |tag| > 0 && tag[0] !in rest
    ensures ReplaceAll(tag + rest, tag, "") == rest
  {
    ReplaceAtFront(tag, rest, "");
    LacksFirstChar(rest, tag);
    ReplaceAbsent(rest, tag, "");
  }

  /** The value of a header line `tag + " " + value` is `value`. */
  lemma HeaderLineValue(tag: string, value: string)
    requires |tag| > 0 && tag[0] != ' ' && tag[0] !in value
    requires |value| > 0 && Unpadded(value)
    ensures FieldValue(tag + " " + value, tag) == value
  {
    assert tag + " " + value == tag + (" " + value);
    assert tag[0] !in " " + value by {
      assert forall i :: 1 <= i < |" " + value| ==> (" " + value)[i] == value[i - 1];
    }
    ReplaceLeadingTag(tag, " " + value);
    TrimAround(" ", value, "");
    assert " " + value + "" == " " + value;
  }

  /** A version id is one line, free of '#', and has no surrounding whitespace. */
  lemma VersionIdShape(idAt: Timestamp)
    requires ValidTimestamp(idAt)
    ensures var vid := VersionId(idAt);
            && '\n' !in vid && '#' !in vid
            && |vid| > 0 && Unpadded(vid)
  {
    var vid, c := VersionId(idAt), Compact(idAt);
    assert vid == "1.0-" + c;
    forall i | 0 <= i < |vid| ensures vid[i] != '\n' && vid[i] != '#' && !IsSpace(vid[i]) {
      if i >= 4 {
        assert vid[i] == c[i - 4];
      }
    }
  }

  /** Two separator-free lines in front of the rest split off as two parts. */
  lemma SplitTwo(l1: string, l2: string, rest: string)
    requires '\n' !in l1 && '\n' !in l2
    ensures Split(l1 + ['\n'] + (l2 + ['\n'] + rest), '\n') == [l1, l2] + Split(rest, '\n')
  {
    SplitFirst(l1, '\n', l2 + ['\n'] + rest);
    SplitFirst(l2, '\n', rest);
    assert [l1] + ([l2] + Split(rest, '\n')) == [l1, l2] + Split(rest, '\n');
  }

  /** The header is the version line, the version-id line, and the rest. */
  lemma HeaderShape(vid: string, lastUpdated: string, content: string)
    ensures Header(vid, lastUpdated) + content
         == (VersionTag + " " + Version) + ['\n'] + ((VersionIdTag + " " + vid) + ['\n'] + ("# Last Updated: " + lastUpdated + "\n\n" + content))
  {
  }

  /** The first two lines of a stamped text are the version and version-id lines. */
  lemma StampedLines(vid: string, lastUpdated: string, content: string)
    requires '\n' !in vid
    ensures Split(Header(vid, lastUpdated) + content, '\n')
         == [VersionTag + " " + Version, VersionIdTag + " " + vid]
            + Split("# Last Updated: " + lastUpdated + "\n\n" + content, '\n')
  {
    var l1, l2 := VersionTag + " " + Version, VersionIdTag + " " + vid;
    assert '\n' !in l1;
    assert '\n' !in l2 by {
      forall i | 0 <= i < |l2| ensures l2[i] != '\n' {
        if i >= |VersionIdTag| + 1 {
          assert l2[i] == vid[i - |VersionIdTag| - 1];
        }
      }
    }
    HeaderShape(vid, lastUpdated, content);
    SplitTwo(l1, l2, "# Last Updated: " + lastUpdated + "\n\n" + content);
  }

  /** The header a save writes parses back to the version and version id it records. */
  lemma ParseStamped(idAt: Timestamp, lastUpdated: string, content: string)
    requires ValidTimestamp(idAt)
    ensures ParseHeader(Header(VersionId(idAt), lastUpdated) + content) == (Version, VersionId(idAt))
  {
    var vid := VersionId(idAt);
    var l1, l2 := VersionTag + " " + Version, VersionIdTag + " " + vid;
    var post := Split("# Last Updated: " + lastUpdated + "\n\n" + content, '\n');
    VersionIdShape(idAt);
    StampedLines(vid, lastUpdated, content);
    var lines := [l1, l2] + post;
    assert lines[0] == l1 && lines[1..] == [] + [l2] + post;
    assert IsVersionLine(l1);
    HeaderLineValue(VersionTag, Version);
    assert IsVersionIdLine(l2);
    HeaderLineValue(VersionIdTag, vid);
    ScanStopsAtId([], l2, post, Version);
  }

  /**
    Round trip: a model saved from unstamped content passes the compatibility
    check against the metadata saved with it.
   */
  lemma SaveThenCheck(content: string, outputPath: string, updatedAt: Timestamp, idAt: Timestamp,
                      positionsData: Option<Positions>, assembled: Option<ThreatModel>)
    requires ValidTimestamp(idAt)
    requires !StartsWith(content, VersionTag)
    ensures var s := SaveModel(content, outputPath, updatedAt, idAt, positionsData, assembled);
            CheckCompatibility(Some(s.markdown), AsDocument(s.metadata))
  {
    ParseStamped(idAt, Display(updatedAt), content);
  }

  /**
    Saving already stamped content keeps its old header, while the metadata
    records the new version id: when the two clock readings differ, the pair
    fails the compatibility check.
   */
  lemma ResaveIsIncompatible(content: string, outputPath: string, updatedAt1: Timestamp, idAt1: Timestamp,
                             updatedAt2: Timestamp, idAt2: Timestamp,
                             positionsData: Option<Positions>, assembled: Option<ThreatModel>)
    requires ValidTimestamp(idAt1)
    requires !StartsWith(content, VersionTag)
    requires Compact(idAt1) != Compact(idAt2)
    ensures var s1 := SaveModel(content, outputPath, updatedAt1, idAt1, positionsData, assembled);
            var s2 := SaveModel(s1.markdown, outputPath, updatedAt2, idAt2, positionsData, assembled);
            && s2.markdown == s1.markdown
            && !CheckCompatibility(Some(s2.markdown), AsDocument(s2.metadata))
  {
    ParseStamped(idAt1, Display(updatedAt1), content);
    assert VersionId(idAt1)[4..] == Compact(idAt1);
    assert VersionId(idAt2)[4..] == Compact(idAt2);
  }
}

=== FILE: wrappers.dfy ===
/** Failure-carrying datatypes used in place of Python's None and exceptions. */
module Wrappers {

  /** A value that may be absent (Python's `None`, or a missing dictionary key). */
  datatype Option<+T> = None | Some(value: T) {

    /** The wrapped value, or `default` when absent (Python's `d.get(k, default)`). */
    function GetOr(default: T): T {
      match this
      case Some(v) => v
      case None => default
    }
  }

  /** The outcome of an operation that either succeeds or raises. */
  datatype Result<+R, +E> = Success(value: R) | Failure(error: E)
}
